=== FILE: README.md ===
# Arkiapuri API core in Dafny

Arkiapuri is a household food-management back end: users sign up and sign
in, gather into households, invite each other by email, and keep a ledger
of food items, a pantry and shopping lists, with product data looked up
from Open Food Facts. This project models the sequential core of that
service as pure Dafny functions over immutable records and proves what
each request handler promises.

- **Households and invitations** (`HouseholdModel`, `InvitationModel`,
  `Households`): the role predicates `isMember`, `getUserRole` and
  `canInvite`, and the invitation lifecycle (pending, then accepted or
  lazily marked expired). Every household handler is a transition
  `Store × request → (Store, outcome)` that keeps the guard order of the
  code. The store invariant `Households.Valid` is preserved by every
  handler: each household's owner is its sole `owner` entry and every
  invitation is filed under its own token.
- **Accounts** (`UserModel`, `Accounts`): sign-up (create a household, or
  wait for a pending invitation), sign-in with session-token pruning,
  sign-out, the profile password guard, and account deletion with its
  invitation clean-up.
- **Ownership** (`Ownership`): the query filter and the ownership stamp of
  shared data.
- **Food items** (`FoodItems`): the location ledger, where `locations` is
  derived from the positive quantities on every save.
- **Open Food Facts** (`OffService`, `OffController`): barcode cleaning
  and validation, category extraction and formatting, product defaults,
  pagination, the request clamps (`parseInt(x) || d` and `Math.min`), and
  the quantity and category merges of adding and enriching food items.
- **Pantry and shopping lists** (`Pantries`, `ShoppingLists`): item
  validation, merge by name, all-or-nothing batches, removal at zero
  quantity, and the bought-item hand-over from a list to the pantry.
- **Upload filter** (`Upload`): which image files the upload middleware
  accepts, the size limit, and the stored file name.

Modelling conventions:

- The database is a map from ids to records; pantries are keyed by their
  user and invitations by their token.
- Time is milliseconds as an `int`. `now`, fresh ids and fresh tokens are
  parameters.
- A `findOne` on a non-key field is given as its answer, together with a
  `requires` saying what a correct answer is.
- Sending the invitation email, the Open Food Facts lookups and bcrypt
  are parameters or ideal stand-ins. A stored password is `Hashed(p)`, and
  a candidate matches exactly when it is `p`.

Where the written code and its documentation disagree, the model follows
the code:

- The data filter has no OR clause: a household member does not see their
  own records that carry no household.
- `addToFoodItems` does not clamp the quantity it adds.
- `markItemAsBought` always appends a new pantry entry rather than merging.
- `deleteUserAccount` never matches its own household branch, so it leaves
  households untouched.

## Model

| member | source | states |
|---|---|---|
| HouseholdModel.NewMemberEntry | src/models/household.js:15-32 | a new member entry carries the user and the join time, and its role is the given one or `member` when none is given |
| HouseholdModel.NewLegacyInvitation | src/models/household.js:33-63 | an embedded invitation starts pending and expires exactly 604800000 ms (7 days) after it was created |
| HouseholdModel.FirstEntryOf | src/models/household.js:102-107 | the index of the first member entry of a user, and none exactly when no entry names them |
| HouseholdModel.GetUserRole | src/models/household.js:102-107 | non-null exactly when the user is a member; then it is the role on the user's first entry |
| HouseholdModel.GetUserRoleOfFirstEntry | src/models/household.js:102-107 | when no earlier entry names a user, the role of that user is the role on this entry, whatever follows it |
| HouseholdModel.CanInvite | src/models/household.js:110-114 | owners and admins may always invite; a plain member may invite exactly when `allowMemberInvites` is set; a non-member never may |
| HouseholdModel.DefaultSettingsOnlyOwnersAndAdminsInvite | src/models/household.js:64-68 | with the default settings (`allowMemberInvites` false) exactly the owners and admins may invite |
| HouseholdModel.SoleOwnerMeansExactlyOneOwner | src/models/household.js:102-114 | under the sole-owner invariant exactly one entry has role `owner`, it is `household.owner`'s, and so the owner may always invite |
| HouseholdModel.NewHousehold | src/controllers/household.js:28-38 | a new household has its creator as owner and as only member with role `owner`, no invitations, default settings, and it satisfies the sole-owner invariant |
| HouseholdModel.RemoveEntriesOf | src/controllers/household.js:392-394 | filtering out a user keeps exactly the entries of the other users and keeps the first entry when it is someone else's |
| HouseholdModel.RemoveEntriesOfSingle | src/controllers/household.js:392-394 | a one-entry list loses its entry exactly when that entry is the user's |
| HouseholdModel.RemoveEntriesOfConcat | src/controllers/household.js:392-394 | the filter distributes over concatenation, so the kept entries stay in their order and each appears as often as before |
| HouseholdModel.RemoveEntriesOfAbsent | src/controllers/household.js:392-394 | filtering out a user with no entry leaves the list unchanged |
| HouseholdModel.RemovingNonOwnerKeepsSoleOwner | src/controllers/household.js:436-446 | removing anyone but the owner keeps the sole-owner invariant |
| Households.FileByToken | src/models/invitation.js:21-26 | filing an invitation under its own token keeps every invitation filed under its own token (the unique token index) |
| Households.CreateHousehold | src/controllers/household.js:14-59 | refuses exactly a caller who already has a household, and then changes nothing; a caller without one always succeeds: one household owned by the caller is added, with the caller as only `owner` member and the given name or `username + "n perhe"`, the caller's reference points at it, nothing else changes, and the store invariant is kept |
| Households.GetHousehold | src/controllers/household.js:62-108 | returns the caller's household exactly when the reference resolves and the caller is a member of it; otherwise clears the caller's dangling reference and answers null |
| Households.MergeSettings | src/controllers/household.js:134-137 | each settings field the patch carries replaces the stored one and every other field keeps its value |
| Households.UpdateHousehold | src/controllers/household.js:111-150 | 404 exactly without a household, 403 exactly when the caller is neither owner nor admin, and success exactly when both checks pass; then only the name (when given) and the merged settings change, never the members or the owner |
| Households.EmailShapedHasNoSpace | src/controllers/household.js:166-172 | an address the email pattern accepts contains no white space |
| Households.EmailShapedNormalizes | src/models/invitation.js:5-10 | the schema's lowercase-and-trim leaves an accepted, lowercased address as it is, so the stored invitation email is the lowercased request email |
| Households.InvitationFor | src/controllers/household.js:217-228 | the invitation created for an accepted address has the lowercased email, the household, the inviter and the token, is valid now and expires 7 days later |
| Households.InviteCheck | src/controllers/household.js:158-214 | the invitation request is admitted exactly when the email is well formed, the caller's household resolves and every guard passes, and it names the caller's household |
| Households.InviteGuardOrder | src/controllers/household.js:158-214 | the guards fire in the code's order: email missing, email malformed, no household (404), not allowed to invite (403), address already a member, valid invitation already pending |
| Households.InviteToHousehold | src/controllers/household.js:153-263 | a refused request changes nothing; an admitted one adds exactly one new pending invitation under the fresh token with the lowercased email, and when sending the email fails the invitation stays and the link is returned |
| Households.InviteKeepsAtMostOneValid | src/controllers/household.js:202-228 | inviting keeps at most one valid invitation per (email, household) pair |
| Households.JoinHousehold | src/controllers/household.js:266-359 | the legacy code join refuses in the code's order, each refusal stated by its condition: an empty code, a caller with a household, an unknown code, a code no longer pending (used), a pending code past its expiry (marked expired, nothing else changes), a code for another address; exactly when the first pending code with that value has not expired (the expiry instant itself still admits) and names the caller's address, the caller is appended as `member`, that code is marked accepted and the caller's reference is set |
| Households.FirstWithCode | src/controllers/household.js:299-301 | the first embedded invitation carrying the code, with no earlier one carrying it, and none exactly when no invitation carries it |
| Households.RemoveEntriesKeepsOtherRoles | src/controllers/household.js:392-394 | dropping one user's entries leaves every other user's role as it was |
| Households.WithoutMember | src/controllers/household.js:444-446 | the user is no longer a member, every other user keeps their membership and role, nothing but the members changes, and the sole owner survives when the user is not the owner |
| Households.LeaveHousehold | src/controllers/household.js:362-409 | refuses exactly a caller without a household, a dangling reference and the owner; every other caller succeeds, and then only the caller's entries are removed and only the caller's reference is cleared, keeping the store invariant |
| Households.RemoveMember | src/controllers/household.js:412-461 | 404 exactly without a household, 403 exactly unless owner or admin, and 400 exactly for the owner as target; every other request succeeds, removing the target's entries and clearing the target's reference without checking that the target was a member |
| Households.AssignableRole | src/controllers/household.js:470-475 | exactly "admin" and "member" are accepted as new roles, so no one is made owner |
| Households.UpdateMemberRole | src/controllers/household.js:464-526 | refuses a bad role, no household, a caller other than the owner, a non-member target and the owner as target, in that order, each exactly under its condition; the owner re-roling any other member always succeeds, and then only the target's role changes and every other role, user and join time stays |
| Households.FirstEntryAfterUpdate | src/controllers/household.js:495-504 | changing the role on one entry leaves every user's first entry where it was |
| Households.ClearMembersRefs | src/controllers/household.js:551-555 | exactly the members' household references are cleared |
| Households.DeleteHousehold | src/controllers/household.js:529-565 | 404 exactly without a household, 403 exactly unless the caller is the owner, and the owner always succeeds; then the household is gone, every member's reference is cleared and no other user changes |
| Households.DeleteClearsOwner | src/controllers/household.js:551-555 | after a successful delete the owner has no household either |
| Households.CheckInvitation | src/controllers/household.js:599-604 | a token passes exactly when its invitation is valid; a pending one past its expiry is marked expired, and any other failing one is left as it is |
| Households.GetInvitationByToken | src/controllers/household.js:568-627 | returns the invitation exactly when the token is known and valid; otherwise only that invitation may change, by being marked expired |
| Households.AcceptInvitation | src/controllers/household.js:630-722 | refuses a caller with a household, an unknown token and an invalid one (marking it expired when it is pending and past its expiry); otherwise appends the caller as `member`, marks the invitation accepted with `acceptedAt` and `acceptedBy`, and sets the caller's reference; a different email only warns |
| Households.AcceptKeepsAtMostOneValid | src/controllers/household.js:630-722 | accepting keeps at most one valid invitation per (email, household) pair |
| InvitationModel.NormalizeEmail | src/models/invitation.js:5-10 | the stored email has no upper-case letter and no leading or trailing blank, and an address without blanks is just lowercased |
| InvitationModel.NormalizeEmailCuts | src/models/invitation.js:5-10 | the stored email is the lowercased address with a blank prefix and a blank suffix cut off |
| InvitationModel.NormalizeLowered | src/controllers/user.js:35-39 | lower-casing an address before it is cast through the schema's setters changes nothing: the filter matches the normalized address |
| InvitationModel.NewInvitation | src/models/invitation.js:5-46 | a new invitation is pending, carries the normalised email, the household, the inviter and the token, has no acceptance data, expires 7 days after creation and is valid at creation |
| InvitationModel.MarkExpired | src/models/invitation.js:69-72 | only the status changes, to `expired`, and the invitation is then never valid |
| InvitationModel.AddKeepsAtMostOneValid | src/controllers/household.js:202-228 | adding an invitation under a fresh token when its pair has no valid one keeps at most one valid invitation per pair |
| InvitationModel.AtMostOneValidLater | src/models/invitation.js:64-67 | validity only lapses as time passes, so the at-most-one invariant survives any later clock |
| UserModel.PreSaveHook | src/models/user.js:61-72 | the password is hashed exactly when it was modified and is non-empty, otherwise saved as it is |
| UserModel.ComparePassword | src/models/user.js:74-83 | throws exactly when no candidate is given; otherwise the candidate matches exactly the password it was hashed from |
| UserModel.IsThisEmailInUse | src/models/user.js:85-96 | throws on an empty email, answers false when the lookup fails, and otherwise answers true exactly when no user has the address (despite its name) |
| Accounts.CreateUser | src/controllers/user.js:18-69 | a taken address (or a failed lookup) creates nothing; a new user is stored with a hashed password and no tokens; with a valid pending invitation for the address as normalized by the invitation schema (lower-cased and trimmed) no household is made; otherwise a household owned by the user is created and referenced, and a failed household save still signs the user up |
| Accounts.SignedUpStore | src/controllers/user.js:28-59 | the new user is added with a hashed password and nothing else in the user map changes; the household, when made, is owned by and referenced from the user; the store invariant and unique addresses are kept |
| Accounts.PruneTokens | src/controllers/user.js:93-102 | keeps exactly the tokens signed less than a day ago |
| Accounts.PruneTokensSingle | src/controllers/user.js:93-102 | pruning one token keeps it exactly when it is younger than a day |
| Accounts.PruneTokensConcat | src/controllers/user.js:93-102 | pruning distributes over concatenation, so the kept tokens stay in order with their multiplicity |
| Accounts.PruneLater | src/controllers/user.js:93-102 | pruning now and then later is pruning later |
| Accounts.PruneIdempotent | src/controllers/user.js:93-102 | pruning twice at the same time is pruning once |
| Accounts.SignIn | src/controllers/user.js:71-120 | an unknown address and a wrong password are refused and issue no token, and an empty password throws; on success the new token follows the tokens younger than a day and nothing else changes |
| Accounts.SignInLeavesFreshTokens | src/controllers/user.js:93-106 | after sign-in every stored token is younger than a day and the new token is last |
| Accounts.SecondField | src/controllers/user.js:151 | `split(" ")[1]` is missing exactly when the header has no space, and is otherwise the space-free run after the first space |
| Accounts.SecondFieldOfBearer | src/controllers/user.js:151 | the second field of `scheme + " " + token` is the token |
| Accounts.SignOut | src/controllers/user.js:149-165 | no header answers nothing and a header without a token field is refused, both changing nothing; otherwise exactly the caller's tokens equal to the presented one are removed and the rest are kept in order |
| Accounts.DropToken | src/controllers/user.js:158-162 | keeps exactly the tokens other than the presented one |
| Accounts.DropTokenSingle | src/controllers/user.js:158-162 | filtering one token drops it exactly when it is the presented one |
| Accounts.DropTokenConcat | src/controllers/user.js:158-162 | the filter distributes over concatenation, so the kept tokens stay in order with their multiplicity |
| Accounts.DropTokenAbsent | src/controllers/user.js:158-162 | filtering out a token that is not stored changes nothing |
| Accounts.SignInThenOut | src/controllers/user.js:93-162 | signing out with the token just issued removes it |
| Accounts.UpdateUserProfile | src/controllers/user.js:199-243 | an unknown user is 404; a wrong current password, when both passwords are given, is 400 exactly and changes nothing; otherwise the answer is "updated" exactly when the user with the new username and plain new password passes the schema, and a 500 exactly when it does not; on success the username changes when given and the password is the hash of the new one exactly when both passwords were given |
| Accounts.PasswordChangeRoundTrip | src/controllers/user.js:215-227 | after a password change exactly the new password verifies |
| Accounts.DropInvitationsOf | src/controllers/user.js:282-285 | keeps exactly the invitations neither sent by the user nor addressed to the email |
| Accounts.DeleteUserAccount | src/controllers/user.js:245-298 | an unknown user is 404; otherwise the user is deleted with the invitations they sent and those addressed to their email as the invitation schema normalizes it (lower-cased and trimmed), and households are left as they are |
| Accounts.DeleteAccountDropsInvitations | src/controllers/user.js:282-285 | after deletion no invitation is from the user or to the user's normalized address, and every other invitation remains |
| Ownership.GetDataQuery | src/helpers/householdHelpers.js:21-28 | a user with a household matches exactly the records of that household; a user without one matches exactly their own records |
| Ownership.GetDataOwnership | src/helpers/householdHelpers.js:35-40 | the stamp always carries the creator's id, and the household or null |
| Ownership.OwnDataVisible | src/helpers/householdHelpers.js:21-40 | whatever a user creates matches their own query |
| Ownership.HouseholdDataShared | src/helpers/householdHelpers.js:21-40 | members of one household see each other's records |
| Ownership.PersonalDataHiddenInHousehold | src/helpers/householdHelpers.js:21-28 | with no OR clause, a household member does not see their own records that carry no household |
| Ownership.SoloUserSeesOnlyOwn | src/helpers/householdHelpers.js:21-28 | a user without a household sees exactly the records they created |
| FoodItems.ParseLocation | src/models/foodItem.js:29-34 | exactly the three location names are accepted, each read back as itself |
| FoodItems.ParseLocationName | src/models/foodItem.js:29-34 | every location's name parses back to it |
| FoodItems.Add | src/controllers/openFoodFacts.js:226 | `quantities[l] += amount` changes one key by the amount and keeps the other two |
| FoodItems.Only | src/controllers/openFoodFacts.js:244-248 | a new item's quantities are the amount at one location and 0 elsewhere |
| FoodItems.UpdateLocations | src/models/foodItem.js:83-87 | a location is listed exactly when its quantity is positive, at most once, in schema order |
| FoodItems.UpdateLocationsUnique | src/models/foodItem.js:83-87 | any ordered list of exactly the positive locations is what `updateLocations` gives |
| FoodItems.FreshItemHasNoLocations | src/models/foodItem.js:35-39 | the default all-zero quantities give no locations |
| FoodItems.Save | src/models/foodItem.js:5-93 | a save fails for a blank name, a missing unit or a bad Open Food Facts grade or group; a saved item has its name trimmed and its locations agreeing with its quantities, and nothing else changes |
| FoodItems.SaveIdempotent | src/models/foodItem.js:83-93 | saving a saved item again changes nothing |
| FoodItems.TrimIdempotent | src/models/foodItem.js:5-9 | trimming a trimmed name changes nothing |
| OffService.CleanBarcode | src/services/openFoodFactsService.js:300-302 | the cleaned barcode has no blank or hyphen, keeps only characters of the input, and a barcode without them is unchanged |
| OffService.CleanBarcodeConcat | src/services/openFoodFactsService.js:300-302 | cleaning distributes over concatenation, so every other character is kept in order |
| OffService.CleanBarcodeIdempotent | src/services/openFoodFactsService.js:300-302 | cleaning twice is cleaning once |
| OffService.NoiseVanishes | src/services/openFoodFactsService.js:300-302 | a run of blanks and hyphens cleans to nothing |
| OffService.GroupsJoinClean | src/services/openFoodFactsService.js:300-302 | two digit groups with separators between them clean to the joined digits |
| OffService.IsValidBarcode | src/services/openFoodFactsService.js:287-293 | valid exactly when the cleaned barcode is all digits and 8, 12, 13 or 14 long |
| OffService.IsValidBarcodeOfClean | src/services/openFoodFactsService.js:287-302 | a barcode and its cleaned form are equally valid |
| OffService.GroupedBarcodeValid | src/services/openFoodFactsService.js:287-302 | digit groups of an admitted total length are valid whatever blanks and hyphens separate them |
| OffService.CleanCategories | src/services/openFoodFactsService.js:231-241 | each kept tag is an input tag with "en:" stripped, and none mentions the plant-based umbrella tag |
| OffService.CleanCategoriesSnoc | src/services/openFoodFactsService.js:231-241 | one more tag adds its stripped form at the end unless it mentions the umbrella tag |
| OffService.StripEnPrefix | src/services/openFoodFactsService.js:236 | a tag beginning with "en:" loses exactly that prefix |
| OffService.ExtractMainCategory | src/services/openFoodFactsService.js:231-241 | never empty; "other" for a missing or empty list; anything else is a stripped input tag that does not mention the umbrella tag |
| OffService.EmptyLastTagGivesOther | src/services/openFoodFactsService.js:231-241 | a last tag that is kept but strips to the empty string gives "other", whatever precedes it |
| OffService.BareEnTagGivesOther | src/services/openFoodFactsService.js:231-241 | a list ending in the bare tag "en:" gives "other" |
| OffService.LastKeptTagWins | src/services/openFoodFactsService.js:231-241 | a non-empty last tag that is kept is the main category |
| OffService.DroppedTagIgnored | src/services/openFoodFactsService.js:231-241 | a last tag that mentions the umbrella tag does not change the answer |
| OffService.SameCleanSameMain | src/services/openFoodFactsService.js:231-241 | lists that clean to the same tags give the same main category |
| OffService.FormatCategoryName | src/services/openFoodFactsService.js:248-250 | same length; every hyphen becomes a space; the first word character of each word is upper-cased and every other character kept |
| OffService.FormatCategoryNameIdempotent | src/services/openFoodFactsService.js:248-250 | formatting a formatted name changes nothing |
| OffService.FormattedWordsCapitalised | src/services/openFoodFactsService.js:248-250 | no word of a formatted name starts with a lower-case letter |
| OffService.BabyFoodsName | src/services/openFoodFactsService.js:248-250 | "baby-foods" becomes "Baby Foods" |
| OffService.GetPopularCategories | src/services/openFoodFactsService.js:138-167 | 15 entries whose id and key are the slug and whose name is the formatted slug |
| OffService.NutritionOf | src/services/openFoodFactsService.js:189-200 | each nutrition figure is its per-100 g key or 0, and calories fall back to the plain kcal key before 0 |
| OffService.FormatProductData | src/services/openFoodFactsService.js:174-224 | the product record's defaults field by field: the name or "Unknown Product", brands, quantity and ingredients or "", the nutrition figures or 0, the image falling back to the front image, the main category, the tag lists or [], and the source "openfoodfacts" |
| OffService.EmptyNutrimentsAsMissing | src/services/openFoodFactsService.js:189-200 | empty nutriments format like missing ones |
| OffService.CaloriesFallBack | src/services/openFoodFactsService.js:189-200 | without the per-100 g kcal key the plain kcal key is used, and without both the calories are 0 |
| OffService.CeilDiv | src/services/openFoodFactsService.js:89 | `Math.ceil(count / pageSize)` as bounds: the smallest page count that covers the results, 0 for no results |
| OffService.SearchResults | src/services/openFoodFactsService.js:81-92 | a missing product list gives count 0, page 1 and 0 pages; otherwise every product is formatted, the count is read or 0, the page and page size are the reported non-zero ones or else 1 and the requested size, and the page count is the count divided by the requested size rounded up (for either sign of the size) |
| OffService.SliceTo | src/services/openFoodFactsService.js:270 | `slice(0, k)` is a prefix: k items for k ≥ 0, and all but the last -k for negative k |
| OffService.ToSuggestion | src/services/openFoodFactsService.js:270-273 | a plain string suggestion is its own name and id; an entry uses its truthy name and id, and falls back to the whole entry for a falsy one |
| OffService.GetProductSuggestions | src/services/openFoodFactsService.js:258-280 | nothing for a missing answer; otherwise the formatted first k entries of the answer, where k is the limit when it is below the length, the whole length when it is not, and the length reduced by -limit (at least 0) for a negative limit |
| OffController.ParseIntRoundTrip | src/controllers/openFoodFacts.js:65-66 | `parseInt` reads back every integer written in decimal |
| OffController.ParseIntOfNegative | src/controllers/openFoodFacts.js:163-166 | `parseInt` reads a negative decimal as that negative number |
| OffController.ParseInt | src/controllers/openFoodFacts.js:65-66 | `parseInt` skips leading blanks, takes an optional sign, and is the signed magnitude of what follows, or nothing exactly when no magnitude can be read |
| OffController.ParseMagnitude | src/controllers/openFoodFacts.js:65-66 | without a 0x prefix the value of the longest run of leading decimal digits, with one the value of the leading hex digits after it; nothing exactly when that run is empty |
| OffController.DecimalRun | src/controllers/openFoodFacts.js:65-66 | the length of the longest prefix made of decimal digits |
| OffController.HexRun | src/controllers/openFoodFacts.js:65-66 | the length of the longest prefix made of hex digits |
| OffController.IntToString | src/controllers/openFoodFacts.js:65-66 | the decimal writing of an integer: digits without a leading zero reading back as the number, after a minus sign for a negative |
| OffController.ParseIntStopsAtNonDigit | src/controllers/openFoodFacts.js:65-66 | `parseInt` of digits followed by a non-digit reads the digits and ignores the rest |
| OffController.DecimalRunOfPrefix | src/controllers/openFoodFacts.js:65-66 | the digit run of digits followed by a non-digit is exactly those digits |
| OffController.ParsedOr | src/controllers/openFoodFacts.js:65-66 | `parseInt(v) || d`: a missing value gives the default, an unparsable or zero one the fallback, and otherwise the parsed number, which is never 0 |
| OffController.PageNumber | src/controllers/openFoodFacts.js:65 | the page is 1 by default or for an unparsable or zero value, otherwise the parsed value; never 0 |
| OffController.PageSize | src/controllers/openFoodFacts.js:66 | the page size is 20 by default or for an unparsable or zero limit, otherwise the limit capped at 50; never above 50 and never 0 |
| OffController.PageSizeClamps | src/controllers/openFoodFacts.js:66 | a limit of n gives 20 for 0 and otherwise the smaller of n and 50 |
| OffController.SuggestionLimit | src/controllers/openFoodFacts.js:163-166 | the suggestion limit is 10 by default or for an unparsable or zero value, otherwise the parsed limit capped at 20; never above 20 and never 0 |
| OffController.SearchByBarcode | src/controllers/openFoodFacts.js:7-49 | a missing barcode and an invalid one are refused; a valid one is looked up cleaned, and the product is returned exactly when the lookup finds it, else 404 |
| OffController.BarcodeRejectedBeforeLookup | src/controllers/openFoodFacts.js:11-27 | an invalid barcode is refused with 400 whatever the lookup would answer |
| OffController.SearchByText | src/controllers/openFoodFacts.js:54-87 | refused exactly when the trimmed query is shorter than 2; otherwise the trimmed query is searched with the parsed page and a page size of at most 50 |
| OffController.ShortQueryNeverFetched | src/controllers/openFoodFacts.js:58-62 | a short query is refused whatever the search would answer |
| OffController.SearchByCategory | src/controllers/openFoodFacts.js:92-126 | refused exactly when the category is missing; otherwise the category is searched with the parsed page and clamped page size |
| OffController.GetSuggestions | src/controllers/openFoodFacts.js:152-181 | a short query gives an empty list without a lookup; otherwise the trimmed query's suggestions cut at the parsed limit, at most 20 when that limit is positive |
| OffController.NegativeSuggestionLimit | src/controllers/openFoodFacts.js:163-166 | a negative limit passes the `Math.min` cap unchanged |
| OffController.NegativeLimitExceedsCap | src/controllers/openFoodFacts.js:163-166 | with a negative limit and a long enough answer, more than 20 suggestions come back |
| OffController.CappedSuggestionLimit | src/controllers/openFoodFacts.js:163-166 | the intended limit is between 0 and 20 and agrees with the written one whenever that is not negative |
| OffController.GetSuggestionsCapped | src/controllers/openFoodFacts.js:152-181 | with the intended limit never more than 20 suggestions come back, and the answer agrees with the written handler whenever the limit is not negative |
| OffController.OffDataOf | src/controllers/openFoodFacts.js:326-336 | the stored Open Food Facts block copies the product's barcode, brands, image, grade, group, labels, allergens and nutrition, stamped now |
| OffController.FindByName | src/controllers/openFoodFacts.js:218-222 | the caller's first item with that name, with no earlier match, and none exactly when the caller has no such item; the name it is given is the trimmed one, as the schema's setter casts the filter |
| OffController.FindOwned | src/controllers/openFoodFacts.js:299-302 | an item with that id owned by the caller, and none exactly when the caller owns no such item |
| OffController.NewFoodItem | src/controllers/openFoodFacts.js:238-248 | the created item belongs to the caller, takes the product's name, calories and main category, and holds the amount at one location only |
| OffController.AddCheck | src/controllers/openFoodFacts.js:189-215 | a missing barcode, then a location outside the three, then an unknown product are refused in that order; otherwise the location and the looked-up product |
| OffController.BumpExisting | src/controllers/openFoodFacts.js:218-235 | adding to an existing item raises only the chosen location's quantity by the amount, keeps every other field and item, and re-derives the locations |
| OffController.AppendNew | src/controllers/openFoodFacts.js:238-264 | a new item is appended for the caller with the product's trimmed name, the unit, category `[mainCategory]` and the amount at the chosen location only, or nothing changes when the save fails |
| OffController.AddToFoodItems | src/controllers/openFoodFacts.js:186-281 | refusals change nothing; an item with the product's trimmed name is bumped (`BumpExisting`) and the list keeps its length, otherwise one item is appended (`AppendNew`); the defaults are quantity 1, unit "pcs" and location "shopping-list" |
| OffController.AddTwiceCreatesOnce | src/controllers/openFoodFacts.js:218-264 | adding the same product twice for the same caller appends at most once: the second add keeps the list's length and can only raise a quantity |
| OffController.AddedFoundAgain | src/controllers/openFoodFacts.js:218-264 | after a successful add the caller has an item under the product's trimmed name |
| OffController.FoundOnlyBumps | src/controllers/openFoodFacts.js:218-235 | when the caller already has an item under the trimmed name, an add keeps the list's length and can only raise a quantity |
| OffController.InvalidLocationRejectedFirst | src/controllers/openFoodFacts.js:191-204 | a bad location is refused before any lookup or change |
| OffController.Dedup | src/controllers/openFoodFacts.js:324 | the de-duplicated list has exactly the input's elements, each once |
| OffController.DedupExtends | src/controllers/openFoodFacts.js:324 | de-duplicating a longer list extends the shorter one's result, so first occurrences keep their order |
| OffController.DedupOfDistinct | src/controllers/openFoodFacts.js:324 | a list without repeats is its own de-duplication |
| OffController.CategoryUnion | src/controllers/openFoodFacts.js:324 | adding the main category to distinct categories appends it unless it is already there |
| OffController.Enriched | src/controllers/openFoodFacts.js:323-337 | enrichment keeps the calories when the product has none, unions the categories in first-occurrence order, stores the Open Food Facts block, and changes nothing else |
| OffController.EnrichFoodItem | src/controllers/openFoodFacts.js:286-353 | a missing barcode, an item the caller does not own (404) and an unknown product are refused in that order and change nothing; otherwise the answer is `Ok` exactly when the enriched item passes the save, and then the item in place is the saved `Enriched` form of the owned item with the product: quantities and locations kept; a refused save reports its schema error and changes nothing |
| Pantries.ValidateItemData | src/controllers/pantry.js:4-24 | one message per failing check (a name that is not blank, a truthy quantity that is a non-negative number, a date that parses) and none exactly when all pass |
| Pantries.ZeroQuantityNeverFlagged | src/controllers/pantry.js:15 | a zero or missing quantity is never flagged |
| Pantries.Increment | src/controllers/pantry.js:69 | `quantity || 1` is positive and is the given quantity when that is truthy |
| Pantries.LaterExpiry | src/controllers/pantry.js:70-76 | the expiration date moves only to a strictly later given date, never earlier |
| Pantries.Merge | src/controllers/pantry.js:68-76 | merging raises the quantity, never moves the date earlier, changes nothing else and keeps the item valid |
| Pantries.FindItem | src/controllers/pantry.js:66 | the intended lookup: the first item with the name, none exactly when no item has it |
| Pantries.NewEntry | src/controllers/pantry.js:77-82 | a new entry exists exactly when the body carries every required field, and then it is valid with the body's name |
| Pantries.AddOne | src/controllers/pantry.js:66-82 | an item of the same name is merged in place, otherwise a new entry is appended, and the step fails only when neither can happen |
| Pantries.AddOneGrows | src/controllers/pantry.js:66-82 | one step keeps every earlier item in place, never lowers a quantity, and adds at most one item |
| Pantries.AddOneKeepsAtRest | src/models/pantry.js:3-26 | one step keeps every item valid under the schema |
| Pantries.PantryOf | src/controllers/pantry.js:60-63 | the caller's pantry, or a fresh empty one |
| Pantries.AddPantryItemAsWritten | src/controllers/pantry.js:47-89 | as written: an invalid body is refused with its messages and every valid one fails with 400 on the missing `findItem` |
| Pantries.AddPantryItemAsWrittenNeverAdds | src/controllers/pantry.js:66 | as written no request stores an item |
| Pantries.AddPantryItemAsWrittenRejectsMilk | src/controllers/pantry.js:66 | a complete valid body is turned down as written and stored by the intended handler |
| Pantries.AddPantryItem | src/controllers/pantry.js:47-89 | the intended handler: an invalid body is refused with its messages; otherwise the item is merged or appended, only the caller's pantry changes, and pantries stay filed by owner |
| Pantries.AddPantryItemMergeKeepsLaterExpiry | src/controllers/pantry.js:66-76 | merging into an item of that name adds no entry and never moves its expiry earlier |
| Pantries.AddPantryItemAppendsOne | src/controllers/pantry.js:77-82 | without an item of that name exactly one entry is appended and the others stay |
| Pantries.BatchErrors | src/controllers/pantry.js:96-109 | one entry per invalid body with its 1-based position and messages, none exactly when every body is valid |
| Pantries.AddAll | src/controllers/pantry.js:123-143 | each body goes through the single-item merge-or-append against the list the earlier bodies left (the last body is added to what the others made); added plus updated equals the number of bodies, the list grows by the added count, and earlier items stay in place and valid |
| Pantries.AddAllContents | src/controllers/pantry.js:123-143 | after a batch every body's name is found, an item whose name no body carries is exactly as before, and every appended item carries the name of some body |
| Pantries.AddOneNames | src/controllers/pantry.js:123-143 | one add: the body's name is found afterwards and so is every name found before; an item of another name is untouched, and an appended item carries the body's name |
| Pantries.AddItemsToPantryAsWritten | src/controllers/pantry.js:91-158 | as written: any invalid body refuses the batch with its messages; a valid non-empty batch always fails on the missing `findItem` (400); only the empty batch succeeds, saving the caller's (possibly new, empty) pantry with nothing added or updated |
| Pantries.AddItemsToPantry | src/controllers/pantry.js:91-158 | the intended handler: any invalid body refuses the whole batch; otherwise it succeeds exactly when the fold of single adds does, storing that list as the caller's pantry with its summary; added plus updated equals the number of bodies, no other pantry changes, and the pantry stays valid |
| Pantries.AddItemsToPantrySingle | src/controllers/pantry.js:47-158 | a batch of one body is the single-item handler: the same refusal messages (at position 1), the same success and the same pantries |
| Pantries.AddItemsToPantrySnoc | src/controllers/pantry.js:47-158 | a valid batch with one more body succeeds exactly when the single-item handler accepts that body on the pantries the batch left, and then ends in the same pantries |
| Base.FirstWithId | src/controllers/pantry.js:182 | `items.id(itemId)` on a pantry's items, and on a list's items at src/controllers/shoppingList.js:73: the first item with the id, none exactly when no item has it |
| Pantries.Pull | src/controllers/pantry.js:195 | `items.pull(itemId)` never lengthens the list |
| Pantries.PullMembers | src/controllers/pantry.js:195 | pulling keeps exactly the items with another id |
| Pantries.PullAbsent | src/controllers/pantry.js:195 | pulling an id that is not there changes nothing |
| Pantries.Assign | src/controllers/pantry.js:191 | `Object.assign` takes every field the body carries and keeps the others and the id |
| Pantries.UpdatePantryItem | src/controllers/pantry.js:160-207 | an invalid body, a missing pantry and an unknown item are refused in that order; on a found item the update succeeds exactly when the assigned item has quantity at most 0 or passes the schema, and otherwise fails the save; only that item changes, and it is removed when its quantity ends at or below 0 |
| Pantries.UpdateKeepsAtRest | src/controllers/pantry.js:191-196 | a successful update keeps the pantry valid |
| Pantries.ZeroQuantityUpdateRemoves | src/controllers/pantry.js:191-196 | an update to quantity 0 removes the item |
| Pantries.RemovePantryItem | src/controllers/pantry.js:209-240 | a missing pantry and an unknown item are 404, and a found item is always removed: the first item with the id is returned, the list is the pull of that id, so exactly the items with other ids remain, and no other pantry changes |
| Pantries.RemoveCutsAtIndex | src/controllers/pantry.js:221-229 | with unique ids, removing cuts the item out at its index and keeps the rest in order |
| Pantries.PullOnlyAt | src/controllers/pantry.js:229 | pulling an id only one item carries cuts that item out |
| ShoppingLists.NewListItem | src/models/shoppingList.js:3-26 | a body becomes an item exactly when it has the required fields; the item is valid, and bought only when the body says so |
| ShoppingLists.NewListItems | src/controllers/shoppingList.js:8-14 | every body becomes an item, in order, or the save fails |
| ShoppingLists.CreateShoppingList | src/controllers/shoppingList.js:4-19 | created exactly when the name is given and every item is valid; the new list is stamped with the caller and nothing else changes |
| ShoppingLists.NewItemsNotBought | src/models/shoppingList.js:22-25 | an item created without `bought` is not bought |
| ShoppingLists.Apply | src/controllers/shoppingList.js:35-46 | an update takes each field the body carries and keeps the others |
| ShoppingLists.UpdateShoppingList | src/controllers/shoppingList.js:30-52 | refused with 404 exactly when the caller does not own the list; otherwise only that list changes |
| ShoppingLists.UpdateCanHandOver | src/controllers/shoppingList.js:35-46 | a body with another `userId` hands the list over: the old owner then gets 404 and the new one may update it |
| ShoppingLists.DeleteShoppingList | src/controllers/shoppingList.js:104-124 | refused with 404 exactly when the caller does not own the list; otherwise only that list is gone |
| ShoppingLists.DeleteTwiceNotFound | src/controllers/shoppingList.js:108-118 | deleting the same list twice fails the second time |
| ShoppingLists.PantryEntry | src/controllers/shoppingList.js:77-88 | the pantry entry copies the item's food, name, quantity and unit and expires 7 days from now |
| ShoppingLists.MarkedBought | src/controllers/shoppingList.js:73-74 | only that item's `bought` becomes true, and the list is as valid as before |
| ShoppingLists.WithEntry | src/controllers/shoppingList.js:77-88 | the pantry gains one entry at the end, keeps the rest, and is valid exactly when it was and the entry is |
| ShoppingLists.MarkItemAsBought | src/controllers/shoppingList.js:54-102 | 404 with nothing changed when the list is not the caller's or lacks the item; otherwise the list save and the pantry save each succeed exactly when their document is valid, any failure answers 400, and each document changes exactly when its own save succeeds |
| ShoppingLists.UnnamedListStillFillsPantry | src/controllers/shoppingList.js:91 | a list with an empty name fails its save while the pantry save still adds the entry |
| ShoppingLists.MarkItemAsBoughtChangesOneItem | src/controllers/shoppingList.js:73-88 | a successful call changes one item of the list and appends one pantry entry, touching nothing else |
| ShoppingLists.MarkItemAsBoughtTwiceAddsTwo | src/controllers/shoppingList.js:73-88 | marking the same item twice appends two pantry entries |
| Strings.Lower | src/models/invitation.js:8 | `toLowerCase` keeps the length and lowers each character (ASCII letters only) |
| Strings.Trim | src/models/invitation.js:9 | `trim` strips leading and trailing blanks and leaves a string without blanks alone |
| Strings.TrimCuts | src/models/invitation.js:9 | the trimmed string is the input with a blank prefix and a blank suffix cut off |
| Strings.BlankIffTrimmedEmpty | src/controllers/pantry.js:7-11 | a name trims to nothing exactly when it is all blanks |
| Strings.IndexOf | src/services/openFoodFactsService.js:236 | the first offset at which the pattern occurs, none exactly when it does not occur |
| Strings.ReplaceFirst | src/services/openFoodFactsService.js:236 | replacing the first occurrence changes nothing without one; otherwise the text before the first occurrence is kept, the pattern there is replaced, the rest follows unchanged, and no earlier offset holds the pattern |
| Strings.NatToString | src/middlewares/uploadImage.js:14 | a timestamp renders as a non-empty run of digits without a leading zero |
| Strings.DecimalRoundTrip | src/middlewares/uploadImage.js:14 | the rendered digits read back as the number |
| Upload.ExtName | src/middlewares/uploadImage.js:13 | `path.extname`: empty or a dot followed by no further dot or slash, a proper suffix of the last path segment |
| Upload.FileFilter | src/middlewares/uploadImage.js:23-34 | accepted exactly when the mimetype and the lower-cased extension each contain jpeg, jpg, png, heic or heif; a refusal carries the fixed message |
| Upload.ContainsIff | src/middlewares/uploadImage.js:24-28 | the unanchored pattern matches exactly when the word occurs at some offset |
| Upload.Filename | src/middlewares/uploadImage.js:11-15 | the stored name is the digits of the timestamp followed by the original extension |
| Upload.Upload | src/middlewares/uploadImage.js:11-34 | a file is stored exactly when the filter accepts it and it is at most 5 MiB; the filter refuses first, then the size limit |
| Upload.ExtNameLower | src/middlewares/uploadImage.js:26-28 | the extension of the lower-cased name is the lower-cased extension |
| Upload.FilterIgnoresNameCase | src/middlewares/uploadImage.js:23-34 | two names equal up to case get the same verdict |
| Upload.FilenameKeepsExtension | src/middlewares/uploadImage.js:11-15 | the stored name has the original extension, verbatim |
| Upload.StoredFileRefilters | src/middlewares/uploadImage.js:11-34 | whenever an upload is stored, its stored name passes the filter again with the same mimetype |
| Upload.UpperCaseExtensionAccepted | src/middlewares/uploadImage.js:26-28 | "x.JPG" with mimetype "image/jpeg" is accepted |
| Upload.GifRefused | src/middlewares/uploadImage.js:23-34 | a ".gif" name is refused whatever the mimetype |
| Upload.DotFileRefused | src/middlewares/uploadImage.js:26-28 | ".png" has no extension, so it is refused |
| Upload.MimetypeUnanchored | src/middlewares/uploadImage.js:24-25 | any mimetype with `png` anywhere in it, such as "text/x-png", passes the mimetype test |
| Upload.MimetypeCaseSensitive | src/middlewares/uploadImage.js:24-25 | "image/PNG" fails the mimetype test |

## Left out

- Accounts.CreateUser, Accounts.SignIn, Accounts.SignOut and the household handlers (`Households.CreateHousehold`, `Households.GetHousehold`, `Households.JoinHousehold`, `Households.LeaveHousehold`, `Households.RemoveMember`, `Households.DeleteHousehold`, `Households.AcceptInvitation`): they assume that the user's `household` and `tokens` fields persist. The user schema (src/models/user.js:4-59) declares neither path. Under the ODM's default strict mode, the writes at src/controllers/user.js:58-59, 104-105 and 162 and at src/controllers/household.js:43, 81, 92, 348, 399, 451 and 706 would be dropped, and `signOut` would then filter an undefined token list (src/controllers/user.js:158-160). The model follows the handlers' evident intent.
- Strings.Lower: lowers ASCII letters only, while JavaScript's `toLowerCase` maps the whole of Unicode. Addresses that differ only in non-ASCII case (for example "Äiti@x.fi" and "äiti@x.fi") therefore compare unequal in `InvitationModel.NormalizeEmail`, `Households.InviteCheck`, `Accounts.CreateUser`'s invitation lookup and `Accounts.DeleteUserAccount`.
- OffController.QueryLongEnough: counts characters, while JavaScript's `.length` counts UTF-16 code units. A single astral character such as an emoji has length 2 in the code (src/controllers/openFoodFacts.js:58, 156), so the code searches where the model answers "query too short" or an empty list.
- Pantries.ValidateItemData: quantities are reals or `NotANumber`. `parseFloat` of strings and NaN arithmetic on stored quantities are not modelled.
- OffController.SearchByBarcode, OffController.SearchByText, OffController.SearchByCategory, OffController.GetSuggestions, OffController.AddToFoodItems and OffController.EnrichFoodItem: the Open Food Facts lookup is a total function returning a product or nothing. Network failures and the 500 answers they cause are not modelled, and neither are database errors in any handler.
- Accounts.CreateUser: the household is either saved together with the user's reference or not at all (`householdSaveFails`). The case where the household is saved and then the second `user.save()` throws (src/controllers/user.js:55-59) is not expressible.
- Households.UpdateHousehold: the patch carries either a complete `sharedData` block or none. A partial `settings.sharedData` object merged key by key (src/controllers/household.js:135-137) cannot be stated.
- ShoppingLists.MarkItemAsBought: `Promise.all` is modelled as two independent saves whose results are both applied. The order and timing of the two concurrent writes is not modelled.
- Pantries.AddPantryItem and Pantries.AddItemsToPantry: the `addedFrom` tag is not stored, because the strict item schema (src/models/pantry.js:3-26) does not declare it.
- OffController.AddToFoodItems: the added quantity is not clamped, so a negative quantity lowers the stored one, as in the code.
- Accounts.DeleteUserAccount: the household branch compares member subdocuments with an id and never matches, so it leaves households untouched. The model states exactly that.
- Households.JoinHousehold: the legacy join accepts a code at the instant `now == expiresAt`, while `isValid` rejects it. Both are modelled as written.
- OffService.SearchResults: requires a non-zero page size, which the controller clamps always supply. Array-valued query parameters are not modelled.
- Sending the invitation email (`delivered`), bcrypt (`Hashed`), JSON web token signing, fresh ids and tokens, and the `findOne` answers (`found`) are parameters or ideal stand-ins.
- `populateUserHousehold` (src/helpers/householdHelpers.js:5-11) only calls `next` and changes nothing, so it has no counterpart.
- `getPantry` and its call to the undefined `getExpiringItems`, `getShoppingLists`, and the profile-image upload through Cloudinary are outside the modelled core.
- Upload.Upload: the destination directory, the disk write and multer's own size-limit error text are not modelled. The size limit is a plain `TooLarge` refusal.
- Routing, response bodies and messages other than the upload filter's, rate limiting, analytics, Google sign-in and Vision are not modelled.

## Findings

| source | as written | input that shows it | evidently intended | confidence | as-written member | corrected member |
|---|---|---|---|---|---|---|
| src/controllers/openFoodFacts.js:163-166 | the suggestion limit is `Math.min(parseInt(limit) \|\| 10, 20)`, which caps only from above; a negative limit reaches `slice(0, limit)` (src/services/openFoodFactsService.js:270), which then drops suggestions from the end instead of cutting at 20 | `limit=-1` with an answer of 30 suggestions returns 29 | at most 20 suggestions whatever the limit | not executed | OffController.GetSuggestions, OffController.NegativeLimitExceedsCap | OffController.GetSuggestionsCapped |
| src/controllers/pantry.js:66 | `addPantryItem` calls `pantry.findItem`, but the pantry model (src/models/pantry.js:1-44) defines no methods, so every valid request throws and is answered 400; `addItemsToPantry` does the same at line 124 for every non-empty batch | a body with name "Milk", quantity 1, unit "l", a foodId and an expiration date | merge into the first item with the same name, otherwise append a new entry | not executed | Pantries.AddPantryItemAsWritten, Pantries.AddPantryItemAsWrittenRejectsMilk | Pantries.AddPantryItem |

=== FILE: base.dfy ===
/**
 Shared vocabulary of the model: optional values, results, identifiers and
 time. Every document id (users, households, food items, list and pantry
 entries) is an abstract natural number, and time is the number of
 milliseconds since the epoch, as `Date.now()` returns it.
 */
module Base {

  datatype Option<+T> = None | Some(value: T) {

    /** The value, or `default` when there is none (JavaScript's `x || d` on a missing field). */
    function GetOr(default: T): T {
      match this
      case Some(v) => v
      case None => default
    }
  }

  /** Either the successful value or the reason a request was turned down. */
  datatype Result<+T, +E> = Ok(value: T) | Err(error: E)

  /** A document identifier (a Mongo ObjectId compared by its string form). */
  type Id = nat

  /** Milliseconds since the epoch. */
  type Time = int

  /** One day in milliseconds: the lifetime of a session token. */
  const DayMs: int := 24 * 60 * 60 * 1000

  /** Mongoose's `docs.id(x)` on a document array: the index of the first
      subdocument whose id is `x`, none exactly when no subdocument has it. */
  function FirstWithId<T>(items: seq<T>, id: T -> Id, x: Id): (r: Option<nat>)
    ensures r.Some? ==> r.value < |items| && id(items[r.value]) == x
    ensures r.Some? ==> forall k :: 0 <= k < r.value ==> id(items[k]) != x
    ensures r.None? <==> forall k :: 0 <= k < |items| ==> id(items[k]) != x
  {
    if |items| == 0 then None
    else if id(items[0]) == x then Some(0)
    else match FirstWithId(items[1..], id, x)
      case None => None
      case Some(k) => Some(k + 1)
  }

  /** Seven days in milliseconds: the lifetime of an invitation and the
      default shelf life of a bought item. */
  const WeekMs: int := 7 * DayMs
}

=== FILE: food_items.dfy ===
/**
 The food item document (src/models/foodItem.js): one product tracked at
 three locations at once. `quantities` holds a number per location and
 `locations` is derived from it by `updateLocations`, which the pre-save
 hook runs before every save.
 */
module FoodItems {
  import opened Base
  import opened Strings

  /** The three keys of `quantities`, in schema order. */
  datatype Location = Meal | ShoppingList | Pantry

  function LocationName(l: Location): string {
    match l
    case Meal => "meal"
    case ShoppingList => "shopping-list"
    case Pantry => "pantry"
  }

  /** Reads a location string; anything but the three names is refused. */
  function ParseLocation(s: string): (r: Option<Location>)
    ensures r.Some? <==> s == "meal" || s == "shopping-list" || s == "pantry"
    ensures r.Some? ==> LocationName(r.value) == s
  {
    if s == "meal" then Some(Meal)
    else if s == "shopping-list" then Some(ShoppingList)
    else if s == "pantry" then Some(Pantry)
    else None
  }

  /** Printing a location and reading it back gives it again. */
  lemma ParseLocationName(l: Location)
    ensures ParseLocation(LocationName(l)) == Some(l)
  {
  }

  /** The `quantities` sub-document; every field defaults to 0. */
  datatype Quantities = Quantities(meal: real, shoppingList: real, pantry: real)

  const NoQuantities: Quantities := Quantities(0.0, 0.0, 0.0)

  function Get(q: Quantities, l: Location): real {
    match l
    case Meal => q.meal
    case ShoppingList => q.shoppingList
    case Pantry => q.pantry
  }

  /** `quantities[l] += amount`: one key changes, the other two keep their value. */
  function Add(q: Quantities, l: Location, amount: real): (r: Quantities)
    ensures Get(r, l) == Get(q, l) + amount
    ensures forall m :: m != l ==> Get(r, m) == Get(q, m)
  {
    match l
    case Meal => q.(meal := q.meal + amount)
    case ShoppingList => q.(shoppingList := q.shoppingList + amount)
    case Pantry => q.(pantry := q.pantry + amount)
  }

  /** Quantities with `amount` at `l` and 0 elsewhere. */
  function Only(l: Location, amount: real): (r: Quantities)
    ensures Get(r, l) == amount
    ensures forall m :: m != l ==> Get(r, m) == 0.0
  {
    Add(NoQuantities, l, amount)
  }

  /** The schema position of a location. */
  function Rank(l: Location): nat {
    match l
    case Meal => 0
    case ShoppingList => 1
    case Pantry => 2
  }

  /**
   `updateLocations`: the keys of `quantities` whose value is positive, in
   schema order. A location is listed exactly when its quantity is positive,
   and at most once.
   */
  function UpdateLocations(q: Quantities): (r: seq<Location>)
    ensures forall l :: l in r <==> Get(q, l) > 0.0
    ensures forall i, j :: 0 <= i < j < |r| ==> Rank(r[i]) < Rank(r[j])
    ensures forall i, j :: 0 <= i < j < |r| ==> r[i] != r[j]
    ensures |r| <= 3
  {
    (if q.meal > 0.0 then [Meal] else [])
    + (if q.shoppingList > 0.0 then [ShoppingList] else [])
    + (if q.pantry > 0.0 then [Pantry] else [])
  }

  /** Sorted by schema rank with no repeats: at most one list per set. */
  lemma {:induction false} RankSortedUnique(a: seq<Location>, b: seq<Location>)
    requires forall i, j :: 0 <= i < j < |a| ==> Rank(a[i]) < Rank(a[j])
    requires forall i, j :: 0 <= i < j < |b| ==> Rank(b[i]) < Rank(b[j])
    requires forall l :: l in a <==> l in b
    ensures a == b
    decreases |a| + |b|
  {
    assert |a| > 0 ==> a[0] in b;
    assert |b| > 0 ==> b[0] in a;
    if |a| > 0 && |b| > 0 {
      HeadIsLeast(a);
      HeadIsLeast(b);
      assert a[0] in b && b[0] in a;
      assert Rank(a[0]) == Rank(b[0]);
      TailOfSorted(a);
      TailOfSorted(b);
      RankSortedUnique(a[1..], b[1..]);
      assert a == [a[0]] + a[1..] && b == [b[0]] + b[1..];
    }
  }

  /** The head of a rank-sorted list has the least rank in it. */
  lemma HeadIsLeast(a: seq<Location>)
    requires |a| > 0
    requires forall i, j :: 0 <= i < j < |a| ==> Rank(a[i]) < Rank(a[j])
    ensures forall l :: l in a ==> Rank(a[0]) <= Rank(l)
  {
    forall l | l in a ensures Rank(a[0]) <= Rank(l) {
      var k :| 0 <= k < |a| && a[k] == l;
    }
  }

  /** The tail of a rank-sorted list is the list without its head. */
  lemma TailOfSorted(a: seq<Location>)
    requires |a| > 0
    requires forall i, j :: 0 <= i < j < |a| ==> Rank(a[i]) < Rank(a[j])
    ensures forall l :: l in a[1..] <==> l in a && l != a[0]
  {
    forall l | l in a[1..] ensures l != a[0] {
      var k :| 0 <= k < |a| - 1 && a[1..][k] == l;
      assert a[k + 1] == l;
    }
    forall l | l in a && l != a[0] ensures l in a[1..] {
      var k :| 0 <= k < |a| && a[k] == l;
      assert a[1..][k - 1] == l;
    }
  }

  /** `updateLocations` is determined by the set it lists: any location list
      in schema order without repeats that lists exactly the positive
      locations is the one it computes. */
  lemma UpdateLocationsUnique(q: Quantities, ls: seq<Location>)
    requires forall i, j :: 0 <= i < j < |ls| ==> Rank(ls[i]) < Rank(ls[j])
    requires forall l :: l in ls <==> Get(q, l) > 0.0
    ensures ls == UpdateLocations(q)
  {
    RankSortedUnique(ls, UpdateLocations(q));
  }

  /** Default quantities list no location. */
  lemma FreshItemHasNoLocations()
    ensures UpdateLocations(NoQuantities) == []
  {
  }

  /** The nutrition sub-document of `openFoodFactsData`; every field defaults to 0. */
  datatype Nutrition = Nutrition(
    proteins: real, carbohydrates: real, sugars: real, fat: real,
    saturatedFat: real, fiber: real, sodium: real, salt: real)

  /** `openFoodFactsData`. A grade of None stands for an absent (null) value. */
  datatype OffData = OffData(
    barcode: Option<string>,
    brands: string,
    nutritionGrade: Option<string>,
    novaGroup: Option<int>,
    imageUrl: Option<string>,
    nutrition: Nutrition,
    labels: seq<string>,
    allergens: seq<string>,
    lastUpdated: Time)

  datatype FoodItem = FoodItem(
    id: Id,
    name: string,
    category: seq<string>,
    unit: string,
    price: Option<real>,
    calories: Option<real>,
    user: Id,
    locations: seq<Location>,
    quantities: Quantities,
    expirationDate: Option<Time>,
    offData: Option<OffData>)

  /** The `enum` validators of `openFoodFactsData`: a grade among a-e and a
      NOVA group among 1-4, unless absent. */
  predicate OffDataValid(d: OffData) {
    && (d.nutritionGrade.Some? ==> d.nutritionGrade.value in ["a", "b", "c", "d", "e"])
    && (d.novaGroup.Some? ==> 1 <= d.novaGroup.value <= 4)
  }

  /** The stored form agrees with itself: `locations` is what `quantities` gives. */
  predicate LocationsAgree(f: FoodItem) {
    f.locations == UpdateLocations(f.quantities)
  }

  datatype SaveError = NameRequired | UnitRequired | BadOffData

  /**
   Saving a food item: the `name` setter trims, the validators need a
   non-empty name and unit and valid `openFoodFactsData` enums, and then the
   pre-save hook recomputes `locations`. A saved item always has its
   locations agree with its quantities.
   */
  function Save(f: FoodItem): (r: Result<FoodItem, SaveError>)
    ensures Trim(f.name) == "" ==> r == Err(NameRequired)
    ensures Trim(f.name) != "" && f.unit == "" ==> r == Err(UnitRequired)
    ensures r.Ok? <==> Trim(f.name) != "" && f.unit != "" && (f.offData.Some? ==> OffDataValid(f.offData.value))
    ensures r.Ok? ==> LocationsAgree(r.value)
    ensures r.Ok? ==> r.value.name == Trim(f.name) && r.value.name != ""
    ensures r.Ok? ==> r.value == f.(name := r.value.name, locations := r.value.locations)
  {
    var named := f.(name := Trim(f.name));
    if named.name == "" then Err(NameRequired)
    else if named.unit == "" then Err(UnitRequired)
    else if named.offData.Some? && !OffDataValid(named.offData.value) then Err(BadOffData)
    else Ok(named.(locations := UpdateLocations(named.quantities)))
  }

  /** Saving a saved item again changes nothing: `updateLocations` and the
      trim are both idempotent. */
  lemma SaveIdempotent(f: FoodItem)
    requires Save(f).Ok?
    ensures Save(Save(f).value) == Save(f)
  {
    var g := Save(f).value;
    assert Trim(g.name) == g.name by {
      TrimIdempotent(f.name);
    }
  }

  /** Trimming twice is trimming once. */
  lemma TrimIdempotent(s: string)
    ensures Trim(Trim(s)) == Trim(s)
  {
    var t := Trim(s);
    if |t| > 0 {
      assert !IsSpace(t[0]) && !IsSpace(t[|t| - 1]);
      assert TrimStart(t) == t;
      assert TrimEnd(t) == t;
    }
  }
}

=== FILE: household_model.dfy ===
/**
 The household document (src/models/household.js): members with roles, the
 legacy embedded invitations, the sharing settings, and the three permission
 helpers `isMember`, `getUserRole` and `canInvite`.
 */
module HouseholdModel {
  import opened Base

  /** The `role` enum of a member entry. */
  datatype Role = Owner | Admin | Member

  datatype MemberEntry = MemberEntry(userId: Id, role: Role, joinedAt: Time)

  datatype SharedData = SharedData(meals: bool, shoppingLists: bool, pantry: bool, schedules: bool)

  datatype Settings = Settings(allowMemberInvites: bool, sharedData: SharedData)

  /** Status of an invitation embedded in the household document (the legacy
      code-based flow); note `rejected` where the Invitation collection says
      `declined`. */
  datatype LegacyStatus = LegacyPending | LegacyAccepted | LegacyRejected | LegacyExpired

  datatype LegacyInvitation = LegacyInvitation(
    email: string,
    invitedBy: Id,
    invitationCode: string,
    status: LegacyStatus,
    createdAt: Time,
    expiresAt: Time)

  datatype Household = Household(
    id: Id,
    name: string,
    owner: Id,
    members: seq<MemberEntry>,
    invitations: seq<LegacyInvitation>,
    settings: Settings)

  /** The schema defaults: member invites off, every data domain shared. */
  const DefaultSettings: Settings := Settings(false, SharedData(true, true, true, true))

  /** The schema default of `name` when none is given. */
  const DefaultName: string := "Perhe"

  /** A member entry as the schema builds it: the role defaults to `member`. */
  function NewMemberEntry(userId: Id, role: Option<Role>, now: Time): (m: MemberEntry)
    ensures m.userId == userId && m.joinedAt == now
    ensures role.None? ==> m.role == Member
    ensures role.Some? ==> m.role == role.value
  {
    MemberEntry(userId, role.GetOr(Member), now)
  }

  /** A legacy embedded invitation with the schema defaults: pending, and
      expiring seven days after it is created. */
  function NewLegacyInvitation(email: string, invitedBy: Id, code: string, now: Time): (inv: LegacyInvitation)
    ensures inv.status == LegacyPending
    ensures inv.createdAt == now && inv.expiresAt - inv.createdAt == 604800000
    ensures inv.email == email && inv.invitedBy == invitedBy && inv.invitationCode == code
  {
    LegacyInvitation(email, invitedBy, code, LegacyPending, now, now + WeekMs)
  }

  /** The index of the first entry of `u`, as `members.find` locates it. */
  function FirstEntryOf(members: seq<MemberEntry>, u: Id): (r: Option<nat>)
    ensures r.Some? ==> r.value < |members| && members[r.value].userId == u
    ensures r.Some? ==> forall j :: 0 <= j < r.value ==> members[j].userId != u
    ensures r.None? ==> forall j :: 0 <= j < |members| ==> members[j].userId != u
  {
    if |members| == 0 then None
    else if members[0].userId == u then Some(0)
    else
      match FirstEntryOf(members[1..], u)
      case None => None
      case Some(k) => Some(k + 1)
  }

  /** `isMember`: some member entry belongs to `u`. */
  predicate IsMember(h: Household, u: Id) {
    exists i :: 0 <= i < |h.members| && h.members[i].userId == u
  }

  /** `getUserRole`: the role on the first entry of `u`, or null. */
  function GetUserRole(h: Household, u: Id): (r: Option<Role>)
    ensures r.Some? <==> IsMember(h, u)
    ensures r.Some? ==> exists i :: 0 <= i < |h.members| && h.members[i].userId == u && h.members[i].role == r.value
                                 && forall j :: 0 <= j < i ==> h.members[j].userId != u
  {
    match FirstEntryOf(h.members, u)
    case None => None
    case Some(i) => Some(h.members[i].role)
  }

  /** Whatever follows it, the first entry of a user decides their role. */
  lemma GetUserRoleOfFirstEntry(h: Household, pre: seq<MemberEntry>, e: MemberEntry, post: seq<MemberEntry>)
    requires h.members == pre + [e] + post
    requires forall j :: 0 <= j < |pre| ==> pre[j].userId != e.userId
    ensures GetUserRole(h, e.userId) == Some(e.role)
  {
    assert h.members[|pre|] == e;
    assert forall j :: 0 <= j < |pre| ==> h.members[j] == pre[j];
  }

  /** `canInvite`: owners and admins always may; a plain member only when the
      household allows member invites; a non-member never. */
  function CanInvite(h: Household, u: Id): (r: bool)
    ensures GetUserRole(h, u) == Some(Owner) ==> r
    ensures GetUserRole(h, u) == Some(Admin) ==> r
    ensures GetUserRole(h, u) == Some(Member) ==> (r <==> h.settings.allowMemberInvites)
    ensures !IsMember(h, u) ==> !r
  {
    var role := GetUserRole(h, u);
    if role == Some(Owner) || role == Some(Admin) then true
    else h.settings.allowMemberInvites && role == Some(Member)
  }

  /** With the default settings only owners and admins may invite. */
  lemma DefaultSettingsOnlyOwnersAndAdminsInvite(h: Household, u: Id)
    requires h.settings == DefaultSettings
    ensures CanInvite(h, u) <==> GetUserRole(h, u) == Some(Owner) || GetUserRole(h, u) == Some(Admin)
  {
  }

  /**
   The ownership invariant every household handler keeps: the owner's entry
   comes first and carries role `owner`, and no other entry does. (New
   entries are only ever appended and the owner's entry is never removed or
   re-roled, so it stays in front.)
   */
  predicate SoleOwner(h: Household) {
    && |h.members| > 0
    && h.members[0].userId == h.owner
    && h.members[0].role == Owner
    && forall i :: 1 <= i < |h.members| ==> h.members[i].role != Owner
  }

  /** Under the invariant exactly one entry has role `owner`, it is the
      entry of `h.owner`, and so the owner's role is `owner` and the owner
      may always invite. */
  lemma SoleOwnerMeansExactlyOneOwner(h: Household)
    requires SoleOwner(h)
    ensures exists k :: (0 <= k < |h.members| && h.members[k].userId == h.owner
                         && forall i :: 0 <= i < |h.members| ==> (h.members[i].role == Owner <==> i == k))
    ensures GetUserRole(h, h.owner) == Some(Owner)
    ensures CanInvite(h, h.owner)
  {
    assert forall i :: 0 <= i < |h.members| ==> (h.members[i].role == Owner <==> i == 0);
  }

  /** A household as `createHousehold` and sign-up build it: the creator is
      the owner and the only member. */
  function NewHousehold(id: Id, name: string, owner: Id, now: Time): (h: Household)
    ensures h.id == id && h.name == name && h.owner == owner
    ensures h.members == [MemberEntry(owner, Owner, now)]
    ensures h.invitations == [] && h.settings == DefaultSettings
    ensures SoleOwner(h)
  {
    Household(id, name, owner, [NewMemberEntry(owner, Some(Owner), now)], [], DefaultSettings)
  }

  /** `members.filter(m => m.userId !== u)`: drops every entry of `u` and keeps
      the others in order. */
  function RemoveEntriesOf(members: seq<MemberEntry>, u: Id): (r: seq<MemberEntry>)
    ensures |r| <= |members|
    ensures forall i :: 0 <= i < |r| ==> r[i].userId != u
    ensures forall e :: e in r <==> e in members && e.userId != u
    ensures |members| > 0 && members[0].userId != u ==> |r| > 0 && r[0] == members[0]
    ensures forall i :: 0 <= i < |r| ==> exists j :: i <= j < |members| && r[i] == members[j]
  {
    if |members| == 0 then []
    else if members[0].userId == u then RemoveEntriesOf(members[1..], u)
    else [members[0]] + RemoveEntriesOf(members[1..], u)
  }

  /** The filter on one entry keeps it exactly when it is another user's... */
  lemma RemoveEntriesOfSingle(e: MemberEntry, u: Id)
    ensures RemoveEntriesOf([e], u) == if e.userId == u then [] else [e]
  {
    assert [e][1..] == [];
  }

  /** ...and the filter distributes over concatenation, so the kept entries
      keep their order and their number. */
  lemma {:induction false} RemoveEntriesOfConcat(a: seq<MemberEntry>, b: seq<MemberEntry>, u: Id)
    ensures RemoveEntriesOf(a + b, u) == RemoveEntriesOf(a, u) + RemoveEntriesOf(b, u)
  {
    if |a| == 0 {
      assert a + b == b;
    } else {
      assert (a + b)[0] == a[0];
      assert (a + b)[1..] == a[1..] + b;
      RemoveEntriesOfConcat(a[1..], b, u);
    }
  }

  /** A member list without an entry of `u` is left exactly as it was. */
  lemma {:induction false} RemoveEntriesOfAbsent(members: seq<MemberEntry>, u: Id)
    requires forall i :: 0 <= i < |members| ==> members[i].userId != u
    ensures RemoveEntriesOf(members, u) == members
  {
    if |members| > 0 {
      var tail := members[1..];
      forall i | 0 <= i < |tail| ensures tail[i].userId != u {
        assert tail[i] == members[i + 1];
      }
      RemoveEntriesOfAbsent(tail, u);
      assert members[0].userId != u;
      assert RemoveEntriesOf(members, u) == [members[0]] + RemoveEntriesOf(tail, u);
      assert members == [members[0]] + tail;
    }
  }

  /** Removing entries of a user other than the owner keeps the invariant. */
  lemma RemovingNonOwnerKeepsSoleOwner(h: Household, u: Id)
    requires SoleOwner(h) && u != h.owner
    ensures SoleOwner(h.(members := RemoveEntriesOf(h.members, u)))
  {
    var r := RemoveEntriesOf(h.members, u);
    forall i | 1 <= i < |r| ensures r[i].role != Owner {
      var j :| i <= j < |h.members| && r[i] == h.members[j];
    }
  }
}

=== FILE: households.dfy ===
/**
 The household request handlers (src/controllers/household.js) as pure
 state transitions `Store × request → Store × outcome`. The caller is the
 authenticated user (`req.user`), which the authentication layer has loaded
 from the store; generated ids and tokens, the clock and the result of the
 email dispatch are parameters.
 */
module Households {
  import opened Base
  import opened Strings
  import opened HouseholdModel
  import opened InvitationModel
  import opened UserModel

  /** The three collections the handlers touch. */
  datatype Store = Store(users: Users, households: map<Id, Household>, invitations: Invitations)

  /** Why a request was turned down; `HttpStatus` gives the response code. */
  datatype Failure =
    | AlreadyInHousehold
    | HouseholdNotFound
    | NotAllowed
    | EmailRequired
    | EmailMalformed
    | AlreadyMember
    | DuplicateInvitation
    | TokenTaken
    | CodeRequired
    | InvitationNotFound
    | InvitationUsed
    | InvitationExpired
    | EmailMismatch
    | NotInHousehold
    | OwnerCannotLeave
    | CannotRemoveOwner
    | InvalidRole
    | MemberNotFound
    | CannotChangeOwnerRole

  function HttpStatus(f: Failure): int {
    match f
    case HouseholdNotFound | InvitationNotFound | MemberNotFound => 404
    case NotAllowed | EmailMismatch => 403
    case TokenTaken => 500
    case _ => 400
  }

  /** The store after a request, and what the caller was told. */
  datatype Step<T> = Step(store: Store, result: Result<T, Failure>)

  /** The invariant of the store: every household is filed under its own id
      and has its owner as sole `owner` entry; every invitation is filed
      under its own token. */
  predicate Valid(s: Store) {
    && (forall h :: h in s.households ==> s.households[h].id == h && SoleOwner(s.households[h]))
    && TokensConsistent(s.invitations)
  }

  /** Replacing the invitation collection keeps the invariant when the new
      collection is filed by token too. */
  lemma ValidWithInvitations(s: Store, invs: Invitations)
    ensures Valid(s) && TokensConsistent(invs) ==> Valid(s.(invitations := invs))
  {
  }

  /** Filing an invitation under its own token keeps the collection filed by token. */
  lemma FileByToken(invs: Invitations, inv: Invitation)
    ensures TokensConsistent(invs) ==> TokensConsistent(invs[inv.token := inv])
  {
  }

  /** The id of the caller's household as `Household.findById(req.user.household)`
      finds it: nothing when the caller has no household or the reference
      dangles. */
  function Home(s: Store, caller: Id): (r: Option<Id>)
    requires caller in s.users
    ensures r.Some? <==> s.users[caller].household.Some? && s.users[caller].household.value in s.households
    ensures r.Some? ==> r.value in s.households && s.users[caller].household == Some(r.value)
  {
    match s.users[caller].household
    case None => None
    case Some(h) => if h in s.households then Some(h) else None
  }

  /** `User.findByIdAndUpdate(u, { household: v })`; a missing user is a no-op. */
  function SetHouseholdRef(users: Users, u: Id, v: Option<Id>): (r: Users)
    ensures r.Keys == users.Keys
    ensures forall w :: w in r <==> w in users
    ensures u in users ==> r[u] == users[u].(household := v)
    ensures forall w :: w in users && w != u ==> r[w] == users[w]
  {
    if u in users then users[u := users[u].(household := v)] else users
  }

  /** The default household name, `${username}n perhe`, where an undefined
      username renders as "undefined". */
  function DefaultHouseholdName(username: Option<string>): (r: string)
    ensures |r| > 0
  {
    match username
    case Some(u) => u + "n perhe"
    case None => "undefinedn perhe"
  }
  // ---------------------------------------------------------------------------
  // createHousehold, getHousehold, updateHousehold
  // ---------------------------------------------------------------------------

  /** `createHousehold`: refuses a caller who already has a household;
      otherwise the caller becomes owner and only member of a new household
      and their reference points at it. An empty name takes the default. */
  function CreateHousehold(s: Store, caller: Id, name: string, now: Time, newId: Id): (r: Step<Id>)
    requires caller in s.users && newId !in s.households
    ensures s.users[caller].household.Some? <==> r.result == Err(AlreadyInHousehold)
    ensures s.users[caller].household.None? <==> r.result.Ok?
    ensures r.result.Err? ==> r.store == s
    ensures r.result.Ok? ==>
      && r.result.value == newId
      && r.store.households.Keys == s.households.Keys + {newId}
      && r.store.households[newId].owner == caller
      && r.store.households[newId].members == [MemberEntry(caller, Owner, now)]
      && r.store.households[newId].name == (if name != "" then name else DefaultHouseholdName(s.users[caller].username))
      && r.store.users.Keys == s.users.Keys
      && r.store.users[caller].household == Some(newId)
      && (forall h :: h in s.households ==> r.store.households[h] == s.households[h])
      && (forall u :: u in s.users && u != caller ==> r.store.users[u] == s.users[u])
      && r.store.invitations == s.invitations
    ensures Valid(s) ==> Valid(r.store)
  {
    var user := s.users[caller];
    if user.household.Some? then Step(s, Err(AlreadyInHousehold))
    else
      var h := NewHousehold(newId, if name != "" then name else DefaultHouseholdName(user.username), caller, now);
      Step(s.(households := s.households[newId := h],
              users := SetHouseholdRef(s.users, caller, Some(newId))), Ok(newId))
  }

  /** `getHousehold`: the caller's household when they are really a member of
      it; a dangling reference or one to a household that does not list the
      caller is cleared and reported as "no household". It never fails. */
  function GetHousehold(s: Store, caller: Id): (r: Step<Option<Household>>)
    requires caller in s.users
    ensures r.result.Ok?
    ensures r.result.value.Some? <==> Home(s, caller).Some? && IsMember(s.households[Home(s, caller).value], caller)
    ensures r.result.value.Some? ==> r.store == s && r.result.value.value == s.households[Home(s, caller).value]
    ensures r.result.value.None? ==> r.store == s.(users := SetHouseholdRef(s.users, caller, None))
    ensures Valid(s) ==> Valid(r.store)
  {
    match Home(s, caller)
    case None => Step(s.(users := SetHouseholdRef(s.users, caller, None)), Ok(None))
    case Some(hid) =>
      if IsMember(s.households[hid], caller) then Step(s, Ok(Some(s.households[hid])))
      else Step(s.(users := SetHouseholdRef(s.users, caller, None)), Ok(None))
  }

  /** The body of `updateHousehold`: each field present replaces the stored one. */
  datatype SettingsPatch = SettingsPatch(allowMemberInvites: Option<bool>, sharedData: Option<SharedData>)

  /** `{ ...settings, ...patch }`: a shallow merge, so a `sharedData` in the
      patch replaces the stored one as a whole. */
  function MergeSettings(cur: Settings, patch: SettingsPatch): (r: Settings)
    ensures patch.allowMemberInvites.None? ==> r.allowMemberInvites == cur.allowMemberInvites
    ensures patch.allowMemberInvites.Some? ==> r.allowMemberInvites == patch.allowMemberInvites.value
    ensures patch.sharedData.None? ==> r.sharedData == cur.sharedData
    ensures patch.sharedData.Some? ==> r.sharedData == patch.sharedData.value
  {
    Settings(patch.allowMemberInvites.GetOr(cur.allowMemberInvites), patch.sharedData.GetOr(cur.sharedData))
  }

  /** Owners and admins manage the household. */
  predicate IsManager(h: Household, u: Id) {
    GetUserRole(h, u) == Some(Owner) || GetUserRole(h, u) == Some(Admin)
  }

  /** `updateHousehold`: only an owner or admin may rename the household or
      change its settings; members and owner are never touched. */
  function UpdateHousehold(s: Store, caller: Id, name: string, patch: Option<SettingsPatch>): (r: Step<Household>)
    requires caller in s.users
    ensures Home(s, caller).None? <==> r.result == Err(HouseholdNotFound)
    ensures Home(s, caller).Some? ==>
      (!IsManager(s.households[Home(s, caller).value], caller) <==> r.result == Err(NotAllowed))
    ensures r.result.Ok? <==> Home(s, caller).Some? && IsManager(s.households[Home(s, caller).value], caller)
    ensures r.result.Err? ==> r.store == s
    ensures r.result.Ok? ==>
      var hid := Home(s, caller).value;
      var h := s.households[hid];
      && r.result.value.owner == h.owner && r.result.value.members == h.members
      && r.result.value.invitations == h.invitations && r.result.value.id == h.id
      && r.result.value.name == (if name != "" then name else h.name)
      && (patch.None? ==> r.result.value.settings == h.settings)
      && (patch.Some? ==> r.result.value.settings == MergeSettings(h.settings, patch.value))
      && r.store == s.(households := s.households[hid := r.result.value])
    ensures Valid(s) ==> Valid(r.store)
  {
    match Home(s, caller)
    case None => Step(s, Err(HouseholdNotFound))
    case Some(hid) =>
      var h := s.households[hid];
      if !IsManager(h, caller) then Step(s, Err(NotAllowed))
      else
        var h' := h.(name := if name != "" then name else h.name,
                     settings := match patch case None => h.settings case Some(p) => MergeSettings(h.settings, p));
        Step(s.(households := s.households[hid := h']), Ok(h'))
  }

  // ---------------------------------------------------------------------------
  // inviteToHousehold
  // ---------------------------------------------------------------------------

  predicate EmailRunChar(c: char) {
    !IsSpace(c) && c != '@'
  }

  /** `[^\s@]+` matches `e[lo..hi]`. */
  predicate EmailRun(e: string, lo: int, hi: int)
    requires 0 <= lo <= hi <= |e|
  {
    lo < hi && forall k :: lo <= k < hi ==> EmailRunChar(e[k])
  }

  /** `/^[^\s@]+@[^\s@]+\.[^\s@]+$/`: three non-empty runs free of blanks and
      `@`, joined by `@` and then by some `.`. */
  predicate EmailShaped(e: string) {
    exists i, j :: 0 < i < j < |e| && e[i] == '@' && e[j] == '.'
      && EmailRun(e, 0, i) && EmailRun(e, i + 1, j) && EmailRun(e, j + 1, |e|)
  }

  /** An address the pattern accepts holds no blank. */
  lemma EmailShapedHasNoSpace(e: string)
    requires EmailShaped(e)
    ensures NoSpace(e)
  {
    var i, j :| 0 < i < j < |e| && e[i] == '@' && e[j] == '.'
      && EmailRun(e, 0, i) && EmailRun(e, i + 1, j) && EmailRun(e, j + 1, |e|);
    forall k | 0 <= k < |e| ensures !IsSpace(e[k]) {
      if k < i {
        assert EmailRunChar(e[k]);
      } else if i < k < j {
        assert EmailRunChar(e[k]);
      } else if j < k {
        assert EmailRunChar(e[k]);
      }
    }
  }

  /** So the schema's `lowercase` and `trim` setters store exactly the
      lower-cased address the handler searched with. */
  lemma EmailShapedNormalizes(e: string)
    requires EmailShaped(e)
    ensures NormalizeEmail(Lower(e)) == Lower(e)
  {
    EmailShapedHasNoSpace(e);
    LowerKeepsNoSpace(e);
    LowerIdempotent(e);
  }

  /** A registered user with this (lower-cased) address is already a member. */
  predicate RegisteredMember(s: Store, email: string, h: Household) {
    exists id :: id in s.users && s.users[id].email == email && IsMember(h, id)
  }

  /** The link the invitation email carries, also returned when sending fails. */
  function InviteLink(base: string, token: string): string {
    base + "accept-invite/" + token
  }

  /** Every guard of `inviteToHousehold` passes for this household. */
  predicate InviteAdmissible(s: Store, caller: Id, hid: Id, email: string, now: Time, token: string)
    requires hid in s.households
  {
    && CanInvite(s.households[hid], caller)
    && !RegisteredMember(s, Lower(email), s.households[hid])
    && !HasValidInvitation(s.invitations, Lower(email), s.households[hid].id, now)
    && token !in s.invitations
  }

  /** The invitation `inviteToHousehold` saves for an accepted address: the
      stored address is the lower-cased one the duplicate check searched for. */
  function InvitationFor(email: string, household: Id, invitedBy: Id, token: string, now: Time): (inv: Invitation)
    requires EmailShaped(email)
    ensures inv.email == Lower(email) && inv.household == household && inv.invitedBy == invitedBy
    ensures inv.token == token && IsValid(inv, now) && inv.expiresAt == now + 604800000
  {
    EmailShapedNormalizes(email);
    NewInvitation(Lower(email), household, invitedBy, token, now)
  }

  /**
   The guards of `inviteToHousehold`, in their order: a missing or malformed
   address (400), no household (404), no permission to invite (403), the
   address belongs to a member already (400), a valid invitation for the
   address and household exists (400), the token is taken (the unique index
   refuses the save, 500). On success, the id of the caller's household.
   */
  function InviteCheck(s: Store, caller: Id, email: string, now: Time, token: string): (r: Result<Id, Failure>)
    requires caller in s.users
    ensures r.Ok? <==>
      EmailShaped(email) && Home(s, caller).Some? && InviteAdmissible(s, caller, Home(s, caller).value, email, now, token)
    ensures r.Ok? ==> Some(r.value) == Home(s, caller)
  {
    if email == "" then Err(EmailRequired)
    else if !EmailShaped(email) then Err(EmailMalformed)
    else match Home(s, caller)
      case None => Err(HouseholdNotFound)
      case Some(hid) =>
        var h := s.households[hid];
        var lower := Lower(email);
        if !CanInvite(h, caller) then Err(NotAllowed)
        else if RegisteredMember(s, lower, h) then Err(AlreadyMember)
        else if HasValidInvitation(s.invitations, lower, h.id, now) then Err(DuplicateInvitation)
        else if token in s.invitations then Err(TokenTaken)
        else Ok(hid)
  }

  /** Which guard of `inviteToHousehold` answers, in the handler's order. */
  lemma InviteGuardOrder(s: Store, caller: Id, email: string, now: Time, token: string)
    requires caller in s.users
    ensures email == "" ==> InviteCheck(s, caller, email, now, token) == Err(EmailRequired)
    ensures email != "" && !EmailShaped(email) ==> InviteCheck(s, caller, email, now, token) == Err(EmailMalformed)
    ensures EmailShaped(email) && Home(s, caller).None? ==> InviteCheck(s, caller, email, now, token) == Err(HouseholdNotFound)
    ensures EmailShaped(email) && Home(s, caller).Some? ==>
      var h := s.households[Home(s, caller).value];
      && (!CanInvite(h, caller) ==> InviteCheck(s, caller, email, now, token) == Err(NotAllowed))
      && (CanInvite(h, caller) && RegisteredMember(s, Lower(email), h) ==> InviteCheck(s, caller, email, now, token) == Err(AlreadyMember))
      && (CanInvite(h, caller) && !RegisteredMember(s, Lower(email), h) && HasValidInvitation(s.invitations, Lower(email), h.id, now)
          ==> InviteCheck(s, caller, email, now, token) == Err(DuplicateInvitation))
  {
  }

  /**
   `inviteToHousehold`: when every guard passes, a new pending invitation
   for the lower-cased address is stored under the fresh token and nothing
   else changes. A failed email dispatch does not undo the invitation: the
   call still succeeds and hands back the link.
   */
  function InviteToHousehold(s: Store, caller: Id, email: string, now: Time, token: string,
                             delivered: bool, linkBase: string): (r: Step<Option<string>>)
    requires caller in s.users
    ensures r.result.Err? <==> InviteCheck(s, caller, email, now, token).Err?
    ensures r.result.Err? ==> r.store == s && r.result.error == InviteCheck(s, caller, email, now, token).error
    ensures r.result.Ok? ==>
      var hid := Home(s, caller).value;
      && r.store.users == s.users && r.store.households == s.households
      && token !in s.invitations && token in r.store.invitations
      && r.store.invitations == s.invitations[token := r.store.invitations[token]]
      && r.store.invitations[token].email == Lower(email)
      && r.store.invitations[token].household == s.households[hid].id
      && r.store.invitations[token].invitedBy == caller
      && IsValid(r.store.invitations[token], now)
      && r.store.invitations[token].expiresAt == now + 604800000
      && (r.result.value.Some? <==> !delivered)
      && (!delivered ==> r.result.value.value == InviteLink(linkBase, token))
    ensures Valid(s) ==> Valid(r.store)
  {
    match InviteCheck(s, caller, email, now, token)
    case Err(e) => Step(s, Err(e))
    case Ok(hid) =>
      var t := WithInvitation(s, InvitationFor(email, s.households[hid].id, caller, token, now));
      Step(t, Ok(if delivered then None else Some(InviteLink(linkBase, token))))
  }

  /** The store with one more invitation, filed under its token. */
  function WithInvitation(s: Store, inv: Invitation): (t: Store)
    ensures t.users == s.users && t.households == s.households
    ensures t.invitations == s.invitations[inv.token := inv]
    ensures Valid(s) ==> Valid(t)
  {
    FileByToken(s.invitations, inv);
    ValidWithInvitations(s, s.invitations[inv.token := inv]);
    s.(invitations := s.invitations[inv.token := inv])
  }

  /** Inviting never creates a second valid invitation for the same address
      and household. */
  lemma InviteKeepsAtMostOneValid(s: Store, caller: Id, email: string, now: Time, token: string,
                                  delivered: bool, linkBase: string)
    requires caller in s.users
    requires AtMostOneValid(s.invitations, now)
    ensures AtMostOneValid(InviteToHousehold(s, caller, email, now, token, delivered, linkBase).store.invitations, now)
  {
    var r := InviteToHousehold(s, caller, email, now, token, delivered, linkBase);
    if r.result.Ok? {
      var hid := Home(s, caller).value;
      AddKeepsAtMostOneValid(s.invitations, InvitationFor(email, s.households[hid].id, caller, token, now), now);
    }
  }

  // ---------------------------------------------------------------------------
  // joinHousehold (legacy invitation codes embedded in the household)
  // ---------------------------------------------------------------------------

  predicate HasLegacyCode(h: Household, code: string) {
    exists i :: 0 <= i < |h.invitations| && h.invitations[i].invitationCode == code
  }

  /** What a correct answer to `Household.findOne({ "invitations.invitationCode": code })` is. */
  predicate AnswersCodeQuery(s: Store, code: string, found: Option<Id>) {
    && (found.Some? ==> found.value in s.households && HasLegacyCode(s.households[found.value], code))
    && (found.None? ==> forall id :: id in s.households ==> !HasLegacyCode(s.households[id], code))
  }

  /** `household.invitations.find(...)` by code: the first embedded
      invitation carrying the code, if any. */
  function FirstWithCode(invs: seq<LegacyInvitation>, code: string): (r: Option<nat>)
    ensures r.Some? ==> r.value < |invs| && invs[r.value].invitationCode == code
    ensures r.Some? ==> forall j :: 0 <= j < r.value ==> invs[j].invitationCode != code
    ensures r.None? ==> forall i :: 0 <= i < |invs| ==> invs[i].invitationCode != code
  {
    if |invs| == 0 then None
    else if invs[0].invitationCode == code then Some(0)
    else
      match FirstWithCode(invs[1..], code)
      case None => None
      case Some(k) => Some(k + 1)
  }

  /**
   `joinHousehold`, the legacy code-based flow. In order: an empty code
   (400), a caller with a household (400), no household holds the code
   (404), the invitation is not pending (400), it is past its expiry (it is
   marked expired, 400), it was sent to a different address, compared
   exactly (403). Otherwise the caller joins as `member`, the invitation is
   accepted and the caller's reference is set. Unlike `acceptInvitation`,
   the instant `now == expiresAt` is still accepted here.
   */
  function JoinHousehold(s: Store, caller: Id, code: string, now: Time, found: Option<Id>): (r: Step<Id>)
    requires caller in s.users && AnswersCodeQuery(s, code, found)
    ensures code == "" ==> r.result == Err(CodeRequired)
    ensures code != "" && s.users[caller].household.Some? ==> r.result == Err(AlreadyInHousehold)
    ensures code != "" && s.users[caller].household.None? && found.None? ==> r.result == Err(InvitationNotFound)
    ensures code != "" && s.users[caller].household.None? && found.Some? ==>
      var h := s.households[found.value];
      && FirstWithCode(h.invitations, code).Some?
      && var inv := h.invitations[FirstWithCode(h.invitations, code).value];
         && (inv.status != LegacyPending <==> r.result == Err(InvitationUsed))
         && (inv.status == LegacyPending && now > inv.expiresAt <==> r.result == Err(InvitationExpired))
         && (inv.status == LegacyPending && now <= inv.expiresAt && inv.email != s.users[caller].email
             <==> r.result == Err(EmailMismatch))
         && (inv.status == LegacyPending && now <= inv.expiresAt && inv.email == s.users[caller].email
             <==> r.result.Ok?)
    ensures r.result.Err? && r.result.error != InvitationExpired ==> r.store == s
    ensures r.result.Ok? || r.result == Err(InvitationExpired) ==>
      found.Some? && FirstWithCode(s.households[found.value].invitations, code).Some?
    ensures r.result.Ok? ==>
      var hid := found.value;
      var h := s.households[hid];
      var i := FirstWithCode(h.invitations, code).value;
      && r.result.value == hid
      && h.invitations[i].status == LegacyPending
      && now <= h.invitations[i].expiresAt
      && h.invitations[i].email == s.users[caller].email
      && r.store.households == s.households[hid := h.(members := h.members + [MemberEntry(caller, Member, now)],
                                                     invitations := h.invitations[i := h.invitations[i].(status := LegacyAccepted)])]
      && r.store.users == SetHouseholdRef(s.users, caller, Some(hid))
      && r.store.invitations == s.invitations
    ensures r.result == Err(InvitationExpired) ==>
      var hid := found.value;
      var h := s.households[hid];
      var i := FirstWithCode(h.invitations, code).value;
      && h.invitations[i].status == LegacyPending
      && now > h.invitations[i].expiresAt
      && r.store.households == s.households[hid := h.(invitations := h.invitations[i := h.invitations[i].(status := LegacyExpired)])]
      && r.store.users == s.users && r.store.invitations == s.invitations
    ensures Valid(s) ==> Valid(r.store)
  {
    if code == "" then Step(s, Err(CodeRequired))
    else if s.users[caller].household.Some? then Step(s, Err(AlreadyInHousehold))
    else match found
      case None => Step(s, Err(InvitationNotFound))
      case Some(hid) =>
        var h := s.households[hid];
        match FirstWithCode(h.invitations, code)
        case None => Step(s, Err(InvitationNotFound))
        case Some(i) =>
          var inv := h.invitations[i];
          if inv.status != LegacyPending then Step(s, Err(InvitationUsed))
          else if now > inv.expiresAt then
            var h' := h.(invitations := h.invitations[i := inv.(status := LegacyExpired)]);
            Step(s.(households := s.households[hid := h']), Err(InvitationExpired))
          else if inv.email != s.users[caller].email then Step(s, Err(EmailMismatch))
          else
            var h' := h.(members := h.members + [MemberEntry(caller, Member, now)],
                         invitations := h.invitations[i := inv.(status := LegacyAccepted)]);
            Step(s.(households := s.households[hid := h'],
                    users := SetHouseholdRef(s.users, caller, Some(hid))), Ok(hid))
  }

  // ---------------------------------------------------------------------------
  // leaveHousehold, removeMember, updateMemberRole, deleteHousehold
  // ---------------------------------------------------------------------------

  /** The role `u` holds in a member list (the first entry of `u` decides). */
  function RoleIn(members: seq<MemberEntry>, u: Id): Option<Role> {
    match FirstEntryOf(members, u)
    case None => None
    case Some(i) => Some(members[i].role)
  }

  /** Dropping the entries of one user leaves every other user's role alone. */
  lemma {:induction false} RemoveEntriesKeepsOtherRoles(members: seq<MemberEntry>, u: Id, v: Id)
    requires u != v
    ensures RoleIn(RemoveEntriesOf(members, u), v) == RoleIn(members, v)
  {
    if |members| > 0 {
      var rest := RemoveEntriesOf(members[1..], u);
      RemoveEntriesKeepsOtherRoles(members[1..], u, v);
      RoleInCons(members, v);
      if members[0].userId == u {
        assert RemoveEntriesOf(members, u) == rest;
      } else {
        var r := [members[0]] + rest;
        assert RemoveEntriesOf(members, u) == r;
        assert r[1..] == rest;
        RoleInCons(r, v);
      }
    }
  }

  /** The role of `v` in a non-empty list: the head's role when the head is
      `v`'s entry, else the role in the tail. */
  lemma RoleInCons(members: seq<MemberEntry>, v: Id)
    requires |members| > 0
    ensures RoleIn(members, v) == if members[0].userId == v then Some(members[0].role) else RoleIn(members[1..], v)
  {
  }

  /** Removing `u` from a household: `u` is gone, every other user keeps the
      role they had, and name, owner, settings and embedded invitations stay. */
  function WithoutMember(h: Household, u: Id): (h': Household)
    ensures !IsMember(h', u)
    ensures forall v :: v != u ==> RoleIn(h'.members, v) == RoleIn(h.members, v)
    ensures forall v :: v != u ==> (IsMember(h', v) <==> IsMember(h, v))
    ensures h' == h.(members := h'.members)
    ensures SoleOwner(h) && u != h.owner ==> SoleOwner(h')
  {
    var h' := h.(members := RemoveEntriesOf(h.members, u));
    assert SoleOwner(h) && u != h.owner ==> SoleOwner(h') by {
      if SoleOwner(h) && u != h.owner { RemovingNonOwnerKeepsSoleOwner(h, u); }
    }
    assert forall v :: v != u ==> RoleIn(h'.members, v) == RoleIn(h.members, v) && (IsMember(h', v) <==> IsMember(h, v)) by {
      forall v | v != u ensures RoleIn(h'.members, v) == RoleIn(h.members, v) && (IsMember(h', v) <==> IsMember(h, v)) {
        RemoveEntriesKeepsOtherRoles(h.members, u, v);
        assert GetUserRole(h', v) == RoleIn(h'.members, v);
        assert GetUserRole(h, v) == RoleIn(h.members, v);
      }
    }
    h'
  }

  /** `leaveHousehold`: a caller without a household (400), a dangling
      reference (404) and the owner (400) are refused; otherwise exactly the
      caller's entries go and only the caller's reference is cleared. */
  function LeaveHousehold(s: Store, caller: Id): (r: Step<()>)
    requires caller in s.users
    ensures s.users[caller].household.None? <==> r.result == Err(NotInHousehold)
    ensures s.users[caller].household.Some? && Home(s, caller).None? <==> r.result == Err(HouseholdNotFound)
    ensures Home(s, caller).Some? ==>
      (s.households[Home(s, caller).value].owner == caller <==> r.result == Err(OwnerCannotLeave))
    ensures r.result.Ok? <==> Home(s, caller).Some? && s.households[Home(s, caller).value].owner != caller
    ensures r.result.Err? ==> r.store == s
    ensures r.result.Ok? ==>
      var hid := Home(s, caller).value;
      && s.households[hid].owner != caller
      && r.store.households == s.households[hid := WithoutMember(s.households[hid], caller)]
      && r.store.users == SetHouseholdRef(s.users, caller, None)
      && r.store.invitations == s.invitations
    ensures Valid(s) ==> Valid(r.store)
  {
    if s.users[caller].household.None? then Step(s, Err(NotInHousehold))
    else match Home(s, caller)
      case None => Step(s, Err(HouseholdNotFound))
      case Some(hid) =>
        var h := s.households[hid];
        if h.owner == caller then Step(s, Err(OwnerCannotLeave))
        else
          Step(s.(households := s.households[hid := WithoutMember(h, caller)],
                  users := SetHouseholdRef(s.users, caller, None)), Ok(()))
  }

  /**
   `removeMember`: only an owner or admin may remove (403), and never the
   owner (400). The target's entries are dropped and the target's household
   reference is cleared without checking that the target was a member here:
   a user of another household loses their reference too.
   */
  function RemoveMember(s: Store, caller: Id, target: Id): (r: Step<()>)
    requires caller in s.users
    ensures Home(s, caller).None? <==> r.result == Err(HouseholdNotFound)
    ensures Home(s, caller).Some? ==>
      var h := s.households[Home(s, caller).value];
      && (!IsManager(h, caller) <==> r.result == Err(NotAllowed))
      && (IsManager(h, caller) ==> (target == h.owner <==> r.result == Err(CannotRemoveOwner)))
    ensures r.result.Ok? <==>
      Home(s, caller).Some? && IsManager(s.households[Home(s, caller).value], caller)
      && target != s.households[Home(s, caller).value].owner
    ensures r.result.Err? ==> r.store == s
    ensures r.result.Ok? ==>
      var hid := Home(s, caller).value;
      && target != s.households[hid].owner
      && r.store.households == s.households[hid := WithoutMember(s.households[hid], target)]
      && r.store.users == SetHouseholdRef(s.users, target, None)
      && r.store.invitations == s.invitations
    ensures Valid(s) ==> Valid(r.store)
  {
    match Home(s, caller)
    case None => Step(s, Err(HouseholdNotFound))
    case Some(hid) =>
      var h := s.households[hid];
      if !IsManager(h, caller) then Step(s, Err(NotAllowed))
      else if target == h.owner then Step(s, Err(CannotRemoveOwner))
      else
        Step(s.(households := s.households[hid := WithoutMember(h, target)],
                users := SetHouseholdRef(s.users, target, None)), Ok(()))
  }

  /** Reads the requested role: only "admin" and "member" may be assigned. */
  function AssignableRole(role: string): (r: Option<Role>)
    ensures r.Some? <==> role == "admin" || role == "member"
    ensures r.Some? ==> r.value != Owner
  {
    if role == "admin" then Some(Admin)
    else if role == "member" then Some(Member)
    else None
  }

  /**
   `updateMemberRole`. In order: a role other than admin/member (400), no
   household (404), a caller who is not the owner (403), a target without
   an entry (404), the owner as target (400). Otherwise the target's first
   entry takes the new role and nothing else changes.
   */
  function UpdateMemberRole(s: Store, caller: Id, target: Id, role: string): (r: Step<Household>)
    requires caller in s.users
    ensures AssignableRole(role).None? <==> r.result == Err(InvalidRole)
    ensures r.result.Err? ==> r.store == s
    ensures AssignableRole(role).Some? && Home(s, caller).None? ==> r.result == Err(HouseholdNotFound)
    ensures AssignableRole(role).Some? && Home(s, caller).Some? ==>
      var h := s.households[Home(s, caller).value];
      && (h.owner != caller <==> r.result == Err(NotAllowed))
      && (h.owner == caller && !IsMember(h, target) <==> r.result == Err(MemberNotFound))
      && (h.owner == caller && IsMember(h, target) && target == h.owner <==> r.result == Err(CannotChangeOwnerRole))
      && (h.owner == caller && IsMember(h, target) && target != h.owner <==> r.result.Ok?)
    ensures r.result.Ok? ==>
      var hid := Home(s, caller).value;
      var h := s.households[hid];
      var h' := r.result.value;
      && h.owner == caller && target != h.owner && IsMember(h, target)
      && RoleIn(h'.members, target) == AssignableRole(role)
      && (forall v :: v != target ==> RoleIn(h'.members, v) == RoleIn(h.members, v))
      && |h'.members| == |h.members|
      && (forall j :: 0 <= j < |h.members| ==> h'.members[j].userId == h.members[j].userId && h'.members[j].joinedAt == h.members[j].joinedAt)
      && h' == h.(members := h'.members)
      && r.store == s.(households := s.households[hid := h'])
    ensures Valid(s) ==> Valid(r.store)
  {
    match AssignableRole(role)
    case None => Step(s, Err(InvalidRole))
    case Some(newRole) =>
      match Home(s, caller)
      case None => Step(s, Err(HouseholdNotFound))
      case Some(hid) =>
        var h := s.households[hid];
        if h.owner != caller then Step(s, Err(NotAllowed))
        else match FirstEntryOf(h.members, target)
          case None => Step(s, Err(MemberNotFound))
          case Some(i) =>
            if target == h.owner then Step(s, Err(CannotChangeOwnerRole))
            else
              var h' := h.(members := h.members[i := h.members[i].(role := newRole)]);
              assert FirstEntryOf(h'.members, target) == Some(i) by {
                FirstEntryAfterUpdate(h.members, i, newRole, target);
              }
              assert forall v :: v != target ==> RoleIn(h'.members, v) == RoleIn(h.members, v) by {
                forall v | v != target ensures RoleIn(h'.members, v) == RoleIn(h.members, v) {
                  FirstEntryAfterUpdate(h.members, i, newRole, v);
                }
              }
              Step(s.(households := s.households[hid := h']), Ok(h'))
  }

  /** Re-roling an entry does not move anybody's first entry. */
  lemma {:induction false} FirstEntryAfterUpdate(members: seq<MemberEntry>, i: nat, role: Role, v: Id)
    requires i < |members|
    ensures FirstEntryOf(members[i := members[i].(role := role)], v) == FirstEntryOf(members, v)
  {
    if |members| > 0 && members[0].userId != v && i > 0 {
      FirstEntryAfterUpdate(members[1..], i - 1, role, v);
      assert members[i := members[i].(role := role)][1..] == members[1..][i - 1 := members[1..][i - 1].(role := role)];
    } else if |members| > 0 && members[0].userId != v {
      assert members[i := members[i].(role := role)][1..] == members[1..];
    }
  }

  /** Clears the household reference of every user listed in `h`. */
  function ClearMembersRefs(users: Users, h: Household): (r: Users)
    ensures r.Keys == users.Keys
    ensures forall u :: u in users && IsMember(h, u) ==> r[u] == users[u].(household := None)
    ensures forall u :: u in users && !IsMember(h, u) ==> r[u] == users[u]
  {
    map u | u in users :: if IsMember(h, u) then users[u].(household := None) else users[u]
  }

  /** `deleteHousehold`: owner only (403). Every listed member's reference is
      cleared, whatever it pointed at, and the household is removed. Its
      invitations are left in place. */
  function DeleteHousehold(s: Store, caller: Id): (r: Step<()>)
    requires caller in s.users
    ensures Home(s, caller).None? <==> r.result == Err(HouseholdNotFound)
    ensures Home(s, caller).Some? ==>
      (s.households[Home(s, caller).value].owner != caller <==> r.result == Err(NotAllowed))
    ensures r.result.Ok? <==> Home(s, caller).Some? && s.households[Home(s, caller).value].owner == caller
    ensures r.result.Err? ==> r.store == s
    ensures r.result.Ok? ==>
      var hid := Home(s, caller).value;
      var h := s.households[hid];
      && h.owner == caller
      && r.store.households == s.households - {hid}
      && r.store.users.Keys == s.users.Keys
      && (forall u :: u in s.users && IsMember(h, u) ==> r.store.users[u] == s.users[u].(household := None))
      && (forall u :: u in s.users && !IsMember(h, u) ==> r.store.users[u] == s.users[u])
      && r.store.invitations == s.invitations
    ensures Valid(s) ==> Valid(r.store)
  {
    match Home(s, caller)
    case None => Step(s, Err(HouseholdNotFound))
    case Some(hid) =>
      var h := s.households[hid];
      if h.owner != caller then Step(s, Err(NotAllowed))
      else Step(s.(users := ClearMembersRefs(s.users, h), households := s.households - {hid}), Ok(()))
  }

  /** Under the invariant the owner is listed, so deleting a household also
      clears its owner's reference. */
  lemma DeleteClearsOwner(s: Store, caller: Id)
    requires caller in s.users && Valid(s)
    requires DeleteHousehold(s, caller).result.Ok?
    ensures DeleteHousehold(s, caller).store.users[caller].household.None?
  {
    var hid := Home(s, caller).value;
    assert s.households[hid].members[0].userId == caller;
  }

  // ---------------------------------------------------------------------------
  // getInvitationByToken, acceptInvitation
  // ---------------------------------------------------------------------------

  /** The validity check both token handlers share: an invalid invitation is
      refused, and marked expired when it is still pending and strictly past
      its expiry instant. */
  function CheckInvitation(invs: Invitations, token: string, now: Time): (r: (Invitations, Result<Invitation, Failure>))
    requires token in invs
    ensures IsValid(invs[token], now) <==> r.1.Ok?
    ensures r.1.Ok? ==> r.1.value == invs[token] && r.0 == invs
    ensures r.1.Err? ==> r.1.error == InvitationExpired
    ensures r.1.Err? && invs[token].status == Pending && now > invs[token].expiresAt ==>
      r.0 == invs[token := MarkExpired(invs[token])]
    ensures r.1.Err? && !(invs[token].status == Pending && now > invs[token].expiresAt) ==> r.0 == invs
  {
    var inv := invs[token];
    if IsValid(inv, now) then (invs, Ok(inv))
    else if inv.status == Pending && now > inv.expiresAt then (invs[token := MarkExpired(inv)], Err(InvitationExpired))
    else (invs, Err(InvitationExpired))
  }

  /** `getInvitationByToken`: an empty token (400), an unknown token (404), an
      invalid invitation (400, possibly marked expired), else its details. */
  function GetInvitationByToken(s: Store, token: string, now: Time): (r: Step<Invitation>)
    ensures token == "" ==> r.result == Err(CodeRequired)
    ensures token != "" && token !in s.invitations ==> r.result == Err(InvitationNotFound)
    ensures r.result.Ok? <==> token in s.invitations && token != "" && IsValid(s.invitations[token], now)
    ensures r.result.Ok? ==> r.result.value == s.invitations[token] && r.store == s
    ensures r.store.users == s.users && r.store.households == s.households
    ensures r.store.invitations.Keys == s.invitations.Keys
    ensures forall t :: t in s.invitations && t != token ==> r.store.invitations[t] == s.invitations[t]
    ensures Valid(s) ==> Valid(r.store)
  {
    if token == "" then Step(s, Err(CodeRequired))
    else if token !in s.invitations then Step(s, Err(InvitationNotFound))
    else
      var (invs, res) := CheckInvitation(s.invitations, token, now);
      Step(s.(invitations := invs), res)
  }

  /**
   `acceptInvitation`. In order: an empty token (400), a caller who already
   has a household (400), an unknown token (404), an invalid invitation
   (400; marked expired when pending and past expiry), a household that no
   longer exists (404). A mismatching address only draws a warning.
   Otherwise the caller is appended as `member`, the invitation becomes
   accepted by the caller now, and the caller's reference is set.
   */
  function AcceptInvitation(s: Store, caller: Id, token: string, now: Time): (r: Step<Id>)
    requires caller in s.users
    ensures token == "" ==> r.result == Err(CodeRequired)
    ensures token != "" && s.users[caller].household.Some? ==> r.result == Err(AlreadyInHousehold)
    ensures token != "" && s.users[caller].household.None? && token !in s.invitations ==> r.result == Err(InvitationNotFound)
    ensures token != "" && s.users[caller].household.None? && token in s.invitations && !IsValid(s.invitations[token], now) ==>
      && r.result == Err(InvitationExpired)
      && r.store.users == s.users && r.store.households == s.households
      && (s.invitations[token].status == Pending && now > s.invitations[token].expiresAt ==>
            r.store.invitations == s.invitations[token := MarkExpired(s.invitations[token])])
    ensures r.result.Err? && r.result.error != InvitationExpired ==> r.store == s
    ensures r.result.Ok? <==>
      && token != "" && s.users[caller].household.None? && token in s.invitations
      && IsValid(s.invitations[token], now) && s.invitations[token].household in s.households
    ensures r.result.Ok? ==>
      var inv := s.invitations[token];
      var h := s.households[inv.household];
      && r.result.value == inv.household
      && r.store.households == s.households[inv.household := h.(members := h.members + [MemberEntry(caller, Member, now)])]
      && IsMember(r.store.households[inv.household], caller)
      && r.store.invitations == s.invitations[token := inv.(status := Accepted, acceptedAt := Some(now), acceptedBy := Some(caller))]
      && r.store.users == SetHouseholdRef(s.users, caller, Some(inv.household))
    ensures Valid(s) ==> Valid(r.store)
  {
    if token == "" then Step(s, Err(CodeRequired))
    else if s.users[caller].household.Some? then Step(s, Err(AlreadyInHousehold))
    else if token !in s.invitations then Step(s, Err(InvitationNotFound))
    else
      var (invs, res) := CheckInvitation(s.invitations, token, now);
      match res
      case Err(e) => Step(s.(invitations := invs), Err(e))
      case Ok(inv) =>
        if inv.household !in s.households then Step(s, Err(HouseholdNotFound))
        else
          var h := s.households[inv.household];
          var h' := h.(members := h.members + [MemberEntry(caller, Member, now)]);
          assert h'.members[|h.members|].userId == caller;
          Step(Store(SetHouseholdRef(s.users, caller, Some(inv.household)),
                     s.households[inv.household := h'],
                     s.invitations[token := inv.(status := Accepted, acceptedAt := Some(now), acceptedBy := Some(caller))]),
               Ok(inv.household))
  }

  /** Accepting an invitation never adds a valid one, so uniqueness of valid
      invitations survives it. */
  lemma AcceptKeepsAtMostOneValid(s: Store, caller: Id, token: string, now: Time)
    requires caller in s.users && AtMostOneValid(s.invitations, now)
    ensures AtMostOneValid(AcceptInvitation(s, caller, token, now).store.invitations, now)
  {
    var r := AcceptInvitation(s, caller, token, now);
    var invs := r.store.invitations;
    assert forall t :: t in invs && IsValid(invs[t], now) ==> t in s.invitations && invs[t] == s.invitations[t];
  }
}

=== FILE: invitation_model.dfy ===
/**
 The invitation document (src/models/invitation.js): a token-addressed offer
 for one email address to join one household, with its status enum, seven-day
 default expiry, the lower-casing and trimming of the address, `isValid` and
 `markExpired`. The collection is a map from token to invitation, which makes
 the unique index on `invitationToken` structural.
 */
module InvitationModel {
  import opened Base
  import opened Strings

  datatype Status = Pending | Accepted | Declined | Expired

  datatype Invitation = Invitation(
    email: string,
    household: Id,
    invitedBy: Id,
    token: string,
    status: Status,
    createdAt: Time,
    expiresAt: Time,
    acceptedAt: Option<Time>,
    acceptedBy: Option<Id>)

  /** The collection, keyed by `invitationToken`. */
  type Invitations = map<string, Invitation>

  /** The `lowercase` and `trim` setters of the `email` path. */
  function NormalizeEmail(e: string): (r: string)
    ensures |r| <= |e|
    ensures forall c :: c in r ==> !IsAsciiUpper(c)
    ensures |r| > 0 ==> !IsSpace(r[0]) && !IsSpace(r[|r| - 1])
    ensures NoSpace(e) ==> r == Lower(e)
  {
    Trim(Lower(e))
  }

  /** Mongoose casts a query's `email` value through the same setters as a
      stored one, so a handler that lower-cases the address first matches
      exactly the normalized address. */
  lemma NormalizeLowered(e: string)
    ensures NormalizeEmail(Lower(e)) == NormalizeEmail(e)
  {
    LowerIdempotent(e);
  }

  /** The stored address is the lowercased input with its leading and
      trailing white space cut off, and nothing else removed. */
  lemma NormalizeEmailCuts(e: string)
    ensures exists a, b :: 0 <= a <= b <= |e| && NormalizeEmail(e) == Lower(e)[a..b]
                           && Blank(Lower(e)[..a]) && Blank(Lower(e)[b..])
  {
    TrimCuts(Lower(e));
  }

  /** An invitation as `inviteToHousehold` creates it, with the schema
      defaults: pending, created now, expiring seven days later. */
  function NewInvitation(email: string, household: Id, invitedBy: Id, token: string, now: Time): (inv: Invitation)
    ensures inv.email == NormalizeEmail(email)
    ensures inv.household == household && inv.invitedBy == invitedBy && inv.token == token
    ensures inv.status == Pending && inv.createdAt == now
    ensures inv.expiresAt - inv.createdAt == 604800000
    ensures inv.acceptedAt.None? && inv.acceptedBy.None?
    ensures IsValid(inv, now)
  {
    Invitation(NormalizeEmail(email), household, invitedBy, token, Pending, now, now + WeekMs, None, None)
  }

  /** `isValid()`: still pending and not yet at its expiry instant. */
  predicate IsValid(inv: Invitation, now: Time) {
    inv.status == Pending && now < inv.expiresAt
  }

  /** `markExpired()`: only the status changes. */
  function MarkExpired(inv: Invitation): (r: Invitation)
    ensures r.status == Expired
    ensures forall now :: !IsValid(r, now)
    ensures r.email == inv.email && r.household == inv.household && r.invitedBy == inv.invitedBy
    ensures r.token == inv.token && r.createdAt == inv.createdAt && r.expiresAt == inv.expiresAt
    ensures r.acceptedAt == inv.acceptedAt && r.acceptedBy == inv.acceptedBy
  {
    inv.(status := Expired)
  }

  /** Every invitation is stored under its own token. */
  predicate TokensConsistent(invs: Invitations) {
    forall t :: t in invs ==> invs[t].token == t
  }

  /** The query `{ email, household, status: "pending", expiresAt: { $gt: now } }`
      finds something. */
  predicate HasValidInvitation(invs: Invitations, email: string, household: Id, now: Time) {
    exists t :: t in invs && invs[t].email == email && invs[t].household == household && IsValid(invs[t], now)
  }

  /** The query of sign-up, `{ email, status: "pending", expiresAt: { $gt: now } }`,
      finds something. */
  predicate HasValidInvitationFor(invs: Invitations, email: string, now: Time) {
    exists t :: t in invs && invs[t].email == email && IsValid(invs[t], now)
  }

  /** The invitation lookup of sign-up with the address as the handler
      passes it: the filter value is normalized by the path's setters. */
  predicate PendingFor(invs: Invitations, email: string, now: Time) {
    HasValidInvitationFor(invs, NormalizeEmail(email), now)
  }

  /** At most one valid invitation per (email, household) pair. */
  predicate AtMostOneValid(invs: Invitations, now: Time) {
    forall t1, t2 ::
      t1 in invs && t2 in invs && IsValid(invs[t1], now) && IsValid(invs[t2], now)
      && invs[t1].email == invs[t2].email && invs[t1].household == invs[t2].household
      ==> t1 == t2
  }

  /** Adding an invitation under a fresh token keeps at most one valid
      invitation per pair when no valid one exists for its pair yet. */
  lemma AddKeepsAtMostOneValid(invs: Invitations, inv: Invitation, now: Time)
    requires inv.token !in invs && AtMostOneValid(invs, now)
    requires !HasValidInvitation(invs, inv.email, inv.household, now)
    ensures AtMostOneValid(invs[inv.token := inv], now)
  {
    var invs' := invs[inv.token := inv];
    forall t | t in invs' && t != inv.token ensures invs'[t] == invs[t] {
    }
  }

  /** Validity only runs out as time passes, so uniqueness at one instant
      carries over to every later instant. */
  lemma AtMostOneValidLater(invs: Invitations, now: Time, later: Time)
    requires AtMostOneValid(invs, now) && now <= later
    ensures AtMostOneValid(invs, later)
  {
  }
}

=== FILE: off_controller.dfy ===
/**
 The Open Food Facts controller (src/controllers/openFoodFacts.js): request
 validation and the numeric clamps of the search handlers, and the two
 handlers that write food items, `addToFoodItems` and `enrichFoodItem`.

 The service's lookup of a cleaned barcode is a parameter `lookup`; a
 network failure of the lookup (a 500 answer) is not modelled. The caller's
 food items are a sequence in the store's natural order, so `findOne`
 answers the first match.
 */
module OffController {
  import opened Base
  import opened Strings
  import opened FoodItems
  import opened OffService

  datatype Failure =
    | BarcodeRequired
    | InvalidBarcode
    | QueryTooShort
    | CategoryRequired
    | InvalidLocation
    | ProductNotFound
    | FoodItemNotFound
    | SaveFailed(reason: SaveError)

  function HttpStatus(f: Failure): nat {
    match f
    case ProductNotFound => 404
    case FoodItemNotFound => 404
    case SaveFailed(_) => 500
    case _ => 400
  }

  // ---------------------------------------------------------------------
  // parseInt and the clamps

  predicate IsHexDigit(c: char) {
    IsDigit(c) || ('a' <= c <= 'f') || ('A' <= c <= 'F')
  }

  function HexDigitValue(c: char): (r: nat)
    requires IsHexDigit(c)
    ensures r < 16
  {
    if IsDigit(c) then c as int - '0' as int
    else if 'a' <= c <= 'f' then c as int - 'a' as int + 10
    else c as int - 'A' as int + 10
  }

  /** The number of leading decimal digits. */
  function DecimalRun(s: string): (n: nat)
    ensures n <= |s| && AllDigits(s[..n])
    ensures n < |s| ==> !IsDigit(s[n])
  {
    if |s| == 0 || !IsDigit(s[0]) then 0
    else
      var k := DecimalRun(s[1..]);
      assert s[..k + 1] == [s[0]] + s[1..][..k];
      k + 1
  }

  /** The number of leading hexadecimal digits. */
  function HexRun(s: string): (n: nat)
    ensures n <= |s|
    ensures forall i :: 0 <= i < n ==> IsHexDigit(s[i])
    ensures n < |s| ==> !IsHexDigit(s[n])
  {
    if |s| == 0 || !IsHexDigit(s[0]) then 0 else HexRun(s[1..]) + 1
  }

  function HexValue(s: string): nat
    requires forall i :: 0 <= i < |s| ==> IsHexDigit(s[i])
  {
    if |s| == 0 then 0 else 16 * HexValue(s[..|s| - 1]) + HexDigitValue(s[|s| - 1])
  }

  /** A "0x" or "0X" prefix, which switches `parseInt` to hexadecimal. */
  predicate HexPrefixed(u: string) {
    |u| >= 2 && u[0] == '0' && (u[1] == 'x' || u[1] == 'X')
  }

  /** The magnitude `parseInt` reads after the sign: hexadecimal after a
      "0x" or "0X" prefix, decimal otherwise; None (NaN) without a digit. */
  function ParseMagnitude(u: string): (r: Option<nat>)
    ensures !HexPrefixed(u) ==> (r.None? <==> DecimalRun(u) == 0)
    ensures !HexPrefixed(u) && r.Some? ==> r.value == DecimalValue(u[..DecimalRun(u)])
    ensures HexPrefixed(u) ==> (r.None? <==> HexRun(u[2..]) == 0)
    ensures HexPrefixed(u) && r.Some? ==> r.value == HexValue(u[2..][..HexRun(u[2..])])
    ensures AllDigits(u) && |u| > 0 && !(|u| >= 2 && u[1] in "xX") ==> r == Some(DecimalValue(u))
  {
    if HexPrefixed(u) then
      var k := HexRun(u[2..]);
      if k == 0 then None else Some(HexValue(u[2..][..k]))
    else
      var k := DecimalRun(u);
      assert AllDigits(u) ==> k == |u| && u[..k] == u;
      if k == 0 then None else Some(DecimalValue(u[..k]))
  }

  /** `parseInt(s)` without a radix: leading white space skipped, an optional
      sign, then the longest run of digits; None stands for NaN. */
  function ParseInt(s: string): (r: Option<int>)
    ensures var t := TrimStart(s);
      && (|t| > 0 && t[0] == '-' ==>
            (r.None? <==> ParseMagnitude(t[1..]).None?)
            && (r.Some? ==> r.value == -(ParseMagnitude(t[1..]).value as int)))
      && (|t| > 0 && t[0] == '+' ==>
            (r.None? <==> ParseMagnitude(t[1..]).None?)
            && (r.Some? ==> r.value == ParseMagnitude(t[1..]).value as int))
      && (|t| == 0 || (t[0] != '-' && t[0] != '+') ==>
            (r.None? <==> ParseMagnitude(t).None?)
            && (r.Some? ==> r.value == ParseMagnitude(t).value as int))
  {
    var t := TrimStart(s);
    var signed := |t| > 0 && (t[0] == '-' || t[0] == '+');
    var u := if signed then t[1..] else t;
    match ParseMagnitude(u)
    case None => None
    case Some(m) =>
      var v: int := if signed && t[0] == '-' then -(m as int) else m;
      Some(v)
  }

  /** `parseInt` stops at the first character that is not a digit:
      "20abc" reads as 20. */
  lemma ParseIntStopsAtNonDigit(d: string, rest: string)
    requires |d| > 0 && AllDigits(d)
    requires |rest| > 0 && !IsDigit(rest[0])
    requires |d| == 1 && d[0] == '0' ==> rest[0] != 'x' && rest[0] != 'X'
    ensures ParseInt(d + rest) == Some(DecimalValue(d) as int)
  {
    var s := d + rest;
    assert s[0] == d[0] && IsDigit(s[0]);
    assert !IsSpace(s[0]) && s[0] != '-' && s[0] != '+';
    assert TrimStart(s) == s;
    assert !HexPrefixed(s) by {
      if |d| >= 2 {
        assert s[1] == d[1] && IsDigit(s[1]);
      } else {
        assert s[1] == rest[0];
      }
    }
    DecimalRunOfPrefix(d, rest);
    assert s[..|d|] == d;
  }

  /** The digit run of digits followed by a non-digit is exactly those
      digits. */
  lemma {:induction false} DecimalRunOfPrefix(d: string, rest: string)
    requires AllDigits(d)
    requires |rest| > 0 && !IsDigit(rest[0])
    ensures DecimalRun(d + rest) == |d|
  {
    if |d| == 0 {
      assert d + rest == rest;
    } else {
      assert (d + rest)[0] == d[0] && IsDigit(d[0]);
      assert (d + rest)[1..] == d[1..] + rest;
      assert AllDigits(d[1..]) by {
        forall i | 0 <= i < |d[1..]| ensures IsDigit(d[1..][i]) {
          assert d[1..][i] == d[i + 1];
        }
      }
      DecimalRunOfPrefix(d[1..], rest);
    }
  }

  /** `String(n)` for an integer: its decimal rendering, with a minus sign
      in front when it is negative. */
  function IntToString(n: int): (r: string)
    ensures |r| > 0
    ensures n >= 0 ==> AllDigits(r) && DecimalValue(r) == n && (|r| > 1 ==> r[0] != '0')
    ensures n < 0 ==> |r| > 1 && r[0] == '-' && AllDigits(r[1..]) && DecimalValue(r[1..]) == -n
    ensures n < 0 ==> |r| > 2 ==> r[1] != '0'
  {
    if n < 0 then
      var d := NatToString(-n);
      DecimalRoundTrip(-n);
      assert ("-" + d)[1..] == d;
      "-" + d
    else
      DecimalRoundTrip(n);
      NatToString(n)
  }

  /** `parseInt(String(n)) == n`: `parseInt` reads back the rendering of
      every integer. */
  lemma ParseIntRoundTrip(n: int)
    ensures ParseInt(IntToString(n)) == Some(n)
  {
    if n < 0 {
      ParseIntOfNegative(n);
    } else {
      ParseIntOfDigits(IntToString(n));
    }
  }

  lemma ParseIntOfNegative(n: int)
    requires n < 0
    ensures ParseInt(IntToString(n)) == Some(n)
  {
    ParseIntOfNegatedDigits(IntToString(n));
  }

  lemma ParseIntOfDigits(d: string)
    requires |d| > 0 && AllDigits(d) && (|d| > 1 ==> d[0] != '0')
    ensures ParseInt(d) == Some(DecimalValue(d) as int)
  {
    assert IsDigit(d[0]);
    assert !IsSpace(d[0]) && d[0] != '-' && d[0] != '+';
    assert TrimStart(d) == d;
    DigitsParse(d);
  }

  lemma ParseIntOfNegatedDigits(m: string)
    requires |m| > 1 && m[0] == '-' && AllDigits(m[1..]) && (|m| > 2 ==> m[1] != '0')
    ensures ParseInt(m) == Some(-(DecimalValue(m[1..]) as int))
  {
    assert !IsSpace(m[0]);
    assert TrimStart(m) == m;
    DigitsParse(m[1..]);
    MinusSignParse(m, DecimalValue(m[1..]));
  }

  /** A leading minus sign negates the magnitude read after it. */
  lemma MinusSignParse(m: string, v: nat)
    requires |m| > 0 && m[0] == '-' && TrimStart(m) == m && ParseMagnitude(m[1..]) == Some(v)
    ensures ParseInt(m) == Some(-(v as int))
  {
    var t := TrimStart(m);
    assert |t| > 0 && t[0] == '-' && t[1..] == m[1..];
  }

  /** A non-empty run of decimal digits without a leading zero is read as
      its decimal value. */
  lemma DigitsParse(d: string)
    requires |d| > 0 && AllDigits(d) && (|d| > 1 ==> d[0] != '0')
    ensures ParseMagnitude(d) == Some(DecimalValue(d))
  {
    if |d| >= 2 {
      assert IsDigit(d[1]);
    }
  }

  /** `parseInt(v) || d` where an absent query value stands for the
      handler's numeric default `deflt`, which `parseInt` reads back. */
  function ParsedOr(v: Option<string>, deflt: int, fallback: int): (r: int)
    requires deflt != 0 && fallback != 0
    ensures r != 0
    ensures v.None? ==> r == deflt
    ensures v.Some? && ParseInt(v.value).Some? && ParseInt(v.value).value != 0 ==> r == ParseInt(v.value).value
    ensures v.Some? && (ParseInt(v.value).None? || ParseInt(v.value).value == 0) ==> r == fallback
  {
    if v.None? then deflt
    else
      match ParseInt(v.value)
      case Some(n) => if n != 0 then n else fallback
      case None => fallback
  }

  function Min(a: int, b: int): int {
    if a <= b then a else b
  }

  /** `parseInt(page) || 1` with `page = 1` by default; not clamped, so a
      negative page number passes through. */
  function PageNumber(page: Option<string>): (r: int)
    ensures r != 0
    ensures page.None? ==> r == 1
    ensures page.Some? && ParseInt(page.value).Some? && ParseInt(page.value).value != 0 ==>
      r == ParseInt(page.value).value
    ensures page.Some? && (ParseInt(page.value).None? || ParseInt(page.value).value == 0) ==> r == 1
  {
    ParsedOr(page, 1, 1)
  }

  /** `Math.min(parseInt(limit) || 20, 50)` with `limit = 20` by default. */
  function PageSize(limit: Option<string>): (r: int)
    ensures r <= 50 && r != 0
    ensures limit.None? ==> r == 20
    ensures limit.Some? && ParseInt(limit.value).Some? && ParseInt(limit.value).value != 0 ==>
      r == Min(ParseInt(limit.value).value, 50)
    ensures limit.Some? && (ParseInt(limit.value).None? || ParseInt(limit.value).value == 0) ==> r == 20
  {
    Min(ParsedOr(limit, 20, 20), 50)
  }

  /** `Math.min(parseInt(limit) || 10, 20)` with `limit = 10` by default. */
  function SuggestionLimit(limit: Option<string>): (r: int)
    ensures r <= 20 && r != 0
    ensures limit.None? ==> r == 10
    ensures limit.Some? && ParseInt(limit.value).Some? && ParseInt(limit.value).value != 0 ==>
      r == Min(ParseInt(limit.value).value, 20)
    ensures limit.Some? && (ParseInt(limit.value).None? || ParseInt(limit.value).value == 0) ==> r == 10
  {
    Min(ParsedOr(limit, 10, 10), 20)
  }

  /** A large limit is cut to 50, and a page size is never 0. */
  lemma PageSizeClamps(n: int)
    ensures PageSize(Some(IntToString(n))) == if n == 0 then 20 else Min(n, 50)
  {
    ParseIntRoundTrip(n);
  }

  // ---------------------------------------------------------------------
  // The search handlers

  /** `searchByBarcode`: an empty barcode, then a malformed one, is rejected
      before any lookup; otherwise the CLEANED barcode is looked up. */
  function SearchByBarcode(barcode: string, lookup: string -> Option<Product>): (r: Result<Product, Failure>)
    ensures barcode == "" ==> r == Err(BarcodeRequired)
    ensures barcode != "" && !IsValidBarcode(barcode) ==> r == Err(InvalidBarcode)
    ensures IsValidBarcode(barcode) ==>
      && (r.Ok? <==> lookup(CleanBarcode(barcode)).Some?)
      && (r.Ok? ==> Some(r.value) == lookup(CleanBarcode(barcode)))
      && (r.Err? ==> r.error == ProductNotFound)
  {
    if barcode == "" then Err(BarcodeRequired)
    else if !IsValidBarcode(barcode) then Err(InvalidBarcode)
    else
      match lookup(CleanBarcode(barcode))
      case None => Err(ProductNotFound)
      case Some(p) => Ok(p)
  }

  /** Rejection does not depend on what the lookup would answer. */
  lemma BarcodeRejectedBeforeLookup(barcode: string, l1: string -> Option<Product>, l2: string -> Option<Product>)
    requires !IsValidBarcode(barcode)
    ensures SearchByBarcode(barcode, l1) == SearchByBarcode(barcode, l2)
    ensures SearchByBarcode(barcode, l1).Err? && HttpStatus(SearchByBarcode(barcode, l1).error) == 400
  {
  }

  /** `!query || query.trim().length < 2` fails. */
  predicate QueryLongEnough(q: Option<string>) {
    q.Some? && |Trim(q.value)| >= 2
  }

  /** The arguments the search handlers pass on to the service. */
  datatype SearchRequest = SearchRequest(term: string, page: int, pageSize: int)

  /** `searchByText`: a short query is refused; otherwise the trimmed query
      is searched with the parsed page and clamped page size, and the answer
      is shaped by the service. */
  function SearchByText(q: Option<string>, page: Option<string>, limit: Option<string>,
                        fetch: SearchRequest -> Option<RawSearch>, now: Time): (r: Result<SearchPage, Failure>)
    ensures r.Err? <==> !QueryLongEnough(q)
    ensures r.Err? ==> r.error == QueryTooShort
    ensures r.Ok? ==>
      var req := SearchRequest(Trim(q.value), PageNumber(page), PageSize(limit));
      && |req.term| >= 2 && req.pageSize <= 50
      && r.value == SearchResults(fetch(req), req.pageSize, now)
  {
    if !QueryLongEnough(q) then Err(QueryTooShort)
    else
      var req := SearchRequest(Trim(q.value), PageNumber(page), PageSize(limit));
      Ok(SearchResults(fetch(req), req.pageSize, now))
  }

  /** `searchByCategory`: only an empty category is refused; the category is
      passed on untrimmed. */
  function SearchByCategory(category: string, page: Option<string>, limit: Option<string>,
                            fetch: SearchRequest -> Option<RawSearch>, now: Time): (r: Result<SearchPage, Failure>)
    ensures r.Err? <==> category == ""
    ensures r.Err? ==> r.error == CategoryRequired
    ensures r.Ok? ==>
      var req := SearchRequest(category, PageNumber(page), PageSize(limit));
      r.value == SearchResults(fetch(req), req.pageSize, now)
  {
    if category == "" then Err(CategoryRequired)
    else
      var req := SearchRequest(category, PageNumber(page), PageSize(limit));
      Ok(SearchResults(fetch(req), req.pageSize, now))
  }

  /** A short text query gets 400 whatever the service would answer. */
  lemma ShortQueryNeverFetched(q: Option<string>, page: Option<string>, limit: Option<string>,
                               f1: SearchRequest -> Option<RawSearch>, f2: SearchRequest -> Option<RawSearch>, now: Time)
    requires !QueryLongEnough(q)
    ensures SearchByText(q, page, limit, f1, now) == SearchByText(q, page, limit, f2, now) == Err(QueryTooShort)
  {
  }

  /** `getSuggestions` as written: a short query succeeds with no
      suggestions and no lookup; otherwise the service cuts the answer to the
      clamped limit. A limit of at most 20 bounds the answer only when it is
      not negative. */
  function GetSuggestions(q: Option<string>, limit: Option<string>,
                          fetch: string -> Option<seq<RawSuggestion>>): (r: seq<Suggestion>)
    ensures !QueryLongEnough(q) ==> r == []
    ensures QueryLongEnough(q) ==> r == GetProductSuggestions(fetch(Trim(q.value)), SuggestionLimit(limit))
    ensures SuggestionLimit(limit) > 0 ==> |r| <= 20
  {
    if !QueryLongEnough(q) then [] else GetProductSuggestions(fetch(Trim(q.value)), SuggestionLimit(limit))
  }

  /** A negative limit slips under the cap of 20: `slice(0, -n)` keeps all
      but the last n elements, so a long enough answer yields more than 20
      suggestions. */
  lemma NegativeLimitExceedsCap(q: string, n: int, fetch: string -> Option<seq<RawSuggestion>>)
    requires QueryLongEnough(Some(q)) && n < 0
    requires fetch(Trim(q)).Some? && |fetch(Trim(q)).value| > 20 - n
    ensures |GetSuggestions(Some(q), Some(IntToString(n)), fetch)| > 20
  {
    NegativeSuggestionLimit(n);
    assert GetSuggestions(Some(q), Some(IntToString(n)), fetch) == GetProductSuggestions(fetch(Trim(q)), n);
  }

  /** A negative limit passes the `Math.min` cap unchanged. */
  lemma NegativeSuggestionLimit(n: int)
    requires n < 0
    ensures SuggestionLimit(Some(IntToString(n))) == n
  {
    ParseIntRoundTrip(n);
  }

  /** The suggestion limit with the cap taken as intended: at most 20, and
      never below 0. */
  function CappedSuggestionLimit(limit: Option<string>): (r: nat)
    ensures r <= 20
    ensures SuggestionLimit(limit) >= 0 ==> r == SuggestionLimit(limit)
  {
    var l := SuggestionLimit(limit);
    if l < 0 then 0 else l
  }

  /** `getSuggestions` with the intended cap: never more than 20
      suggestions, and the same answer whenever the limit is not negative. */
  function GetSuggestionsCapped(q: Option<string>, limit: Option<string>,
                                fetch: string -> Option<seq<RawSuggestion>>): (r: seq<Suggestion>)
    ensures |r| <= 20
    ensures !QueryLongEnough(q) ==> r == []
    ensures SuggestionLimit(limit) >= 0 ==> r == GetSuggestions(q, limit, fetch)
  {
    if !QueryLongEnough(q) then [] else GetProductSuggestions(fetch(Trim(q.value)), CappedSuggestionLimit(limit))
  }

  // ---------------------------------------------------------------------
  // Writing food items

  /** The `openFoodFactsData` the handlers store for a product: the schema
      keeps the listed fields and drops the calories from `nutrition`. */
  function OffDataOf(p: Product, now: Time): (d: OffData)
    ensures d.barcode == p.barcode && d.brands == p.brands && d.imageUrl == p.imageUrl
    ensures d.nutritionGrade == p.nutritionGrade && d.novaGroup == p.novaGroup
    ensures d.labels == p.labels && d.allergens == p.allergens && d.lastUpdated == now
    ensures d.nutrition.proteins == p.nutrition.proteins && d.nutrition.salt == p.nutrition.salt
  {
    var n := p.nutrition;
    OffData(p.barcode, p.brands, p.nutritionGrade, p.novaGroup, p.imageUrl,
            Nutrition(n.proteins, n.carbohydrates, n.sugars, n.fat, n.saturatedFat, n.fiber, n.sodium, n.salt),
            p.labels, p.allergens, now)
  }

  /** `FoodItem.findOne({ user, name })`: the first item of the caller with
      exactly that name. The caller passes the name as the query matches
      it, after the path's setters. */
  function FindByName(items: seq<FoodItem>, user: Id, name: string): (r: Option<nat>)
    ensures r.Some? ==> r.value < |items| && items[r.value].user == user && items[r.value].name == name
    ensures r.Some? ==> forall j :: 0 <= j < r.value ==> !(items[j].user == user && items[j].name == name)
    ensures r.None? ==> forall j :: 0 <= j < |items| ==> !(items[j].user == user && items[j].name == name)
  {
    if |items| == 0 then None
    else if items[0].user == user && items[0].name == name then Some(0)
    else
      match FindByName(items[1..], user, name)
      case None => None
      case Some(k) => Some(k + 1)
  }

  /** `FoodItem.findOne({ _id, user })`: the caller's item with that id. */
  function FindOwned(items: seq<FoodItem>, user: Id, id: Id): (r: Option<nat>)
    ensures r.Some? ==> r.value < |items| && items[r.value].user == user && items[r.value].id == id
    ensures r.None? ==> forall j :: 0 <= j < |items| ==> !(items[j].user == user && items[j].id == id)
  {
    if |items| == 0 then None
    else if items[0].user == user && items[0].id == id then Some(0)
    else
      match FindOwned(items[1..], user, id)
      case None => None
      case Some(k) => Some(k + 1)
  }

  /** The body of an add request; None is an absent field. */
  datatype AddRequest = AddRequest(location: Option<string>, quantity: Option<real>, unit: Option<string>)

  datatype Added = QuantityUpdated(item: FoodItem) | Created(item: FoodItem)

  /** The location an add request names, "shopping-list" by default. */
  function RequestedLocation(body: AddRequest): Option<Location> {
    ParseLocation(body.location.GetOr("shopping-list"))
  }

  /** The item `addToFoodItems` creates before saving it. */
  function NewFoodItem(p: Product, caller: Id, loc: Location, amount: real, unit: string, newId: Id, now: Time): (f: FoodItem)
    ensures f.user == caller && f.name == p.name && f.unit == unit && f.id == newId
    ensures f.category == [p.mainCategory]
    ensures Get(f.quantities, loc) == amount
    ensures forall m :: m != loc ==> Get(f.quantities, m) == 0.0
    ensures f.calories == Some(p.nutrition.calories)
  {
    FoodItem(newId, p.name, [p.mainCategory], unit, None, Some(p.nutrition.calories), caller,
             [], Only(loc, amount), None, Some(OffDataOf(p, now)))
  }

  /** The guards of `addToFoodItems` up to the lookup: the barcode, then the
      location, are checked before the product is looked up. */
  function AddCheck(barcode: string, body: AddRequest, lookup: string -> Option<Product>): (r: Result<(Location, Product), Failure>)
    ensures barcode == "" ==> r == Err(BarcodeRequired)
    ensures barcode != "" && RequestedLocation(body).None? ==> r == Err(InvalidLocation)
    ensures r.Ok? <==> barcode != "" && RequestedLocation(body).Some? && lookup(CleanBarcode(barcode)).Some?
    ensures r.Ok? ==> Some(r.value.0) == RequestedLocation(body) && Some(r.value.1) == lookup(CleanBarcode(barcode))
    ensures r.Err? && r.error != BarcodeRequired && r.error != InvalidLocation ==> r.error == ProductNotFound
  {
    if barcode == "" then Err(BarcodeRequired)
    else
      match RequestedLocation(body)
      case None => Err(InvalidLocation)
      case Some(loc) =>
        match lookup(CleanBarcode(barcode))
        case None => Err(ProductNotFound)
        case Some(p) => Ok((loc, p))
  }

  /** The existing-item branch of `addToFoodItems`: only the quantity at
      the location grows, by `amount`, and the item is saved in place. */
  function BumpExisting(items: seq<FoodItem>, k: nat, loc: Location, amount: real): (r: (seq<FoodItem>, Result<Added, Failure>))
    requires k < |items|
    ensures r.1.Err? ==> r.0 == items
    ensures r.1.Ok? ==>
      && r.1.value.QuantityUpdated?
      && r.0 == items[k := r.1.value.item]
      && Get(r.1.value.item.quantities, loc) == Get(items[k].quantities, loc) + amount
      && (forall m :: m != loc ==> Get(r.1.value.item.quantities, m) == Get(items[k].quantities, m))
      && r.1.value.item.name == Trim(items[k].name)
      && r.1.value.item == items[k].(name := r.1.value.item.name, quantities := r.1.value.item.quantities,
                                     locations := r.1.value.item.locations)
      && LocationsAgree(r.1.value.item)
  {
    var item := items[k];
    match Save(item.(quantities := Add(item.quantities, loc, amount)))
    case Err(e) => (items, Err(SaveFailed(e)))
    case Ok(saved) => (items[k := saved], Ok(QuantityUpdated(saved)))
  }

  /** The new-item branch of `addToFoodItems`: one item is appended, owned
      by the caller, holding `amount` at the location and 0 elsewhere. */
  function AppendNew(items: seq<FoodItem>, p: Product, caller: Id, loc: Location, amount: real, unit: string,
                     newId: Id, now: Time): (r: (seq<FoodItem>, Result<Added, Failure>))
    ensures r.1.Err? ==> r.0 == items
    ensures unit == "" ==> r.1.Err?
    ensures r.1.Ok? ==>
      && r.1.value.Created?
      && r.0 == items + [r.1.value.item]
      && r.1.value.item.user == caller && r.1.value.item.id == newId
      && r.1.value.item.name == Trim(p.name) && r.1.value.item.unit == unit
      && r.1.value.item.category == [p.mainCategory]
      && Get(r.1.value.item.quantities, loc) == amount
      && (forall m :: m != loc ==> Get(r.1.value.item.quantities, m) == 0.0)
      && LocationsAgree(r.1.value.item)
  {
    match Save(NewFoodItem(p, caller, loc, amount, unit, newId, now))
    case Err(e) => (items, Err(SaveFailed(e)))
    case Ok(saved) => (items + [saved], Ok(Created(saved)))
  }

  /**
   `addToFoodItems`: the guards of `AddCheck`, then the caller's item named
   like the product grows at the location by the requested amount (1 by
   default), or else a new item is appended. Every guard failure and every
   failed save leaves the items as they were, and no call both updates and
   creates. The name filter goes through the `trim` setter of the `name`
   path, as a stored name does, so "Milk " finds the stored "Milk".
   */
  function AddToFoodItems(items: seq<FoodItem>, caller: Id, barcode: string, body: AddRequest,
                          lookup: string -> Option<Product>, newId: Id, now: Time): (r: (seq<FoodItem>, Result<Added, Failure>))
    ensures r.1.Err? ==> r.0 == items
    ensures AddCheck(barcode, body, lookup).Err? ==> r == (items, Err(AddCheck(barcode, body, lookup).error))
    ensures AddCheck(barcode, body, lookup).Ok? ==>
      var (loc, p) := AddCheck(barcode, body, lookup).value;
      match FindByName(items, caller, Trim(p.name))
      case Some(k) => r == BumpExisting(items, k, loc, body.quantity.GetOr(1.0))
      case None => r == AppendNew(items, p, caller, loc, body.quantity.GetOr(1.0), body.unit.GetOr("pcs"), newId, now)
    ensures r.1.Ok? && r.1.value.QuantityUpdated? ==> |r.0| == |items|
    ensures r.1.Ok? && r.1.value.Created? ==> |r.0| == |items| + 1
  {
    match AddCheck(barcode, body, lookup)
    case Err(e) => (items, Err(e))
    case Ok((loc, p)) =>
      var amount := body.quantity.GetOr(1.0);
      match FindByName(items, caller, Trim(p.name))
      case Some(k) => BumpExisting(items, k, loc, amount)
      case None => AppendNew(items, p, caller, loc, amount, body.unit.GetOr("pcs"), newId, now)
  }

  /** Adding the same product twice never creates a second item: whatever
      the first call saved is found again by the product's name, padded or
      not, and the second call can only raise its quantity. */
  lemma AddTwiceCreatesOnce(items: seq<FoodItem>, caller: Id, barcode: string, body: AddRequest,
                            lookup: string -> Option<Product>, id1: Id, id2: Id, now: Time, later: Time)
    requires AddToFoodItems(items, caller, barcode, body, lookup, id1, now).1.Ok?
    ensures
      var first := AddToFoodItems(items, caller, barcode, body, lookup, id1, now);
      var second := AddToFoodItems(first.0, caller, barcode, body, lookup, id2, later);
      && |second.0| == |first.0|
      && (second.1.Ok? ==> second.1.value.QuantityUpdated?)
  {
    var first := AddToFoodItems(items, caller, barcode, body, lookup, id1, now);
    AddedFoundAgain(items, caller, barcode, body, lookup, id1, now);
    FoundOnlyBumps(first.0, caller, barcode, body, lookup, id2, later);
  }

  /** After a successful add the caller has an item under the product's
      trimmed name. */
  lemma AddedFoundAgain(items: seq<FoodItem>, caller: Id, barcode: string, body: AddRequest,
                        lookup: string -> Option<Product>, newId: Id, now: Time)
    requires AddToFoodItems(items, caller, barcode, body, lookup, newId, now).1.Ok?
    ensures AddCheck(barcode, body, lookup).Ok?
    ensures FindByName(AddToFoodItems(items, caller, barcode, body, lookup, newId, now).0,
                       caller, Trim(AddCheck(barcode, body, lookup).value.1.name)).Some?
  {
    var first := AddToFoodItems(items, caller, barcode, body, lookup, newId, now);
    var chk := AddCheck(barcode, body, lookup).value;
    var loc := chk.0;
    var p := chk.1;
    var amount := body.quantity.GetOr(1.0);
    var name := Trim(p.name);
    TrimIdempotent(p.name);
    match FindByName(items, caller, name)
    case Some(k) =>
      assert first == BumpExisting(items, k, loc, amount);
      BumpedFound(items, k, loc, amount, caller, name);
    case None =>
      assert first == AppendNew(items, p, caller, loc, amount, body.unit.GetOr("pcs"), newId, now);
      AppendedFound(items, p, caller, loc, amount, body.unit.GetOr("pcs"), newId, now);
  }

  /** A raised item keeps its owner and its trimmed name. */
  lemma BumpedFound(items: seq<FoodItem>, k: nat, loc: Location, amount: real, user: Id, name: string)
    requires k < |items| && items[k].user == user && Trim(items[k].name) == name
    requires BumpExisting(items, k, loc, amount).1.Ok?
    ensures FindByName(BumpExisting(items, k, loc, amount).0, user, name).Some?
  {
    var r := BumpExisting(items, k, loc, amount);
    FoundAt(r.0, user, name, k);
  }

  /** An appended item is found under the product's trimmed name. */
  lemma AppendedFound(items: seq<FoodItem>, p: Product, caller: Id, loc: Location, amount: real, unit: string,
                      newId: Id, now: Time)
    requires AppendNew(items, p, caller, loc, amount, unit, newId, now).1.Ok?
    ensures FindByName(AppendNew(items, p, caller, loc, amount, unit, newId, now).0, caller, Trim(p.name)).Some?
  {
    var r := AppendNew(items, p, caller, loc, amount, unit, newId, now);
    FoundAt(r.0, caller, Trim(p.name), |items|);
  }

  /** An item of the caller with the name is found, at that index or
      before. */
  lemma FoundAt(items: seq<FoodItem>, user: Id, name: string, k: nat)
    requires k < |items| && items[k].user == user && items[k].name == name
    ensures FindByName(items, user, name).Some? && FindByName(items, user, name).value <= k
  {
  }

  /** When the caller already has an item under the product's trimmed name,
      an add raises a quantity or fails; it never appends. */
  lemma FoundOnlyBumps(items: seq<FoodItem>, caller: Id, barcode: string, body: AddRequest,
                       lookup: string -> Option<Product>, newId: Id, now: Time)
    requires AddCheck(barcode, body, lookup).Ok?
    requires FindByName(items, caller, Trim(AddCheck(barcode, body, lookup).value.1.name)).Some?
    ensures var r := AddToFoodItems(items, caller, barcode, body, lookup, newId, now);
      && |r.0| == |items|
      && (r.1.Ok? ==> r.1.value.QuantityUpdated?)
  {
    var chk := AddCheck(barcode, body, lookup).value;
    var k := FindByName(items, caller, Trim(chk.1.name)).value;
    assert AddToFoodItems(items, caller, barcode, body, lookup, newId, now)
        == BumpExisting(items, k, chk.0, body.quantity.GetOr(1.0));
  }

  /** A location outside the three is refused before any lookup or change. */
  lemma InvalidLocationRejectedFirst(items: seq<FoodItem>, caller: Id, barcode: string, body: AddRequest,
                                     l1: string -> Option<Product>, l2: string -> Option<Product>, newId: Id, now: Time)
    requires barcode != "" && RequestedLocation(body).None?
    ensures AddToFoodItems(items, caller, barcode, body, l1, newId, now)
         == AddToFoodItems(items, caller, barcode, body, l2, newId, now)
         == (items, Err(InvalidLocation))
  {
  }

  // ---------------------------------------------------------------------
  // Enrichment

  /** `[...new Set(s)]`: the first occurrence of every element, in order. */
  function Dedup(s: seq<string>): (r: seq<string>)
    ensures forall x :: x in r <==> x in s
    ensures forall i, j :: 0 <= i < j < |r| ==> r[i] != r[j]
    ensures |r| <= |s|
  {
    if |s| == 0 then []
    else
      var d := Dedup(s[..|s| - 1]);
      assert forall x :: x in s <==> x in s[..|s| - 1] || x == s[|s| - 1] by {
        assert s == s[..|s| - 1] + [s[|s| - 1]];
      }
      if s[|s| - 1] in d then d else d + [s[|s| - 1]]
  }

  /** Extending the input never moves what is already there: the result for
      a prefix is a prefix of the result. */
  lemma {:induction false} DedupExtends(s: seq<string>, t: seq<string>)
    ensures |Dedup(s)| <= |Dedup(s + t)| && Dedup(s + t)[..|Dedup(s)|] == Dedup(s)
    decreases |t|
  {
    if |t| > 0 {
      var u := s + t[..|t| - 1];
      assert (s + t)[..|s + t| - 1] == u;
      DedupExtends(s, t[..|t| - 1]);
    } else {
      assert s + t == s;
    }
  }

  /** A list without repeats comes back unchanged. */
  lemma {:induction false} DedupOfDistinct(s: seq<string>)
    requires forall i, j :: 0 <= i < j < |s| ==> s[i] != s[j]
    ensures Dedup(s) == s
  {
    if |s| > 0 {
      var p := s[..|s| - 1];
      DedupOfDistinct(p);
      assert s[|s| - 1] !in p;
      assert s == p + [s[|s| - 1]];
    }
  }

  /** The category merge of enrichment: a category list without repeats gains
      the main category at the end unless it is already there. */
  lemma CategoryUnion(cats: seq<string>, main: string)
    requires forall i, j :: 0 <= i < j < |cats| ==> cats[i] != cats[j]
    ensures Dedup(cats + [main]) == if main in cats then cats else cats + [main]
  {
    DedupOfDistinct(cats);
    DedupSnoc(cats, main);
  }

  /** One more element is kept at the end exactly when it is new. */
  lemma DedupSnoc(s: seq<string>, x: string)
    ensures Dedup(s + [x]) == if x in Dedup(s) then Dedup(s) else Dedup(s) + [x]
  {
    var t := s + [x];
    assert t[..|t| - 1] == s && t[|t| - 1] == x;
  }

  /** The item after enrichment, before it is saved: calories replaced only
      by a non-zero figure, the main category merged in, the Open Food Facts
      data replaced; nothing else changes. */
  function Enriched(f: FoodItem, p: Product, now: Time): (g: FoodItem)
    ensures p.nutrition.calories == 0.0 ==> g.calories == f.calories
    ensures p.nutrition.calories != 0.0 ==> g.calories == Some(p.nutrition.calories)
    ensures forall c :: c in g.category <==> c in f.category || c == p.mainCategory
    ensures forall i, j :: 0 <= i < j < |g.category| ==> g.category[i] != g.category[j]
    ensures |Dedup(f.category)| <= |g.category| && g.category[..|Dedup(f.category)|] == Dedup(f.category)
    ensures g.offData == Some(OffDataOf(p, now))
    ensures g == f.(calories := g.calories, category := g.category, offData := g.offData)
  {
    var cats := Dedup(f.category + [p.mainCategory]);
    DedupExtends(f.category, [p.mainCategory]);
    f.(calories := if p.nutrition.calories != 0.0 then Some(p.nutrition.calories) else f.calories,
       category := cats,
       offData := Some(OffDataOf(p, now)))
  }

  /**
   `enrichFoodItem`: an empty barcode is refused first, then an item that is
   not the caller's (404), then an unknown product (404). On success only
   the enriched item changes, in place.
   */
  function EnrichFoodItem(items: seq<FoodItem>, caller: Id, foodItemId: Id, barcode: string,
                          lookup: string -> Option<Product>, now: Time): (r: (seq<FoodItem>, Result<FoodItem, Failure>))
    ensures r.1.Err? ==> r.0 == items
    ensures barcode == "" ==> r.1 == Err(BarcodeRequired)
    ensures barcode != "" && FindOwned(items, caller, foodItemId).None? ==> r.1 == Err(FoodItemNotFound)
    ensures barcode != "" && FindOwned(items, caller, foodItemId).Some? && lookup(CleanBarcode(barcode)).None? ==>
      r.1 == Err(ProductNotFound)
    ensures barcode != "" && FindOwned(items, caller, foodItemId).Some? && lookup(CleanBarcode(barcode)).Some? ==>
      var saved := Save(Enriched(items[FindOwned(items, caller, foodItemId).value], lookup(CleanBarcode(barcode)).value, now));
      && (r.1.Ok? <==> saved.Ok?)
      && (saved.Err? ==> r.1 == Err(SaveFailed(saved.error)))
    ensures r.1.Ok? ==>
      && FindOwned(items, caller, foodItemId).Some? && lookup(CleanBarcode(barcode)).Some?
      && var k := FindOwned(items, caller, foodItemId).value;
      && r.0 == items[k := r.1.value]
      && r.1.value.user == caller && r.1.value.id == foodItemId
      && r.1.value.quantities == items[k].quantities
      && LocationsAgree(r.1.value)
      && r.1 == Ok(Save(Enriched(items[k], lookup(CleanBarcode(barcode)).value, now)).value)
  {
    if barcode == "" then (items, Err(BarcodeRequired))
    else
      match FindOwned(items, caller, foodItemId)
      case None => (items, Err(FoodItemNotFound))
      case Some(k) =>
        match lookup(CleanBarcode(barcode))
        case None => (items, Err(ProductNotFound))
        case Some(p) => SaveEnriched(items, k, p, now)
  }

  /** Saves the enriched item `k` in place; a failed save changes nothing. */
  function SaveEnriched(items: seq<FoodItem>, k: nat, p: Product, now: Time): (r: (seq<FoodItem>, Result<FoodItem, Failure>))
    requires k < |items|
    ensures var saved := Save(Enriched(items[k], p, now));
      && (r.1.Ok? <==> saved.Ok?)
      && (saved.Err? ==> r == (items, Err(SaveFailed(saved.error))))
      && (saved.Ok? ==> r == (items[k := saved.value], Ok(saved.value)))
    ensures r.1.Ok? ==>
      && r.1.value.user == items[k].user && r.1.value.id == items[k].id
      && r.1.value.quantities == items[k].quantities
      && LocationsAgree(r.1.value)
  {
    match Save(Enriched(items[k], p, now))
    case Err(e) => (items, Err(SaveFailed(e)))
    case Ok(saved) => (items[k := saved], Ok(saved))
  }
}

=== FILE: off_service.dfy ===
/**
 The pure helpers of the Open Food Facts service
 (src/services/openFoodFactsService.js): barcode cleaning and validation,
 main-category extraction, category-name formatting, the product record with
 its defaults, the pagination figures of a search and the suggestion slice.
 The HTTP request itself is not modelled: its decoded answer is an input.

 JavaScript `||` falls back on every falsy value. For the strings here that
 is an absent value or ""; for numbers an absent value or 0; an array,
 even an empty one, is truthy.
 */
module OffService {
  import opened Base
  import opened Strings

  // ---------------------------------------------------------------------
  // Barcodes

  /** The characters `/[\s-]/g` removes. */
  predicate IsBarcodeNoise(c: char) {
    IsSpace(c) || c == '-'
  }

  /** `cleanBarcode`: every whitespace character and hyphen removed, the rest
      kept in order. */
  function CleanBarcode(b: string): (r: string)
    ensures |r| <= |b|
    ensures forall i :: 0 <= i < |r| ==> !IsBarcodeNoise(r[i])
    ensures forall c :: c in r ==> c in b
    ensures (forall i :: 0 <= i < |b| ==> !IsBarcodeNoise(b[i])) ==> r == b
  {
    if |b| == 0 then []
    else (if IsBarcodeNoise(b[0]) then [] else [b[0]]) + CleanBarcode(b[1..])
  }

  /** Cleaning works character by character: it distributes over
      concatenation. */
  lemma {:induction false} CleanBarcodeConcat(a: string, b: string)
    ensures CleanBarcode(a + b) == CleanBarcode(a) + CleanBarcode(b)
  {
    if |a| > 0 {
      assert (a + b)[1..] == a[1..] + b;
      CleanBarcodeConcat(a[1..], b);
    } else {
      assert a + b == b;
    }
  }

  /** Cleaning a clean barcode changes nothing. */
  lemma CleanBarcodeIdempotent(b: string)
    ensures CleanBarcode(CleanBarcode(b)) == CleanBarcode(b)
  {
  }

  /** The lengths the pattern `^\d{8}$|^\d{12}$|^\d{13}$|^\d{14}$` admits:
      EAN-8, UPC-A, EAN-13 and GTIN-14. */
  predicate BarcodeLength(n: nat) {
    n == 8 || n == 12 || n == 13 || n == 14
  }

  /** `isValidBarcode`: the cleaned barcode is a run of ASCII digits of an
      admitted length. */
  function IsValidBarcode(b: string): (r: bool)
    ensures r <==> AllDigits(CleanBarcode(b)) && BarcodeLength(|CleanBarcode(b)|)
    ensures r ==> 8 <= |CleanBarcode(b)| <= 14 && 8 <= |b|
  {
    var c := CleanBarcode(b);
    AllDigits(c) && BarcodeLength(|c|)
  }

  /** Validity does not change under cleaning, so the cleaned barcode the
      controller looks up is itself a valid one. */
  lemma IsValidBarcodeOfClean(b: string)
    ensures IsValidBarcode(CleanBarcode(b)) == IsValidBarcode(b)
  {
    CleanBarcodeIdempotent(b);
  }

  /** Spaces and hyphens between digit groups do not matter: two digit
      groups of an admitted total length, joined by any run of them, make a
      valid barcode. */
  lemma GroupedBarcodeValid(a: string, sep: string, b: string)
    requires AllDigits(a) && AllDigits(b) && BarcodeLength(|a| + |b|)
    requires forall i :: 0 <= i < |sep| ==> IsBarcodeNoise(sep[i])
    ensures IsValidBarcode(a + sep + b)
  {
    GroupsJoinClean(a, sep, b);
    AllDigitsConcat(a, b);
  }

  /** Cleaning two digit groups joined by noise gives the groups side by side. */
  lemma GroupsJoinClean(a: string, sep: string, b: string)
    requires AllDigits(a) && AllDigits(b)
    requires forall i :: 0 <= i < |sep| ==> IsBarcodeNoise(sep[i])
    ensures CleanBarcode(a + sep + b) == a + b
  {
    var front := a + sep;
    CleanBarcodeConcat(front, b);
    CleanBarcodeConcat(a, sep);
    NoiseVanishes(sep);
    DigitsAreClean(a);
    DigitsAreClean(b);
    calc {
      CleanBarcode(a + sep + b);
      CleanBarcode(front) + CleanBarcode(b);
      (CleanBarcode(a) + CleanBarcode(sep)) + CleanBarcode(b);
      (a + []) + b;
      { assert a + [] == a; }
      a + b;
    }
  }

  /** Two digit runs side by side are one digit run. */
  lemma AllDigitsConcat(a: string, b: string)
    requires AllDigits(a) && AllDigits(b)
    ensures AllDigits(a + b)
  {
  }

  /** Digits survive cleaning. */
  lemma DigitsAreClean(a: string)
    requires AllDigits(a)
    ensures CleanBarcode(a) == a
  {
    assert forall i :: 0 <= i < |a| ==> !IsBarcodeNoise(a[i]) by {
      forall i | 0 <= i < |a| ensures !IsBarcodeNoise(a[i]) {
        assert IsDigit(a[i]);
      }
    }
  }

  /** A run of white space and hyphens cleans away entirely. */
  lemma {:induction false} NoiseVanishes(sep: string)
    requires forall i :: 0 <= i < |sep| ==> IsBarcodeNoise(sep[i])
    ensures CleanBarcode(sep) == []
  {
    if |sep| > 0 {
      assert IsBarcodeNoise(sep[0]);
      NoiseVanishes(sep[1..]);
    }
  }

  // ---------------------------------------------------------------------
  // Categories

  const PlantBasedTag: string := "plant-based-foods-and-beverages"
  const OtherCategory: string := "other"

  /** `cat.replace("en:", "")`: the first "en:" goes, wherever it is. */
  function StripEn(tag: string): string {
    ReplaceFirst(tag, "en:", "")
  }

  /** A tag in the "en:" namespace loses exactly that prefix, even when the
      rest mentions "en:" again. */
  lemma StripEnPrefix(t: string)
    ensures StripEn("en:" + t) == t
  {
    var s := "en:" + t;
    assert StartsWith(s, "en:") by {
      assert s[..3] == "en:";
    }
    assert IndexOf(s, "en:") == Some(0);
    assert s[3..] == t;
  }

  /** The map/filter step of `extractMainCategory`: strip "en:" from each tag
      and drop the ones that mention the plant-based umbrella tag. */
  function CleanCategories(tags: seq<string>): (r: seq<string>)
    ensures |r| <= |tags|
    ensures forall i :: 0 <= i < |r| ==> !Contains(r[i], PlantBasedTag)
    ensures forall i :: 0 <= i < |r| ==> exists t :: t in tags && r[i] == StripEn(t)
  {
    if |tags| == 0 then []
    else
      var c := StripEn(tags[0]);
      var rest := CleanCategories(tags[1..]);
      assert forall i :: 0 <= i < |rest| ==> exists t :: t in tags && rest[i] == StripEn(t) by {
        forall i | 0 <= i < |rest| ensures exists t :: t in tags && rest[i] == StripEn(t) {
          var t :| t in tags[1..] && rest[i] == StripEn(t);
          assert t in tags;
        }
      }
      (if Contains(c, PlantBasedTag) then [] else [c]) + rest
  }

  /** Appending a tag appends its cleaned form, unless it is dropped. */
  lemma {:induction false} CleanCategoriesSnoc(tags: seq<string>, t: string)
    ensures CleanCategories(tags + [t])
         == CleanCategories(tags) + (if Contains(StripEn(t), PlantBasedTag) then [] else [StripEn(t)])
  {
    if |tags| > 0 {
      var u := tags + [t];
      var head := if Contains(StripEn(tags[0]), PlantBasedTag) then [] else [StripEn(tags[0])];
      assert u[0] == tags[0] && u[1..] == tags[1..] + [t];
      assert CleanCategories(u) == head + CleanCategories(u[1..]);
      assert CleanCategories(tags) == head + CleanCategories(tags[1..]);
      CleanCategoriesSnoc(tags[1..], t);
    } else {
      assert tags + [t] == [t];
    }
  }

  /** `extractMainCategory`: "other" for a missing or empty list; otherwise
      the last cleaned tag, or "other" when none survives or it is empty.
      The result is never empty, and unless it is "other" it is the cleaned
      form of one of the tags. */
  function ExtractMainCategory(tags: Option<seq<string>>): (r: string)
    ensures r != ""
    ensures tags.None? || tags.value == [] ==> r == OtherCategory
    ensures r != OtherCategory ==>
      tags.Some? && !Contains(r, PlantBasedTag) && exists t :: t in tags.value && r == StripEn(t)
  {
    if tags.None? || |tags.value| == 0 then OtherCategory
    else
      var cs := CleanCategories(tags.value);
      if |cs| == 0 || cs[|cs| - 1] == "" then OtherCategory else cs[|cs| - 1]
  }

  /** The last tag wins when it survives cleaning and is not empty. */
  lemma LastKeptTagWins(tags: seq<string>, t: string)
    requires !Contains(StripEn(t), PlantBasedTag) && StripEn(t) != ""
    ensures ExtractMainCategory(Some(tags + [t])) == StripEn(t)
  {
    CleanCategoriesSnoc(tags, t);
  }

  /** A last tag that is kept but strips to nothing, such as a bare "en:",
      makes the empty string the last cleaned tag, and `|| "other"` turns
      it into "other" whatever the earlier tags are. */
  lemma EmptyLastTagGivesOther(tags: seq<string>, t: string)
    requires StripEn(t) == ""
    ensures ExtractMainCategory(Some(tags + [t])) == OtherCategory
  {
    CleanCategoriesSnoc(tags, t);
    assert !Contains("", PlantBasedTag);
  }

  /** The bare namespace tag "en:" strips to nothing, so it ends a list as
      "other". */
  lemma BareEnTagGivesOther(tags: seq<string>)
    ensures ExtractMainCategory(Some(tags + ["en:"])) == OtherCategory
  {
    StripEnPrefix("");
    assert "en:" + "" == "en:";
    EmptyLastTagGivesOther(tags, "en:");
  }

  /** A last tag that is dropped leaves the choice to the tags before it. */
  lemma DroppedTagIgnored(tags: seq<string>, t: string)
    requires |tags| > 0 && Contains(StripEn(t), PlantBasedTag)
    ensures ExtractMainCategory(Some(tags + [t])) == ExtractMainCategory(Some(tags))
  {
    CleanCategoriesSnoc(tags, t);
    SameCleanSameMain(tags + [t], tags);
  }

  /** The main category depends on the tags only through their cleaned
      list. */
  lemma SameCleanSameMain(a: seq<string>, b: seq<string>)
    requires |a| > 0 && |b| > 0 && CleanCategories(a) == CleanCategories(b)
    ensures ExtractMainCategory(Some(a)) == ExtractMainCategory(Some(b))
  {
  }

  /** The position `i` starts a word for `/\b\w/`: a word character with no
      word character just before it. */
  predicate WordStart(s: string, i: nat)
    requires i < |s|
  {
    IsWordChar(s[i]) && (i == 0 || !IsWordChar(s[i - 1]))
  }

  /** `formatCategoryName`: every '-' becomes ' ', the first character of
      every word is upper-cased and nothing else changes. Since '-' and ' '
      are both non-word characters, the words are those of the input. */
  function FormatCategoryName(s: string): (r: string)
    ensures |r| == |s|
    ensures forall i :: 0 <= i < |s| && s[i] == '-' ==> r[i] == ' '
    ensures forall i :: 0 <= i < |s| && s[i] != '-' && WordStart(s, i) ==> r[i] == UpperChar(s[i])
    ensures forall i :: 0 <= i < |s| && s[i] != '-' && !WordStart(s, i) ==> r[i] == s[i]
    ensures forall i :: 0 <= i < |r| ==> r[i] != '-'
  {
    var t := Spaced(s);
    assert forall i :: 0 <= i < |s| ==> (WordStart(t, i) <==> WordStart(s, i));
    CapitaliseWords(t)
  }

  /** `s.replace(/-/g, " ")`: no hyphen is left and the word characters stay
      where they were. */
  function Spaced(s: string): (t: string)
    ensures |t| == |s|
    ensures forall i :: 0 <= i < |s| ==> t[i] != '-' && (IsWordChar(t[i]) <==> IsWordChar(s[i]))
    ensures forall i :: 0 <= i < |s| && s[i] != '-' ==> t[i] == s[i]
    ensures forall i :: 0 <= i < |s| && s[i] == '-' ==> t[i] == ' '
  {
    seq(|s|, i requires 0 <= i < |s| => if s[i] == '-' then ' ' else s[i])
  }

  /** `t.replace(/\b\w/g, l => l.toUpperCase())`: only the first character
      of each word can change. */
  function CapitaliseWords(t: string): (r: string)
    ensures |r| == |t|
    ensures forall i :: 0 <= i < |t| && WordStart(t, i) ==> r[i] == UpperChar(t[i])
    ensures forall i :: 0 <= i < |t| && !WordStart(t, i) ==> r[i] == t[i]
  {
    seq(|t|, i requires 0 <= i < |t| => if WordStart(t, i) then UpperChar(t[i]) else t[i])
  }

  /** Formatting a formatted name changes nothing: every word already starts
      with a capital and no hyphen is left. */
  lemma FormatCategoryNameIdempotent(s: string)
    ensures FormatCategoryName(FormatCategoryName(s)) == FormatCategoryName(s)
  {
    var r := FormatCategoryName(s);
    var rr := FormatCategoryName(r);
    forall i | 0 <= i < |r| ensures rr[i] == r[i] {
      assert WordStart(r, i) <==> WordStart(s, i);
    }
  }

  /** Every word of a formatted name starts with something that is not a
      lower-case letter. */
  lemma FormattedWordsCapitalised(s: string, i: nat)
    requires i < |s|
    ensures WordStart(FormatCategoryName(s), i) ==> !IsAsciiLower(FormatCategoryName(s)[i])
  {
    var r := FormatCategoryName(s);
    assert WordStart(r, i) <==> WordStart(s, i);
  }

  /** The slugs `getPopularCategories` lists, in order. */
  const PopularSlugs: seq<string> := [
    "beverages", "dairy", "breads", "cereals-and-potatoes", "fruits-and-vegetables",
    "meat", "fish", "frozen-foods", "prepared-meals", "snacks",
    "desserts", "condiments", "oils-and-fats", "baby-foods", "plant-based-foods"]

  datatype Category = Category(id: string, name: string, key: string)

  /** `getPopularCategories`: fifteen entries, one per slug in order, whose id
      and key are the slug and whose name is its formatted form. */
  function GetPopularCategories(): (r: seq<Category>)
    ensures |r| == 15
    ensures forall i :: 0 <= i < |r| ==> r[i].id == PopularSlugs[i] && r[i].key == r[i].id
    ensures forall i :: 0 <= i < |r| ==> r[i].name == FormatCategoryName(PopularSlugs[i])
    ensures forall i :: 0 <= i < |r| ==> |r[i].name| == |r[i].key|
  {
    seq(|PopularSlugs|, i requires 0 <= i < |PopularSlugs| =>
      Category(PopularSlugs[i], FormatCategoryName(PopularSlugs[i]), PopularSlugs[i]))
  }

  /** The display name of a hyphenated slug. */
  lemma BabyFoodsName()
    ensures FormatCategoryName("baby-foods") == "Baby Foods"
  {
    var s := "baby-foods";
    assert WordStart(s, 0) && WordStart(s, 5);
    forall i | 0 <= i < |s| && i != 0 && i != 5 ensures !WordStart(s, i) {
    }
  }

  // ---------------------------------------------------------------------
  // Product records

  /** The product object of an Open Food Facts answer; None is an absent
      field. `nutriments` maps its keys to numbers. */
  datatype RawProduct = RawProduct(
    code: Option<string>,
    productName: Option<string>,
    brands: Option<string>,
    quantity: Option<string>,
    categoriesTags: Option<seq<string>>,
    nutriments: Option<map<string, real>>,
    nutritionGrades: Option<string>,
    novaGroup: Option<int>,
    imageUrl: Option<string>,
    imageFrontUrl: Option<string>,
    labelsTags: Option<seq<string>>,
    allergensTags: Option<seq<string>>,
    tracesTags: Option<seq<string>>,
    packagingTags: Option<seq<string>>,
    countriesTags: Option<seq<string>>,
    ingredientsText: Option<string>)

  datatype ProductNutrition = ProductNutrition(
    calories: real, proteins: real, carbohydrates: real, sugars: real, fat: real,
    saturatedFat: real, fiber: real, sodium: real, salt: real)

  const ZeroNutrition: ProductNutrition := ProductNutrition(0.0, 0.0, 0.0, 0.0, 0.0, 0.0, 0.0, 0.0, 0.0)

  /** The record `formatProductData` builds. */
  datatype Product = Product(
    barcode: Option<string>,
    name: string,
    brands: string,
    quantity: string,
    categories: seq<string>,
    mainCategory: string,
    nutrition: ProductNutrition,
    nutritionGrade: Option<string>,
    novaGroup: Option<int>,
    imageUrl: Option<string>,
    imageFrontUrl: Option<string>,
    labels: seq<string>,
    allergens: seq<string>,
    traces: seq<string>,
    packaging: seq<string>,
    countries: seq<string>,
    ingredients: string,
    source: string,
    lastUpdated: Time)

  const UnknownProduct: string := "Unknown Product"
  const Source: string := "openfoodfacts"

  /** `s || null` for a string. */
  function TruthyText(s: Option<string>): (r: Option<string>)
    ensures r.Some? <==> s.Some? && s.value != ""
    ensures r.Some? ==> r == s
  {
    if s.Some? && s.value != "" then s else None
  }

  /** `s || d` for a string. */
  function TextOr(s: Option<string>, d: string): (r: string)
    ensures s.Some? && s.value != "" ==> r == s.value
    ensures s.None? || s.value == "" ==> r == d
  {
    TruthyText(s).GetOr(d)
  }

  /** `nutrients[key] || d`. */
  function Figure(m: map<string, real>, key: string, d: real): (r: real)
    ensures key in m && m[key] != 0.0 ==> r == m[key]
    ensures key !in m || m[key] == 0.0 ==> r == d
  {
    if key in m && m[key] != 0.0 then m[key] else d
  }

  /** `v` is what `m[key] || 0` gives: the figure when present and non-zero,
      else 0. */
  predicate ReadsFigure(m: map<string, real>, key: string, v: real) {
    && (key in m && m[key] != 0.0 ==> v == m[key])
    && (key !in m || m[key] == 0.0 ==> v == 0.0)
  }

  /** The `nutrition` block: each figure from its per-100 g key or 0; the
      calories from the per-100 g key, else the plain key, else 0. */
  function NutritionOf(m: map<string, real>): (r: ProductNutrition)
    ensures "energy-kcal_100g" in m && m["energy-kcal_100g"] != 0.0 ==> r.calories == m["energy-kcal_100g"]
    ensures "energy-kcal_100g" !in m || m["energy-kcal_100g"] == 0.0 ==> ReadsFigure(m, "energy-kcal", r.calories)
    ensures ReadsFigure(m, "proteins_100g", r.proteins)
    ensures ReadsFigure(m, "carbohydrates_100g", r.carbohydrates)
    ensures ReadsFigure(m, "sugars_100g", r.sugars)
    ensures ReadsFigure(m, "fat_100g", r.fat)
    ensures ReadsFigure(m, "saturated-fat_100g", r.saturatedFat)
    ensures ReadsFigure(m, "fiber_100g", r.fiber)
    ensures ReadsFigure(m, "sodium_100g", r.sodium)
    ensures ReadsFigure(m, "salt_100g", r.salt)
  {
    ProductNutrition(
      Figure(m, "energy-kcal_100g", Figure(m, "energy-kcal", 0.0)),
      Figure(m, "proteins_100g", 0.0),
      Figure(m, "carbohydrates_100g", 0.0),
      Figure(m, "sugars_100g", 0.0),
      Figure(m, "fat_100g", 0.0),
      Figure(m, "saturated-fat_100g", 0.0),
      Figure(m, "fiber_100g", 0.0),
      Figure(m, "sodium_100g", 0.0),
      Figure(m, "salt_100g", 0.0))
  }

  /** `formatProductData`, with `new Date()` as `now`. */
  function FormatProductData(p: RawProduct, now: Time): (r: Product)
    ensures r.barcode == p.code
    ensures r.name != ""
    ensures r.name == UnknownProduct <==> TruthyText(p.productName).None? || p.productName.value == UnknownProduct
    ensures TruthyText(p.productName).Some? ==> r.name == p.productName.value
    ensures r.mainCategory != "" && r.mainCategory == ExtractMainCategory(p.categoriesTags)
    ensures r.categories == p.categoriesTags.GetOr([])
    ensures p.nutriments.None? ==> r.nutrition == ZeroNutrition
    ensures p.nutriments.Some? ==> r.nutrition == NutritionOf(p.nutriments.value)
    ensures p.brands.Some? && p.brands.value != "" ==> r.brands == p.brands.value
    ensures p.brands.None? || p.brands.value == "" ==> r.brands == ""
    ensures p.quantity.Some? && p.quantity.value != "" ==> r.quantity == p.quantity.value
    ensures p.quantity.None? || p.quantity.value == "" ==> r.quantity == ""
    ensures p.ingredientsText.Some? && p.ingredientsText.value != "" ==> r.ingredients == p.ingredientsText.value
    ensures p.ingredientsText.None? || p.ingredientsText.value == "" ==> r.ingredients == ""
    ensures r.labels == p.labelsTags.GetOr([]) && r.allergens == p.allergensTags.GetOr([])
    ensures r.traces == p.tracesTags.GetOr([]) && r.packaging == p.packagingTags.GetOr([])
    ensures r.countries == p.countriesTags.GetOr([])
    ensures r.imageUrl.None? <==> TruthyText(p.imageUrl).None? && TruthyText(p.imageFrontUrl).None?
    ensures TruthyText(p.imageUrl).None? ==> r.imageUrl == r.imageFrontUrl
    ensures r.imageFrontUrl == TruthyText(p.imageFrontUrl)
    ensures r.novaGroup.Some? <==> p.novaGroup.Some? && p.novaGroup.value != 0
    ensures r.nutritionGrade == TruthyText(p.nutritionGrades)
    ensures r.source == Source && r.lastUpdated == now
  {
    Product(
      p.code,
      TextOr(p.productName, UnknownProduct),
      TextOr(p.brands, ""),
      TextOr(p.quantity, ""),
      p.categoriesTags.GetOr([]),
      ExtractMainCategory(p.categoriesTags),
      NutritionOf(p.nutriments.GetOr(map[])),
      TruthyText(p.nutritionGrades),
      if p.novaGroup.Some? && p.novaGroup.value != 0 then p.novaGroup else None,
      if TruthyText(p.imageUrl).Some? then TruthyText(p.imageUrl) else TruthyText(p.imageFrontUrl),
      TruthyText(p.imageFrontUrl),
      p.labelsTags.GetOr([]),
      p.allergensTags.GetOr([]),
      p.tracesTags.GetOr([]),
      p.packagingTags.GetOr([]),
      p.countriesTags.GetOr([]),
      TextOr(p.ingredientsText, ""),
      Source,
      now)
  }

  /** `product.nutriments || {}`: an empty nutriment map formats exactly as
      a missing one. */
  lemma EmptyNutrimentsAsMissing(p: RawProduct, now: Time)
    ensures FormatProductData(p.(nutriments := Some(map[])), now) == FormatProductData(p.(nutriments := None), now)
  {
  }

  /** The calories fall back from per-100 g to per-serving to 0. */
  lemma CaloriesFallBack(p: RawProduct, now: Time, m: map<string, real>)
    requires p.nutriments == Some(m)
    ensures "energy-kcal_100g" !in m && "energy-kcal" in m ==> FormatProductData(p, now).nutrition.calories == m["energy-kcal"]
    ensures "energy-kcal_100g" !in m && "energy-kcal" !in m ==> FormatProductData(p, now).nutrition.calories == 0.0
  {
  }

  // ---------------------------------------------------------------------
  // Search pages

  /** `Math.ceil(n / d)` for a non-zero divisor, as the least integer at or
      above the quotient. */
  function CeilDiv(n: nat, d: int): (r: int)
    requires d != 0
    ensures d > 0 ==> (r - 1) * d < n <= r * d
    ensures d < 0 ==> r * d <= n < (r - 1) * d
    ensures d > 0 ==> r >= 0 && (r == 0 <==> n == 0)
  {
    if d > 0 then
      CeilDivPositive(n, d);
      (n + d - 1) / d
    else
      CeilDivNegative(n, -d);
      -(n / -d)
  }

  lemma CeilDivPositive(n: nat, d: int)
    requires d > 0
    ensures ((n + d - 1) / d - 1) * d < n <= (n + d - 1) / d * d
    ensures (n + d - 1) / d >= 0 && ((n + d - 1) / d == 0 <==> n == 0)
  {
    var q := (n + d - 1) / d;
    var m := (n + d - 1) % d;
    assert n + d - 1 == q * d + m && 0 <= m < d;
    assert (q - 1) * d == q * d - d by {
      MulSubDistributes(q, 1, d);
    }
    if q == 0 {
      assert n + d - 1 < d;
    } else {
      assert q * d >= d by {
        MulMonotone(1, q, d);
      }
    }
  }

  lemma CeilDivNegative(n: nat, e: int)
    requires e > 0
    ensures (-(n / e)) * (-e) <= n < (-(n / e) - 1) * (-e)
  {
    var q := n / e;
    var m := n % e;
    assert n == q * e + m && 0 <= m < e;
    assert (-q) * (-e) == q * e by {
      NegMul(q, e);
    }
    assert (-q - 1) * (-e) == q * e + e by {
      NegMul(q + 1, e);
      MulSubDistributes(q, -1, e);
    }
  }

  lemma MulSubDistributes(a: int, b: int, c: int)
    ensures (a - b) * c == a * c - b * c
  {
  }

  lemma MulMonotone(a: int, b: int, c: int)
    requires a <= b && c > 0
    ensures a * c <= b * c
  {
  }

  lemma NegMul(a: int, b: int)
    ensures (-a) * (-b) == a * b
    ensures (-a - 1) * (-b) == (a + 1) * b
  {
  }

  /** The search answer: the products (absent when the query failed) and the
      figures Open Food Facts reports. */
  datatype RawSearch = RawSearch(
    products: Option<seq<RawProduct>>,
    count: Option<nat>,
    page: Option<nat>,
    pageSize: Option<nat>)

  datatype SearchPage = SearchPage(
    products: seq<Product>,
    count: nat,
    page: nat,
    pageSize: int,
    totalPages: int)

  /** `products.map(formatProductData)`. */
  function FormatAll(ps: seq<RawProduct>, now: Time): (r: seq<Product>)
    ensures |r| == |ps|
    ensures forall i :: 0 <= i < |ps| ==> r[i] == FormatProductData(ps[i], now)
  {
    seq(|ps|, i requires 0 <= i < |ps| => FormatProductData(ps[i], now))
  }

  /** The result object of `searchByText` and `searchByCategory`, which share
      it. The page count divides the reported count by the REQUESTED page
      size, not the reported one. The controllers never request size 0. */
  function SearchResults(data: Option<RawSearch>, pageSize: int, now: Time): (r: SearchPage)
    requires pageSize != 0
    ensures data.None? || data.value.products.None? ==> r == SearchPage([], 0, 1, pageSize, 0)
    ensures data.Some? && data.value.products.Some? ==>
      && |r.products| == |data.value.products.value|
      && (forall i :: 0 <= i < |r.products| ==> r.products[i] == FormatProductData(data.value.products.value[i], now))
      && r.count == data.value.count.GetOr(0)
      && r.page >= 1
      && (data.value.page.Some? && data.value.page.value != 0 ==> r.page == data.value.page.value)
      && (data.value.page.None? || data.value.page.value == 0 ==> r.page == 1)
      && (data.value.pageSize.Some? && data.value.pageSize.value != 0 ==> r.pageSize == data.value.pageSize.value)
      && (data.value.pageSize.None? || data.value.pageSize.value == 0 ==> r.pageSize == pageSize)
    ensures r.totalPages == CeilDiv(r.count, pageSize)
    ensures pageSize > 0 ==> (r.totalPages - 1) * pageSize < r.count <= r.totalPages * pageSize
    ensures pageSize > 0 ==> r.totalPages >= 0
    ensures pageSize < 0 ==> r.totalPages * pageSize <= r.count < (r.totalPages - 1) * pageSize
  {
    if data.None? || data.value.products.None? then SearchPage([], 0, 1, pageSize, 0)
    else
      var d := data.value;
      var ps := d.products.value;
      var count := d.count.GetOr(0);
      SearchPage(
        FormatAll(ps, now),
        count,
        if d.page.Some? && d.page.value != 0 then d.page.value else 1,
        if d.pageSize.Some? && d.pageSize.value != 0 then d.pageSize.value else pageSize,
        CeilDiv(count, pageSize))
  }

  // ---------------------------------------------------------------------
  // Suggestions

  /** `s.slice(0, k)`: a negative end counts back from the end, an end past
      the length stops at the length. */
  function SliceTo<T>(s: seq<T>, k: int): (r: seq<T>)
    ensures |r| <= |s| && r == s[..|r|]
    ensures k >= 0 ==> |r| == if k < |s| then k else |s|
    ensures k < 0 ==> |r| == if |s| + k > 0 then |s| + k else 0
  {
    var end := if k >= 0 then (if k < |s| then k else |s|) else (if |s| + k > 0 then |s| + k else 0);
    s[..end]
  }

  /** One element of the suggestion answer: a bare string or an object with
      optional `name` and `id`. */
  datatype RawSuggestion = Text(text: string) | Entry(name: Option<string>, id: Option<string>)

  /** `suggestion.name || suggestion`: the name when truthy, else the element
      itself (a string has no `name`). */
  datatype SuggestionField = Named(text: string) | Whole(raw: RawSuggestion)

  datatype Suggestion = Suggestion(name: SuggestionField, id: SuggestionField)

  function ToSuggestion(s: RawSuggestion): (r: Suggestion)
    ensures s.Text? ==> r.name == Whole(s) && r.id == Whole(s)
    ensures s.Entry? && TruthyText(s.name).Some? ==> r.name == Named(s.name.value)
    ensures s.Entry? && TruthyText(s.id).Some? ==> r.id == Named(s.id.value)
    ensures s.Entry? && TruthyText(s.name).None? ==> r.name == Whole(s)
    ensures s.Entry? && TruthyText(s.id).None? ==> r.id == Whole(s)
  {
    match s
    case Text(_) => Suggestion(Whole(s), Whole(s))
    case Entry(n, i) =>
      Suggestion(
        if TruthyText(n).Some? then Named(n.value) else Whole(s),
        if TruthyText(i).Some? then Named(i.value) else Whole(s))
  }

  /** `getProductSuggestions` on the decoded answer (None when it is not an
      array): the first `limit` elements, each converted. */
  function GetProductSuggestions(data: Option<seq<RawSuggestion>>, limit: int): (r: seq<Suggestion>)
    ensures data.None? ==> r == []
    ensures data.Some? ==> |r| <= |data.value|
    ensures limit >= 0 ==> |r| <= limit
    ensures data.Some? && limit >= |data.value| ==> |r| == |data.value|
    ensures data.Some? && 0 <= limit < |data.value| ==> |r| == limit
    ensures data.Some? && limit < 0 ==> |r| == if |data.value| + limit > 0 then |data.value| + limit else 0
    ensures data.Some? ==> forall i :: 0 <= i < |r| ==> r[i] == ToSuggestion(data.value[i])
  {
    match data
    case None => []
    case Some(d) =>
      var kept := SliceTo(d, limit);
      seq(|kept|, i requires 0 <= i < |kept| => ToSuggestion(kept[i]))
  }
}

=== FILE: ownership.dfy ===
/**
 The data ownership resolver (src/helpers/householdHelpers.js): the query
 filter a controller uses to fetch shared data and the ownership stamp it
 puts on data it creates.

 The filter has no OR clause. A user in a household sees exactly the
 household's records; records they created before joining carry no
 household and drop out of view.
 */
module Ownership {
  import opened Base
  import opened UserModel

  /** `getDataQuery`'s result: `{ household }` or `{ userId }`. */
  datatype DataQuery = ByHousehold(household: Id) | ByUser(userId: Id)

  /** `getDataOwnership`'s result, stored on every record created. */
  datatype Stamp = Stamp(userId: Id, household: Option<Id>)

  /** A Mongo equality filter on one field matches a stored stamp. */
  predicate Matches(s: Stamp, q: DataQuery) {
    match q
    case ByHousehold(h) => s.household == Some(h)
    case ByUser(u) => s.userId == u
  }

  /** `getDataQuery`: a user with a household queries by it alone, any other
      user by their own id alone. */
  function GetDataQuery(u: User): (q: DataQuery)
    ensures u.household.Some? <==> q.ByHousehold?
    ensures u.household.Some? ==> forall s: Stamp :: Matches(s, q) <==> s.household == u.household
    ensures u.household.None? ==> forall s: Stamp :: Matches(s, q) <==> s.userId == u.id
  {
    if u.household.Some? then ByHousehold(u.household.value) else ByUser(u.id)
  }

  /** `getDataOwnership`: the creator's id always, and the household or
      null. */
  function GetDataOwnership(u: User): (s: Stamp)
    ensures s.userId == u.id
    ensures s.household == u.household
  {
    Stamp(u.id, u.household)
  }

  /** Whatever a user creates, they can fetch again. */
  lemma OwnDataVisible(u: User)
    ensures Matches(GetDataOwnership(u), GetDataQuery(u))
  {
  }

  /** Members of one household see each other's records, whoever created
      them. */
  lemma HouseholdDataShared(u: User, v: User)
    requires u.household.Some? && u.household == v.household
    ensures Matches(GetDataOwnership(u), GetDataQuery(v))
    ensures Matches(GetDataOwnership(v), GetDataQuery(u))
  {
  }

  /** No OR clause: once a user is in a household, a record of theirs that
      carries no household is out of view, although its `userId` is theirs. */
  lemma PersonalDataHiddenInHousehold(u: User, s: Stamp)
    requires u.household.Some? && s.userId == u.id && s.household.None?
    ensures !Matches(s, GetDataQuery(u))
  {
  }

  /** A user without a household sees exactly the records they created,
      whatever household those carry. */
  lemma SoloUserSeesOnlyOwn(u: User, s: Stamp)
    requires u.household.None?
    ensures Matches(s, GetDataQuery(u)) <==> s.userId == u.id
  {
  }
}

=== FILE: pantries.dfy ===
/**
 The pantry (src/models/pantry.js, src/controllers/pantry.js): one document
 per user holding an ordered list of stocked items, and the handlers that
 validate, merge, update and remove items.

 The controller calls `pantry.findItem(name)`, a method the pantry schema
 does not define. The handlers that call it are modelled twice: as written,
 where the call throws and the request fails with 400, and as intended,
 where `findItem` returns the first item of that name.
 */
module Pantries {
  import opened Base
  import opened Strings

  /** A stored pantry item; every field is required by the schema. */
  datatype PantryItem = PantryItem(
    id: Id,
    foodId: Id,
    name: string,
    quantity: real,
    unit: string,
    expirationDate: Time)

  datatype Pantry = Pantry(userId: Id, items: seq<PantryItem>)

  /** The pantry collection as `findOne({ userId })` sees it: at most one
      pantry per user, found by its owner. */
  type Pantries = map<Id, Pantry>

  /** The schema's validators on one item: required strings are non-empty
      and the quantity is at least 0. */
  predicate ItemAtRest(i: PantryItem) {
    i.name != "" && i.unit != "" && i.quantity >= 0.0
  }

  predicate AtRest(p: Pantry) {
    forall k :: 0 <= k < |p.items| ==> ItemAtRest(p.items[k])
  }

  /** Every pantry is filed under its own owner. */
  predicate Keyed(ps: Pantries) {
    forall u :: u in ps ==> ps[u].userId == u
  }

  // ---------------------------------------------------------------------
  // Request bodies and validateItemData

  /** `quantity` in a request body: absent, a number, or something that is
      not a number. The number 0 is falsy. */
  datatype QuantityField = NoQuantity | Amount(value: real) | NotANumber

  /** `expirationDate` in a request body: absent, a parseable date, or a
      string `new Date` cannot read. */
  datatype DateField = NoDate | On(time: Time) | BadDate

  /** An item in a request body. `name` is None when it is missing or not a
      string. */
  datatype ItemData = ItemData(
    name: Option<string>,
    quantity: QuantityField,
    expirationDate: DateField,
    foodId: Option<Id>,
    unit: Option<string>)

  /** The three messages `validateItemData` can return. */
  datatype ItemError = NameInvalid | QuantityInvalid | DateInvalid

  function Message(e: ItemError): string {
    match e
    case NameInvalid => "Valid item name is required"
    case QuantityInvalid => "Quantity must be a positive number"
    case DateInvalid => "Valid expiration date is required"
  }

  /** A name that is a string with something besides white space. */
  predicate NameOk(name: Option<string>) {
    name.Some? && !Blank(name.value)
  }

  /** Only a truthy quantity is checked, so 0 and a missing one pass. */
  predicate QuantityOk(q: QuantityField) {
    !(q.NotANumber? || (q.Amount? && q.value < 0.0))
  }

  predicate DateOk(d: DateField) {
    !d.BadDate?
  }

  predicate Valid(d: ItemData) {
    NameOk(d.name) && QuantityOk(d.quantity) && DateOk(d.expirationDate)
  }

  /** `validateItemData`: one message per failing check, in the order the
      checks run, and none when all three pass. */
  function ValidateItemData(d: ItemData): (errs: seq<ItemError>)
    ensures NameInvalid in errs <==> !NameOk(d.name)
    ensures QuantityInvalid in errs <==> !QuantityOk(d.quantity)
    ensures DateInvalid in errs <==> !DateOk(d.expirationDate)
    ensures errs == [] <==> Valid(d)
    ensures |errs| <= 3
  {
    (if NameOk(d.name) then [] else [NameInvalid])
    + (if QuantityOk(d.quantity) then [] else [QuantityInvalid])
    + (if DateOk(d.expirationDate) then [] else [DateInvalid])
  }

  /** A zero or missing quantity is never flagged. */
  lemma ZeroQuantityNeverFlagged(d: ItemData)
    requires d.quantity == NoQuantity || d.quantity == Amount(0.0)
    ensures QuantityInvalid !in ValidateItemData(d)
  {
  }

  // ---------------------------------------------------------------------
  // Merging into an existing item

  /** `quantity || 1`: the amount an existing item grows by. */
  function Increment(q: QuantityField): (r: real)
    requires QuantityOk(q)
    ensures r > 0.0
    ensures q.Amount? && q.value != 0.0 ==> r == q.value
  {
    if q.Amount? && q.value != 0.0 then q.value else 1.0
  }

  /** The expiration date moves only to a strictly later given date. */
  function LaterExpiry(current: Time, d: DateField): (r: Time)
    ensures r >= current
    ensures r == current || (d == On(r) && r > current)
    ensures d.On? ==> r == if d.time > current then d.time else current
  {
    if d.On? && d.time > current then d.time else current
  }

  /** What a merge does to the item it finds. */
  function Merge(item: PantryItem, d: ItemData): (r: PantryItem)
    requires QuantityOk(d.quantity)
    ensures r.quantity > item.quantity
    ensures r.expirationDate >= item.expirationDate
    ensures r == item.(quantity := r.quantity, expirationDate := r.expirationDate)
    ensures ItemAtRest(item) ==> ItemAtRest(r)
  {
    item.(quantity := item.quantity + Increment(d.quantity),
          expirationDate := LaterExpiry(item.expirationDate, d.expirationDate))
  }

  /** The intended `findItem`: the first item with this name. */
  function FindItem(items: seq<PantryItem>, name: string): (r: Option<nat>)
    ensures r.Some? ==> r.value < |items| && items[r.value].name == name
    ensures r.Some? ==> forall k :: 0 <= k < r.value ==> items[k].name != name
    ensures r.None? ==> forall k :: 0 <= k < |items| ==> items[k].name != name
  {
    if |items| == 0 then None
    else if items[|items| - 1].name == name && FindItem(items[..|items| - 1], name).None? then Some(|items| - 1)
    else FindItem(items[..|items| - 1], name)
  }

  /** A new item built from a request body, or None when it would fail the
      schema on save (a required field missing). The spread also copies an
      `addedFrom` tag, which the schema does not declare and so drops. */
  function NewEntry(d: ItemData, id: Id): (r: Option<PantryItem>)
    requires Valid(d)
    ensures r.Some? <==> d.foodId.Some? && d.quantity.Amount? && d.unit.Some? && d.unit.value != "" && d.expirationDate.On?
    ensures r.Some? ==> r.value.name == d.name.value && r.value.id == id && ItemAtRest(r.value)
  {
    if d.foodId.Some? && d.quantity.Amount? && d.unit.Some? && d.unit.value != "" && d.expirationDate.On? then
      Some(PantryItem(id, d.foodId.value, d.name.value, d.quantity.value, d.unit.value, d.expirationDate.time))
    else None
  }

  /** The outcome of adding one body to an item list: the item it merged into,
      or the item it appended. */
  datatype Added = MergedAt(index: nat) | Appended

  /** One step of adding: merge into the first item of the same name, else
      append a new entry. None when the new entry would fail the schema. */
  function AddOne(items: seq<PantryItem>, d: ItemData, id: Id): (r: Option<(seq<PantryItem>, Added)>)
    requires Valid(d)
    ensures FindItem(items, d.name.value).Some? ==> r.Some?
    ensures r.Some? && r.value.1.MergedAt? ==>
      var k := r.value.1.index;
      && FindItem(items, d.name.value) == Some(k)
      && r.value.0 == items[k := Merge(items[k], d)]
    ensures r.Some? && r.value.1.Appended? ==>
      && FindItem(items, d.name.value).None?
      && NewEntry(d, id).Some?
      && r.value.0 == items + [NewEntry(d, id).value]
    ensures r.None? <==> FindItem(items, d.name.value).None? && NewEntry(d, id).None?
  {
    match FindItem(items, d.name.value)
    case Some(k) => Some((items[k := Merge(items[k], d)], MergedAt(k)))
    case None =>
      match NewEntry(d, id)
      case Some(e) => Some((items + [e], Appended))
      case None => None
  }

  /** One step of adding keeps every earlier item in place, never lowers a
      quantity or an expiration date, and grows the list by one exactly
      when it appends. */
  lemma AddOneGrows(items: seq<PantryItem>, d: ItemData, id: Id)
    requires Valid(d) && AddOne(items, d, id).Some?
    ensures
      var next := AddOne(items, d, id).value.0;
      && |next| == |items| + (if AddOne(items, d, id).value.1.Appended? then 1 else 0)
      && (forall k :: 0 <= k < |items| ==>
            next[k].id == items[k].id && next[k].name == items[k].name
            && next[k].expirationDate >= items[k].expirationDate
            && next[k].quantity >= items[k].quantity)
      && ((forall k :: 0 <= k < |items| ==> ItemAtRest(items[k])) ==>
            forall k :: 0 <= k < |next| ==> ItemAtRest(next[k]))
  {
  }

  /** Adding keeps every item at rest. */
  lemma AddOneKeepsAtRest(p: Pantry, d: ItemData, id: Id)
    requires Valid(d) && AtRest(p) && AddOne(p.items, d, id).Some?
    ensures AtRest(p.(items := AddOne(p.items, d, id).value.0))
  {
  }

  // ---------------------------------------------------------------------
  // The handlers

  datatype PantryError =
    | InvalidItem(errors: seq<ItemError>)
    | InvalidItems(failures: seq<(nat, seq<ItemError>)>)
    | PantryNotFound
    | ItemNotFound
    | SaveFailed
    | Crashed

  function Status(e: PantryError): nat {
    match e
    case PantryNotFound => 404
    case ItemNotFound => 404
    case _ => 400
  }

  /** `findOne({ userId })`, or the fresh empty pantry the handler creates. */
  function PantryOf(ps: Pantries, caller: Id): (p: Pantry)
    ensures caller in ps ==> p == ps[caller]
    ensures caller !in ps ==> p == Pantry(caller, [])
  {
    if caller in ps then ps[caller] else Pantry(caller, [])
  }

  /** `addPantryItem` as written: past validation the handler calls the
      missing `findItem`, the call throws, and the catch answers 400 with
      nothing saved. */
  function AddPantryItemAsWritten(ps: Pantries, caller: Id, d: ItemData): (r: Result<Pantries, PantryError>)
    ensures !Valid(d) ==> r == Err(InvalidItem(ValidateItemData(d)))
    ensures Valid(d) ==> r == Err(Crashed)
  {
    var errs := ValidateItemData(d);
    if |errs| > 0 then Err(InvalidItem(errs))
    else Err(Crashed)
  }

  /** As written, no request ever stores an item: even a complete, valid
      one is turned down. */
  lemma AddPantryItemAsWrittenNeverAdds(ps: Pantries, caller: Id, d: ItemData)
    ensures AddPantryItemAsWritten(ps, caller, d).Err?
    ensures Valid(d) ==> Status(AddPantryItemAsWritten(ps, caller, d).error) == 400
  {
  }

  /** A complete, valid body the written handler turns down and the
      intended one stores. */
  lemma AddPantryItemAsWrittenRejectsMilk(ps: Pantries, caller: Id)
    ensures
      var d := ItemData(Some("milk"), Amount(1.0), On(0), Some(1), Some("l"));
      && Valid(d)
      && AddPantryItemAsWritten(ps, caller, d) == Err(Crashed)
      && AddPantryItem(ps, caller, d, 0).Ok?
  {
    var d := ItemData(Some("milk"), Amount(1.0), On(0), Some(1), Some("l"));
    assert !IsSpace("milk"[0]);
    assert NewEntry(d, 0).Some?;
  }

  /**
   `addPantryItem` as intended: an invalid body is refused with its
   messages; otherwise the caller's pantry (created if missing) gains the
   body either as a merge into the item of the same name or as one new item.
   Only the caller's pantry changes.
   */
  function AddPantryItem(ps: Pantries, caller: Id, d: ItemData, id: Id): (r: Result<Pantries, PantryError>)
    ensures !Valid(d) ==> r == Err(InvalidItem(ValidateItemData(d)))
    ensures r.Err? ==> !Valid(d) || r == Err(SaveFailed)
    ensures Valid(d) ==> (r.Ok? <==> AddOne(PantryOf(ps, caller).items, d, id).Some?)
    ensures r.Ok? ==>
      && Valid(d)
      && r.value == ps[caller := PantryOf(ps, caller).(items := AddOne(PantryOf(ps, caller).items, d, id).value.0)]
    ensures r.Ok? && Keyed(ps) ==> Keyed(r.value)
  {
    var errs := ValidateItemData(d);
    if |errs| > 0 then Err(InvalidItem(errs))
    else
      var p := PantryOf(ps, caller);
      match AddOne(p.items, d, id)
      case None => Err(SaveFailed)
      case Some((items, _)) => Ok(ps[caller := p.(items := items)])
  }

  /** Merging never makes an expiration date earlier and never adds an item. */
  lemma AddPantryItemMergeKeepsLaterExpiry(ps: Pantries, caller: Id, d: ItemData, id: Id)
    requires Valid(d) && caller in ps
    requires FindItem(ps[caller].items, d.name.value).Some?
    ensures AddPantryItem(ps, caller, d, id).Ok?
    ensures
      var k := FindItem(ps[caller].items, d.name.value).value;
      var after := AddPantryItem(ps, caller, d, id).value[caller].items;
      && |after| == |ps[caller].items|
      && after[k].expirationDate >= ps[caller].items[k].expirationDate
      && after[k].quantity == ps[caller].items[k].quantity + Increment(d.quantity)
      && (forall j :: 0 <= j < |after| && j != k ==> after[j] == ps[caller].items[j])
  {
    var p := PantryOf(ps, caller);
    var k := FindItem(p.items, d.name.value).value;
    assert AddOne(p.items, d, id).value == (p.items[k := Merge(p.items[k], d)], MergedAt(k));
  }

  /** Without an item of that name exactly one item is appended, and the
      others stay as they were. */
  lemma AddPantryItemAppendsOne(ps: Pantries, caller: Id, d: ItemData, id: Id)
    requires Valid(d) && FindItem(PantryOf(ps, caller).items, d.name.value).None?
    requires NewEntry(d, id).Some?
    ensures AddPantryItem(ps, caller, d, id).Ok?
    ensures
      var before := PantryOf(ps, caller).items;
      var after := AddPantryItem(ps, caller, d, id).value[caller].items;
      && |after| == |before| + 1
      && after[..|before|] == before
      && after[|before|].name == d.name.value
  {
    var before := PantryOf(ps, caller).items;
    assert (before + [NewEntry(d, id).value])[..|before|] == before;
  }

  /** The summary `addItemsToPantry` answers with. */
  datatype Summary = Summary(added: nat, updated: nat)

  /** The messages of every invalid body, keyed by its 1-based position. */
  function BatchErrors(ds: seq<ItemData>): (r: seq<(nat, seq<ItemError>)>)
    ensures r == [] <==> forall i :: 0 <= i < |ds| ==> Valid(ds[i])
    ensures forall e :: e in r ==> 1 <= e.0 <= |ds| && e.1 == ValidateItemData(ds[e.0 - 1]) && e.1 != []
  {
    if |ds| == 0 then []
    else
      var front := BatchErrors(ds[..|ds| - 1]);
      var errs := ValidateItemData(ds[|ds| - 1]);
      BatchErrorsStep(ds, ds[..|ds| - 1], front);
      if |errs| > 0 then front + [(|ds|, errs)] else front
  }

  /** One more body adds its messages at the end when it is invalid. */
  lemma BatchErrorsStep(ds: seq<ItemData>, init: seq<ItemData>, front: seq<(nat, seq<ItemError>)>)
    requires |ds| > 0 && init == ds[..|ds| - 1]
    requires front == [] <==> forall i :: 0 <= i < |init| ==> Valid(init[i])
    requires forall e :: e in front ==> 1 <= e.0 <= |init| && e.1 == ValidateItemData(init[e.0 - 1]) && e.1 != []
    ensures
      var errs := ValidateItemData(ds[|ds| - 1]);
      var r := if |errs| > 0 then front + [(|ds|, errs)] else front;
      && (r == [] <==> forall i :: 0 <= i < |ds| ==> Valid(ds[i]))
      && (forall e :: e in r ==> 1 <= e.0 <= |ds| && e.1 == ValidateItemData(ds[e.0 - 1]) && e.1 != [])
  {
    var errs := ValidateItemData(ds[|ds| - 1]);
    forall e | e in front ensures ds[e.0 - 1] == init[e.0 - 1] {
    }
    if |errs| == 0 {
      if front == [] {
        forall i | 0 <= i < |ds| ensures Valid(ds[i]) {
          if i < |init| {
            assert ds[i] == init[i];
          }
        }
      } else {
        var i :| 0 <= i < |init| && !Valid(init[i]);
        assert ds[i] == init[i];
      }
    }
  }

  /** The `forEach` of `addItemsToPantry`: each body in turn goes through
      `AddOne` against the list as the earlier bodies left it, so the last
      body is added to what the others made. `ids` supplies the fresh
      subdocument ids. None when a new entry would fail the schema, which
      makes the single save at the end fail. */
  function AddAll(items: seq<PantryItem>, ds: seq<ItemData>, ids: seq<Id>): (r: Option<(seq<PantryItem>, Summary)>)
    requires |ids| == |ds|
    requires forall i :: 0 <= i < |ds| ==> Valid(ds[i])
    ensures r.Some? ==> r.value.1.added + r.value.1.updated == |ds|
    ensures r.Some? ==> |r.value.0| == |items| + r.value.1.added
    ensures r.Some? ==> forall k :: 0 <= k < |items| ==>
      r.value.0[k].id == items[k].id && r.value.0[k].name == items[k].name
      && r.value.0[k].expirationDate >= items[k].expirationDate
      && r.value.0[k].quantity >= items[k].quantity
    ensures r.Some? && (forall k :: 0 <= k < |items| ==> ItemAtRest(items[k])) ==>
      forall k :: 0 <= k < |r.value.0| ==> ItemAtRest(r.value.0[k])
    decreases |ds|
  {
    if |ds| == 0 then Some((items, Summary(0, 0)))
    else
      var n := |ds| - 1;
      assert forall i :: 0 <= i < n ==> Valid(ds[..n][i]) by {
        forall i | 0 <= i < n ensures Valid(ds[..n][i]) {
          assert ds[..n][i] == ds[i];
        }
      }
      match AddAll(items, ds[..n], ids[..n])
      case None => None
      case Some((mid, s)) =>
        match AddOne(mid, ds[n], ids[n])
        case None => None
        case Some((final, how)) =>
          AddOneGrows(mid, ds[n], ids[n]);
          Some((final, Tally(s, how)))
  }

  /** Counts one more body as added or as updated. */
  function Tally(s: Summary, how: Added): Summary {
    if how.Appended? then s.(added := s.added + 1) else s.(updated := s.updated + 1)
  }

  /** Some body in the batch carries this name. */
  predicate NamedIn(ds: seq<ItemData>, name: string) {
    exists i :: 0 <= i < |ds| && ds[i].name == Some(name)
  }

  /** What a batch does to the list: every body's name is found afterwards,
      an item whose name no body carries is left exactly as it was, and
      every appended item carries the name of some body. */
  lemma AddAllContents(items: seq<PantryItem>, ds: seq<ItemData>, ids: seq<Id>)
    requires |ids| == |ds|
    requires forall i :: 0 <= i < |ds| ==> Valid(ds[i])
    requires AddAll(items, ds, ids).Some?
    ensures
      var fin := AddAll(items, ds, ids).value.0;
      && (forall i :: 0 <= i < |ds| ==> FindItem(fin, ds[i].name.value).Some?)
      && (forall k :: 0 <= k < |items| && !NamedIn(ds, items[k].name) ==> fin[k] == items[k])
      && (forall j :: |items| <= j < |fin| ==> NamedIn(ds, fin[j].name))
  {
    AddAllFindsEveryName(items, ds, ids);
    AddAllKeepsUnnamed(items, ds, ids);
    AddAllAppendsNamed(items, ds, ids);
  }

  /** An item carrying the name makes the search succeed. */
  lemma FoundWhereNamed(items: seq<PantryItem>, k: nat, name: string)
    requires k < |items| && items[k].name == name
    ensures FindItem(items, name).Some?
  {
  }

  /** One step of adding: the body's name is found afterwards and so is
      every name found before; an item with another name stays as it was;
      an appended item carries the body's name. */
  lemma AddOneNames(items: seq<PantryItem>, d: ItemData, id: Id)
    requires Valid(d) && AddOne(items, d, id).Some?
    ensures
      var next := AddOne(items, d, id).value.0;
      && |items| <= |next|
      && FindItem(next, d.name.value).Some?
      && (forall name :: FindItem(items, name).Some? ==> FindItem(next, name).Some?)
      && (forall k :: 0 <= k < |items| && items[k].name != d.name.value ==> next[k] == items[k])
      && (forall k :: 0 <= k < |items| ==> next[k].name == items[k].name)
      && (forall j :: |items| <= j < |next| ==> next[j].name == d.name.value)
  {
    var (next, how) := AddOne(items, d, id).value;
    AddOneGrows(items, d, id);
    if how.MergedAt? {
      FoundWhereNamed(next, how.index, d.name.value);
    } else {
      FoundWhereNamed(next, |items|, d.name.value);
    }
    forall name | FindItem(items, name).Some? ensures FindItem(next, name).Some? {
      FoundWhereNamed(next, FindItem(items, name).value, name);
    }
  }

  /** The last step of a batch: the list before it and how it went. */
  lemma AddAllLast(items: seq<PantryItem>, ds: seq<ItemData>, ids: seq<Id>, init: seq<ItemData>)
    requires |ids| == |ds| && |ds| > 0 && init == ds[..|ds| - 1]
    requires forall i :: 0 <= i < |ds| ==> Valid(ds[i])
    requires AddAll(items, ds, ids).Some?
    ensures forall i :: 0 <= i < |init| ==> Valid(init[i])
    ensures AddAll(items, init, ids[..|init|]).Some?
    ensures
      var mid := AddAll(items, init, ids[..|init|]).value.0;
      && AddOne(mid, ds[|init|], ids[|init|]).Some?
      && AddAll(items, ds, ids).value.0 == AddOne(mid, ds[|init|], ids[|init|]).value.0
  {
    forall i | 0 <= i < |init| ensures Valid(init[i]) {
      assert init[i] == ds[i];
    }
  }

  /** Every body's name is found in the list a batch leaves. */
  lemma {:induction false} AddAllFindsEveryName(items: seq<PantryItem>, ds: seq<ItemData>, ids: seq<Id>)
    requires |ids| == |ds|
    requires forall i :: 0 <= i < |ds| ==> Valid(ds[i])
    requires AddAll(items, ds, ids).Some?
    ensures forall i :: 0 <= i < |ds| ==> FindItem(AddAll(items, ds, ids).value.0, ds[i].name.value).Some?
    decreases |ds|
  {
    if |ds| > 0 {
      var n := |ds| - 1;
      var init := ds[..n];
      AddAllLast(items, ds, ids, init);
      var mid := AddAll(items, init, ids[..n]).value.0;
      AddAllFindsEveryName(items, init, ids[..n]);
      AddOneNames(mid, ds[n], ids[n]);
      var fin := AddOne(mid, ds[n], ids[n]).value.0;
      forall i | 0 <= i < |ds| ensures FindItem(fin, ds[i].name.value).Some? {
        if i < n {
          assert ds[i] == init[i];
          assert FindItem(mid, ds[i].name.value).Some?;
        }
      }
    }
  }

  /** An item whose name no body of the batch carries is left as it was. */
  lemma {:induction false} AddAllKeepsUnnamed(items: seq<PantryItem>, ds: seq<ItemData>, ids: seq<Id>)
    requires |ids| == |ds|
    requires forall i :: 0 <= i < |ds| ==> Valid(ds[i])
    requires AddAll(items, ds, ids).Some?
    ensures forall k :: 0 <= k < |items| && !NamedIn(ds, items[k].name) ==> AddAll(items, ds, ids).value.0[k] == items[k]
    decreases |ds|
  {
    if |ds| > 0 {
      var n := |ds| - 1;
      var init := ds[..n];
      AddAllLast(items, ds, ids, init);
      var mid := AddAll(items, init, ids[..n]).value.0;
      AddAllKeepsUnnamed(items, init, ids[..n]);
      AddOneNames(mid, ds[n], ids[n]);
      AddAllNames(ds, n);
    }
  }

  /** Every item a batch appends carries the name of one of its bodies. */
  lemma {:induction false} AddAllAppendsNamed(items: seq<PantryItem>, ds: seq<ItemData>, ids: seq<Id>)
    requires |ids| == |ds|
    requires forall i :: 0 <= i < |ds| ==> Valid(ds[i])
    requires AddAll(items, ds, ids).Some?
    ensures forall j :: |items| <= j < |AddAll(items, ds, ids).value.0| ==> NamedIn(ds, AddAll(items, ds, ids).value.0[j].name)
    decreases |ds|
  {
    if |ds| > 0 {
      var n := |ds| - 1;
      var init := ds[..n];
      AddAllLast(items, ds, ids, init);
      var mid := AddAll(items, init, ids[..n]).value.0;
      AddAllAppendsNamed(items, init, ids[..n]);
      AddOneNames(mid, ds[n], ids[n]);
      AddAllNames(ds, n);
    }
  }

  /** The names carried by a batch: those of its first `n` bodies and the
      name of body `n`, when `n` is the last position. */
  lemma AddAllNames(ds: seq<ItemData>, n: nat)
    requires n + 1 == |ds| && ds[n].name.Some?
    ensures NamedIn(ds, ds[n].name.value)
    ensures forall name :: NamedIn(ds[..n], name) ==> NamedIn(ds, name)
  {
    assert ds[n].name == Some(ds[n].name.value);
    forall name | NamedIn(ds[..n], name) ensures NamedIn(ds, name) {
      var i :| 0 <= i < n && ds[..n][i].name == Some(name);
      assert ds[i].name == Some(name);
    }
  }

  /** A batch of one body is a single add: the same refusal messages, keyed
      by position 1, and otherwise the same pantries. */
  lemma AddItemsToPantrySingle(ps: Pantries, caller: Id, d: ItemData, id: Id)
    ensures !Valid(d) ==> AddItemsToPantry(ps, caller, [d], [id]) == Err(InvalidItems([(1, ValidateItemData(d))]))
    ensures Valid(d) ==>
      && (AddItemsToPantry(ps, caller, [d], [id]).Ok? <==> AddPantryItem(ps, caller, d, id).Ok?)
      && (AddPantryItem(ps, caller, d, id).Ok? ==>
            AddItemsToPantry(ps, caller, [d], [id]).value.0 == AddPantryItem(ps, caller, d, id).value)
  {
    assert [d][..0] == [] && [id][..0] == [] && [d][0] == d && [id][0] == id;
    var errs := ValidateItemData(d);
    assert BatchErrors([]) == [];
    assert BatchErrors([d]) == if |errs| > 0 then [] + [(1, errs)] else [];
    assert [] + [(1, errs)] == [(1, errs)];
    if Valid(d) {
      var p := PantryOf(ps, caller);
      assert AddAll(p.items, [], []) == Some((p.items, Summary(0, 0)));
      match AddOne(p.items, d, id)
      case None =>
        assert AddAll(p.items, [d], [id]).None?;
      case Some((next, how)) =>
        assert AddAll(p.items, [d], [id]) == Some((next, Tally(Summary(0, 0), how)));
    }
  }

  /** A batch followed by one more body is the batch followed by a single
      add of that body to the pantries the batch left. */
  lemma AddItemsToPantrySnoc(ps: Pantries, caller: Id, ds: seq<ItemData>, ids: seq<Id>, d: ItemData, id: Id)
    requires |ids| == |ds| && BatchErrors(ds) == [] && Valid(d)
    requires AddItemsToPantry(ps, caller, ds, ids).Ok?
    ensures
      var mid := AddItemsToPantry(ps, caller, ds, ids).value.0;
      && (AddItemsToPantry(ps, caller, ds + [d], ids + [id]).Ok? <==> AddPantryItem(mid, caller, d, id).Ok?)
      && (AddPantryItem(mid, caller, d, id).Ok? ==>
            AddItemsToPantry(ps, caller, ds + [d], ids + [id]).value.0 == AddPantryItem(mid, caller, d, id).value)
  {
    var p := PantryOf(ps, caller);
    var all := ds + [d];
    assert all[..|ds|] == ds && (ids + [id])[..|ds|] == ids && all[|ds|] == d && (ids + [id])[|ds|] == id;
    assert BatchErrors(all) == [] by {
      forall i | 0 <= i < |all| ensures Valid(all[i]) {
        if i < |ds| { assert all[i] == ds[i]; }
      }
    }
    var items := AddAll(p.items, ds, ids).value.0;
    assert PantryOf(AddItemsToPantry(ps, caller, ds, ids).value.0, caller) == p.(items := items);
  }

  /** `addItemsToPantry` as written: an empty batch saves the (possibly new)
      pantry and reports nothing added; a non-empty valid batch reaches the
      missing `findItem` and fails with 400. */
  function AddItemsToPantryAsWritten(ps: Pantries, caller: Id, ds: seq<ItemData>): (r: Result<(Pantries, Summary), PantryError>)
    ensures BatchErrors(ds) != [] ==> r == Err(InvalidItems(BatchErrors(ds)))
    ensures BatchErrors(ds) == [] && ds != [] ==> r == Err(Crashed)
    ensures r.Ok? <==> ds == []
    ensures r.Ok? ==> r.value == (ps[caller := PantryOf(ps, caller)], Summary(0, 0))
  {
    var errors := BatchErrors(ds);
    if |errors| > 0 then Err(InvalidItems(errors))
    else if |ds| == 0 then Ok((ps[caller := PantryOf(ps, caller)], Summary(0, 0)))
    else Err(Crashed)
  }

  /**
   `addItemsToPantry` as intended: all or nothing. One invalid body refuses
   the whole batch; otherwise every body is merged or appended in order and
   the summary accounts for each of them once.
   */
  function AddItemsToPantry(ps: Pantries, caller: Id, ds: seq<ItemData>, ids: seq<Id>): (r: Result<(Pantries, Summary), PantryError>)
    requires |ids| == |ds|
    ensures BatchErrors(ds) != [] ==> r == Err(InvalidItems(BatchErrors(ds)))
    ensures r.Ok? ==> BatchErrors(ds) == []
    ensures BatchErrors(ds) == [] ==>
      match AddAll(PantryOf(ps, caller).items, ds, ids)
      case None => r == Err(SaveFailed)
      case Some((items, s)) => r == Ok((ps[caller := PantryOf(ps, caller).(items := items)], s))
    ensures r.Ok? ==> r.value.1.added + r.value.1.updated == |ds|
    ensures r.Ok? ==> caller in r.value.0 && |r.value.0[caller].items| == |PantryOf(ps, caller).items| + r.value.1.added
    ensures r.Ok? ==> forall u :: u in ps && u != caller ==> u in r.value.0 && r.value.0[u] == ps[u]
    ensures r.Ok? && AtRest(PantryOf(ps, caller)) ==> AtRest(r.value.0[caller])
  {
    var errors := BatchErrors(ds);
    if |errors| > 0 then Err(InvalidItems(errors))
    else
      var p := PantryOf(ps, caller);
      match AddAll(p.items, ds, ids)
      case None => Err(SaveFailed)
      case Some((items, s)) => Ok((ps[caller := p.(items := items)], s))
  }

  // ---------------------------------------------------------------------
  // Update and removal by subdocument id

  /** The id of a pantry entry, as `FirstWithId` reads it. */
  function ItemId(item: PantryItem): Id {
    item.id
  }

  /** `items.pull(itemId)`: every item with this id removed, the rest kept
      in order. */
  function Pull(items: seq<PantryItem>, itemId: Id): (r: seq<PantryItem>)
    ensures |r| <= |items|
  {
    if |items| == 0 then []
    else (if items[0].id == itemId then [] else [items[0]]) + Pull(items[1..], itemId)
  }

  /** What `Pull` keeps: exactly the items with another id. */
  lemma {:induction false} PullMembers(items: seq<PantryItem>, itemId: Id)
    ensures forall x :: x in Pull(items, itemId) <==> x in items && x.id != itemId
  {
    if |items| > 0 {
      PullMembers(items[1..], itemId);
      assert items == [items[0]] + items[1..];
    }
  }

  /** Pulling an id that is not there changes nothing. */
  lemma {:induction false} PullAbsent(items: seq<PantryItem>, itemId: Id)
    requires forall k :: 0 <= k < |items| ==> items[k].id != itemId
    ensures Pull(items, itemId) == items
  {
    if |items| > 0 {
      PullAbsent(items[1..], itemId);
      assert items == [items[0]] + items[1..];
    }
  }

  /** `Object.assign(item, update)`: every field the body carries
      overwrites the item's. */
  function Assign(item: PantryItem, d: ItemData): (r: PantryItem)
    requires Valid(d)
    ensures r.id == item.id
    ensures r.name == d.name.value
    ensures r.quantity == if d.quantity.Amount? then d.quantity.value else item.quantity
    ensures r.expirationDate == if d.expirationDate.On? then d.expirationDate.time else item.expirationDate
    ensures r.foodId == d.foodId.GetOr(item.foodId) && r.unit == d.unit.GetOr(item.unit)
  {
    PantryItem(
      item.id,
      d.foodId.GetOr(item.foodId),
      d.name.value,
      if d.quantity.Amount? then d.quantity.value else item.quantity,
      d.unit.GetOr(item.unit),
      if d.expirationDate.On? then d.expirationDate.time else item.expirationDate)
  }

  /**
   `updatePantryItem`: the body must be valid (so it must carry a name);
   the caller's pantry and the item must exist. The item takes the body's
   fields; if its quantity is then at most 0 it is removed, otherwise it
   must still pass the schema. The flag says whether the item was removed.
   */
  function UpdatePantryItem(ps: Pantries, caller: Id, itemId: Id, d: ItemData): (r: Result<(Pantries, bool), PantryError>)
    ensures !Valid(d) ==> r == Err(InvalidItem(ValidateItemData(d)))
    ensures Valid(d) && caller !in ps ==> r == Err(PantryNotFound)
    ensures Valid(d) && caller in ps && FirstWithId(ps[caller].items, ItemId, itemId).None? ==> r == Err(ItemNotFound)
    ensures Valid(d) && caller in ps && FirstWithId(ps[caller].items, ItemId, itemId).Some? ==>
      var item := Assign(ps[caller].items[FirstWithId(ps[caller].items, ItemId, itemId).value], d);
      && (r.Ok? <==> item.quantity <= 0.0 || ItemAtRest(item))
      && (r.Err? ==> r == Err(SaveFailed))
    ensures r.Ok? ==> caller in ps && ps.Keys == r.value.0.Keys
    ensures r.Ok? ==> forall u :: u in ps && u != caller ==> r.value.0[u] == ps[u]
    ensures r.Ok? ==>
      var items := ps[caller].items;
      var k := FirstWithId(items, ItemId, itemId).value;
      && (r.value.1 <==> Assign(items[k], d).quantity <= 0.0)
      && (r.value.1 ==> r.value.0[caller].items == Pull(items, itemId))
      && (!r.value.1 ==> r.value.0[caller].items == items[k := Assign(items[k], d)])
  {
    var errs := ValidateItemData(d);
    if |errs| > 0 then Err(InvalidItem(errs))
    else if caller !in ps then Err(PantryNotFound)
    else
      var p := ps[caller];
      match FirstWithId(p.items, ItemId, itemId)
      case None => Err(ItemNotFound)
      case Some(k) =>
        var item := Assign(p.items[k], d);
        if item.quantity <= 0.0 then
          Ok((ps[caller := p.(items := Pull(p.items, itemId))], true))
        else if !ItemAtRest(item) then Err(SaveFailed)
        else Ok((ps[caller := p.(items := p.items[k := item])], false))
  }

  /** A successful update leaves the pantry at rest: the item either goes or
      passes the schema. */
  lemma UpdateKeepsAtRest(ps: Pantries, caller: Id, itemId: Id, d: ItemData)
    requires UpdatePantryItem(ps, caller, itemId, d).Ok? && AtRest(ps[caller])
    ensures AtRest(UpdatePantryItem(ps, caller, itemId, d).value.0[caller])
  {
    var items := ps[caller].items;
    var after := UpdatePantryItem(ps, caller, itemId, d).value.0[caller].items;
    if UpdatePantryItem(ps, caller, itemId, d).value.1 {
      PullMembers(items, itemId);
      forall j | 0 <= j < |after| ensures ItemAtRest(after[j]) {
        assert after[j] in items;
      }
    }
  }

  /** An update that sets the quantity to 0 removes the item. */
  lemma ZeroQuantityUpdateRemoves(ps: Pantries, caller: Id, itemId: Id, d: ItemData)
    requires Valid(d) && d.quantity == Amount(0.0)
    requires caller in ps && FirstWithId(ps[caller].items, ItemId, itemId).Some?
    ensures UpdatePantryItem(ps, caller, itemId, d) == Ok((ps[caller := ps[caller].(items := Pull(ps[caller].items, itemId))], true))
    ensures forall x :: x in UpdatePantryItem(ps, caller, itemId, d).value.0[caller].items ==> x.id != itemId
  {
    PullMembers(ps[caller].items, itemId);
  }

  /**
   `removePantryItem`: the caller's pantry and the item must exist; the
   item goes, every other item stays in order, and the removed item is
   returned.
   */
  function RemovePantryItem(ps: Pantries, caller: Id, itemId: Id): (r: Result<(Pantries, PantryItem), PantryError>)
    ensures caller !in ps ==> r == Err(PantryNotFound)
    ensures caller in ps && FirstWithId(ps[caller].items, ItemId, itemId).None? ==> r == Err(ItemNotFound)
    ensures r.Ok? <==> caller in ps && FirstWithId(ps[caller].items, ItemId, itemId).Some?
    ensures r.Ok? ==> caller in ps && ps.Keys == r.value.0.Keys
    ensures r.Ok? ==> r.value.1 == ps[caller].items[FirstWithId(ps[caller].items, ItemId, itemId).value]
    ensures r.Ok? ==> r.value.0[caller].items == Pull(ps[caller].items, itemId)
    ensures r.Ok? ==> r.value.1.id == itemId && r.value.1 in ps[caller].items && r.value.1 !in r.value.0[caller].items
    ensures r.Ok? ==> forall x :: x in r.value.0[caller].items <==> x in ps[caller].items && x.id != itemId
    ensures r.Ok? ==> forall u :: u in ps && u != caller ==> r.value.0[u] == ps[u]
  {
    if caller !in ps then Err(PantryNotFound)
    else
      var p := ps[caller];
      match FirstWithId(p.items, ItemId, itemId)
      case None => Err(ItemNotFound)
      case Some(k) =>
        PullMembers(p.items, itemId);
        Ok((ps[caller := p.(items := Pull(p.items, itemId))], p.items[k]))
  }

  /** With ids unique, removing an item is cutting it out at its index. */
  lemma RemoveCutsAtIndex(ps: Pantries, caller: Id, itemId: Id)
    requires caller in ps && FirstWithId(ps[caller].items, ItemId, itemId).Some?
    requires forall i, j :: 0 <= i < j < |ps[caller].items| ==> ps[caller].items[i].id != ps[caller].items[j].id
    ensures
      var items := ps[caller].items;
      var k := FirstWithId(items, ItemId, itemId).value;
      RemovePantryItem(ps, caller, itemId).Ok?
      && RemovePantryItem(ps, caller, itemId).value.0[caller].items == items[..k] + items[k + 1..]
  {
    var items := ps[caller].items;
    var k := FirstWithId(items, ItemId, itemId).value;
    PullOnlyAt(items, k, itemId);
  }

  /** Pulling an id carried by one item only cuts that item out. */
  lemma {:induction false} PullOnlyAt(items: seq<PantryItem>, k: nat, itemId: Id)
    requires k < |items| && items[k].id == itemId
    requires forall j :: 0 <= j < |items| && j != k ==> items[j].id != itemId
    ensures Pull(items, itemId) == items[..k] + items[k + 1..]
  {
    var tail := items[1..];
    if k == 0 {
      assert forall j :: 0 <= j < |tail| ==> tail[j] == items[j + 1];
      PullAbsent(tail, itemId);
      assert items[..0] + items[1..] == tail;
    } else {
      assert forall j :: 0 <= j < |tail| ==> tail[j] == items[j + 1];
      PullOnlyAt(tail, k - 1, itemId);
      assert items[..k] == [items[0]] + tail[..k - 1];
      assert items[k + 1..] == tail[k..];
    }
  }
}

=== FILE: shopping_lists.dfy ===
/**
 Shopping lists (src/models/shoppingList.js, src/controllers/shoppingList.js):
 lists owned by one user, and the handlers that create, update and delete
 them and move a bought item into the owner's pantry.
 */
module ShoppingLists {
  import opened Base
  import Pantries

  /** A stored list item; `bought` defaults to false. */
  datatype ListItem = ListItem(
    id: Id,
    foodId: Id,
    name: string,
    quantity: real,
    unit: string,
    bought: bool)

  datatype ShoppingList = ShoppingList(id: Id, userId: Id, name: string, items: seq<ListItem>)

  /** The shopping-list collection by document id. */
  type Lists = map<Id, ShoppingList>

  /** The schema's validators on one list item. */
  predicate ListItemAtRest(i: ListItem) {
    i.name != "" && i.unit != "" && i.quantity >= 0.0
  }

  /** Every list is filed under its own id. */
  predicate Keyed(ls: Lists) {
    forall id :: id in ls ==> ls[id].id == id
  }

  /** The `{ _id, userId }` filter of the update, delete and bought handlers. */
  predicate OwnedBy(ls: Lists, id: Id, caller: Id) {
    id in ls && ls[id].userId == caller
  }

  // ---------------------------------------------------------------------
  // createShoppingList

  /** A list item in a request body; None stands for a missing field. */
  datatype ListItemData = ListItemData(
    foodId: Option<Id>,
    name: Option<string>,
    quantity: Option<real>,
    unit: Option<string>,
    bought: Option<bool>)

  /** The stored item a body becomes, or None when it fails the schema. */
  function NewListItem(d: ListItemData, id: Id): (r: Option<ListItem>)
    ensures r.Some? <==>
      && d.foodId.Some? && d.name.Some? && d.name.value != ""
      && d.quantity.Some? && d.quantity.value >= 0.0
      && d.unit.Some? && d.unit.value != ""
    ensures r.Some? ==> ListItemAtRest(r.value) && r.value.id == id && r.value.name == d.name.value
    ensures r.Some? ==> (r.value.bought <==> d.bought == Some(true))
  {
    if d.foodId.Some? && d.name.Some? && d.name.value != ""
      && d.quantity.Some? && d.quantity.value >= 0.0
      && d.unit.Some? && d.unit.value != ""
    then Some(ListItem(id, d.foodId.value, d.name.value, d.quantity.value, d.unit.value, d.bought.GetOr(false)))
    else None
  }

  /** Every body of the list becomes an item, or the save fails. */
  function NewListItems(ds: seq<ListItemData>, ids: seq<Id>): (r: Option<seq<ListItem>>)
    requires |ids| == |ds|
    ensures r.Some? <==> forall i :: 0 <= i < |ds| ==> NewListItem(ds[i], ids[i]).Some?
    ensures r.Some? ==> |r.value| == |ds|
    ensures r.Some? ==> forall i :: 0 <= i < |ds| ==> r.value[i] == NewListItem(ds[i], ids[i]).value
  {
    if |ds| == 0 then Some([])
    else
      var init := NewListItems(ds[..|ds| - 1], ids[..|ids| - 1]);
      var last := NewListItem(ds[|ds| - 1], ids[|ids| - 1]);
      assert forall i :: 0 <= i < |ds| - 1 ==> ds[..|ds| - 1][i] == ds[i] && ids[..|ids| - 1][i] == ids[i];
      if init.Some? && last.Some? then Some(init.value + [last.value]) else None
  }

  datatype ListError = NotFound | SaveFailed

  function Status(e: ListError): nat {
    match e
    case NotFound => 404
    case SaveFailed => 400
  }

  /**
   `createShoppingList`: the list is stamped with the caller's id whatever
   the body says, needs a non-empty name, and stores every item or none.
   `id` and `itemIds` are the fresh ids the database hands out.
   */
  function CreateShoppingList(ls: Lists, caller: Id, name: Option<string>, ds: seq<ListItemData>, id: Id, itemIds: seq<Id>): (r: Result<Lists, ListError>)
    requires id !in ls && |itemIds| == |ds|
    ensures r.Ok? <==> name.Some? && name.value != "" && NewListItems(ds, itemIds).Some?
    ensures r.Ok? ==> r.value.Keys == ls.Keys + {id} && forall k :: k in ls ==> r.value[k] == ls[k]
    ensures r.Ok? ==> r.value[id].userId == caller && r.value[id].id == id && r.value[id].name == name.value
    ensures r.Ok? ==> r.value[id].items == NewListItems(ds, itemIds).value
    ensures r.Ok? && Keyed(ls) ==> Keyed(r.value)
  {
    if name.None? || name.value == "" then Err(SaveFailed)
    else match NewListItems(ds, itemIds)
      case None => Err(SaveFailed)
      case Some(items) => Ok(ls[id := ShoppingList(id, caller, name.value, items)])
  }

  /** An item created without `bought` is not bought. */
  lemma NewItemsNotBought(d: ListItemData, id: Id)
    requires d.bought.None? && NewListItem(d, id).Some?
    ensures !NewListItem(d, id).value.bought
  {
  }

  // ---------------------------------------------------------------------
  // updateShoppingList and deleteShoppingList

  /** The fields an update body may carry. `findOneAndUpdate` runs no
      validators, so nothing here is checked, and a `userId` in the body
      is written like any other field. */
  datatype ListUpdate = ListUpdate(name: Option<string>, items: Option<seq<ListItem>>, userId: Option<Id>)

  function Apply(l: ShoppingList, u: ListUpdate): (r: ShoppingList)
    ensures r.id == l.id
    ensures r.name == u.name.GetOr(l.name) && r.items == u.items.GetOr(l.items) && r.userId == u.userId.GetOr(l.userId)
  {
    ShoppingList(l.id, u.userId.GetOr(l.userId), u.name.GetOr(l.name), u.items.GetOr(l.items))
  }

  /** `updateShoppingList`: only a list the caller owns is touched; any
      other id answers 404 and changes nothing. */
  function UpdateShoppingList(ls: Lists, caller: Id, id: Id, u: ListUpdate): (r: Result<Lists, ListError>)
    ensures r.Err? <==> !OwnedBy(ls, id, caller)
    ensures r.Err? ==> r.error == NotFound
    ensures r.Ok? ==> r.value == ls[id := Apply(ls[id], u)]
    ensures r.Ok? ==> r.value.Keys == ls.Keys && forall k :: k in ls && k != id ==> r.value[k] == ls[k]
  {
    if OwnedBy(ls, id, caller) then Ok(ls[id := Apply(ls[id], u)]) else Err(NotFound)
  }

  /** A body with another `userId` hands the list over: its new owner may
      update it and its old one no longer can. */
  lemma UpdateCanHandOver(ls: Lists, caller: Id, id: Id, u: ListUpdate, other: Id, v: ListUpdate)
    requires OwnedBy(ls, id, caller) && u.userId == Some(other) && other != caller
    ensures UpdateShoppingList(ls, caller, id, u).Ok?
    ensures UpdateShoppingList(UpdateShoppingList(ls, caller, id, u).value, caller, id, v) == Err(NotFound)
    ensures UpdateShoppingList(UpdateShoppingList(ls, caller, id, u).value, other, id, v).Ok?
  {
  }

  /** `deleteShoppingList`: only a list the caller owns goes; any other id
      answers 404 and changes nothing. */
  function DeleteShoppingList(ls: Lists, caller: Id, id: Id): (r: Result<Lists, ListError>)
    ensures r.Err? <==> !OwnedBy(ls, id, caller)
    ensures r.Err? ==> r.error == NotFound
    ensures r.Ok? ==> id !in r.value && r.value.Keys == ls.Keys - {id}
    ensures r.Ok? ==> forall k :: k in r.value ==> r.value[k] == ls[k]
  {
    if OwnedBy(ls, id, caller) then Ok(ls - {id}) else Err(NotFound)
  }

  /** Deleting twice fails the second time: the list is gone. */
  lemma DeleteTwiceNotFound(ls: Lists, caller: Id, id: Id)
    requires DeleteShoppingList(ls, caller, id).Ok?
    ensures DeleteShoppingList(DeleteShoppingList(ls, caller, id).value, caller, id) == Err(NotFound)
  {
  }

  // ---------------------------------------------------------------------
  // markItemAsBought

  /** The id of a list item, as `FirstWithId` reads it. */
  function ListItemId(item: ListItem): Id {
    item.id
  }

  /** The pantry entry a bought item becomes: its food, name, quantity and
      unit, expiring seven days after `now`. */
  function PantryEntry(item: ListItem, id: Id, now: Time): (e: Pantries.PantryItem)
    ensures e.id == id && e.foodId == item.foodId && e.name == item.name
    ensures e.quantity == item.quantity && e.unit == item.unit
    ensures e.expirationDate == now + WeekMs
    ensures ListItemAtRest(item) ==> Pantries.ItemAtRest(e)
  {
    Pantries.PantryItem(id, item.foodId, item.name, item.quantity, item.unit, now + WeekMs)
  }

  /** The list schema's validators: a non-empty name and every item at
      rest. */
  predicate ListAtRest(l: ShoppingList) {
    l.name != "" && forall k :: 0 <= k < |l.items| ==> ListItemAtRest(l.items[k])
  }

  /** The list with its `k`-th item marked bought. */
  function MarkedBought(l: ShoppingList, k: nat): (r: ShoppingList)
    requires k < |l.items|
    ensures r.id == l.id && r.userId == l.userId && r.name == l.name
    ensures |r.items| == |l.items| && r.items[k] == l.items[k].(bought := true)
    ensures forall j :: 0 <= j < |l.items| && j != k ==> r.items[j] == l.items[j]
    ensures ListAtRest(r) <==> ListAtRest(l)
  {
    var r := l.(items := l.items[k := l.items[k].(bought := true)]);
    assert forall j :: 0 <= j < |l.items| ==> (ListItemAtRest(r.items[j]) <==> ListItemAtRest(l.items[j]));
    r
  }

  /** The pantry with one more entry at the end. */
  function WithEntry(p: Pantries.Pantry, e: Pantries.PantryItem): (r: Pantries.Pantry)
    ensures r.userId == p.userId && |r.items| == |p.items| + 1
    ensures r.items[..|p.items|] == p.items && r.items[|p.items|] == e
    ensures Pantries.AtRest(r) <==> Pantries.AtRest(p) && Pantries.ItemAtRest(e)
  {
    var r := p.(items := p.items + [e]);
    assert r.items[..|p.items|] == p.items;
    assert forall j :: 0 <= j < |p.items| ==> r.items[j] == p.items[j];
    r
  }

  /** The state after `markItemAsBought` and its error, if any. */
  datatype Marked = Marked(lists: Lists, pantries: Pantries.Pantries, error: Option<ListError>)

  /**
   `markItemAsBought`: the `{ _id, userId, items._id }` filter must find the
   caller's list holding the item, else 404 and nothing changes. The item is
   marked bought and the caller's pantry (created if missing) gains one
   entry for it. The two documents are saved side by side by `Promise.all`:
   each save succeeds or fails on its own schema, and the request fails with
   400 when either does, while the other save still stands.
   */
  function MarkItemAsBought(ls: Lists, ps: Pantries.Pantries, caller: Id, listId: Id, itemId: Id, now: Time, entryId: Id): (r: Marked)
    ensures !OwnedBy(ls, listId, caller) || FirstWithId(ls[listId].items, ListItemId, itemId).None? ==> r == Marked(ls, ps, Some(NotFound))
    ensures r.error != Some(NotFound) ==> OwnedBy(ls, listId, caller) && FirstWithId(ls[listId].items, ListItemId, itemId).Some?
    ensures r.error != Some(NotFound) ==>
      var l := ls[listId];
      var k := FirstWithId(l.items, ListItemId, itemId).value;
      var p := Pantries.PantryOf(ps, caller);
      var e := PantryEntry(l.items[k], entryId, now);
      && (r.error.None? <==> ListAtRest(l) && Pantries.AtRest(p) && ListItemAtRest(l.items[k]))
      && (r.error.Some? ==> r.error.value == SaveFailed)
      && (ListAtRest(l) ==> r.lists == ls[listId := MarkedBought(l, k)])
      && (!ListAtRest(l) ==> r.lists == ls)
      && (Pantries.AtRest(p) && ListItemAtRest(l.items[k]) ==> r.pantries == ps[caller := WithEntry(p, e)])
      && (!(Pantries.AtRest(p) && ListItemAtRest(l.items[k])) ==> r.pantries == ps)
  {
    if !OwnedBy(ls, listId, caller) then Marked(ls, ps, Some(NotFound))
    else
      var l := ls[listId];
      match FirstWithId(l.items, ListItemId, itemId)
      case None => Marked(ls, ps, Some(NotFound))
      case Some(k) =>
        var l' := MarkedBought(l, k);
        var p' := WithEntry(Pantries.PantryOf(ps, caller), PantryEntry(l.items[k], entryId, now));
        var listSaved := ListAtRest(l');
        var pantrySaved := Pantries.AtRest(p');
        Marked(
          if listSaved then ls[listId := l'] else ls,
          if pantrySaved then ps[caller := p'] else ps,
          if listSaved && pantrySaved then None else Some(SaveFailed))
  }

  /** A list left with an empty name by an unvalidated update fails its
      save, but the pantry's save beside it still stores the new entry. */
  lemma UnnamedListStillFillsPantry(ls: Lists, ps: Pantries.Pantries, caller: Id, listId: Id, itemId: Id, now: Time, entryId: Id)
    requires OwnedBy(ls, listId, caller) && ls[listId].name == ""
    requires FirstWithId(ls[listId].items, ListItemId, itemId).Some?
    requires ListItemAtRest(ls[listId].items[FirstWithId(ls[listId].items, ListItemId, itemId).value])
    requires Pantries.AtRest(Pantries.PantryOf(ps, caller))
    ensures
      var r := MarkItemAsBought(ls, ps, caller, listId, itemId, now, entryId);
      && r.error == Some(SaveFailed)
      && r.lists == ls
      && caller in r.pantries
      && |r.pantries[caller].items| == |Pantries.PantryOf(ps, caller).items| + 1
  {
  }

  /** Only the bought item changes on the list, and only its `bought` flag;
      the pantry keeps every entry it had and gains exactly one at the end. */
  lemma MarkItemAsBoughtChangesOneItem(ls: Lists, ps: Pantries.Pantries, caller: Id, listId: Id, itemId: Id, now: Time, entryId: Id)
    requires MarkItemAsBought(ls, ps, caller, listId, itemId, now, entryId).error.None?
    ensures
      var r := MarkItemAsBought(ls, ps, caller, listId, itemId, now, entryId);
      var before := ls[listId].items;
      var after := r.lists[listId].items;
      var k := FirstWithId(before, ListItemId, itemId).value;
      && |after| == |before|
      && after[k] == before[k].(bought := true)
      && (forall j :: 0 <= j < |before| && j != k ==> after[j] == before[j])
      && caller in r.pantries
      && |r.pantries[caller].items| == |Pantries.PantryOf(ps, caller).items| + 1
      && r.pantries[caller].items[..|Pantries.PantryOf(ps, caller).items|] == Pantries.PantryOf(ps, caller).items
      && r.pantries[caller].items[|Pantries.PantryOf(ps, caller).items|].expirationDate == now + WeekMs
      && r.pantries[caller].items[|Pantries.PantryOf(ps, caller).items|].name == before[k].name
  {
  }

  /** Not idempotent: marking the same item bought twice leaves two pantry
      entries for it, though the list looks the same after the second call. */
  lemma MarkItemAsBoughtTwiceAddsTwo(ls: Lists, ps: Pantries.Pantries, caller: Id, listId: Id, itemId: Id, now: Time, later: Time, e1: Id, e2: Id)
    requires MarkItemAsBought(ls, ps, caller, listId, itemId, now, e1).error.None?
    ensures
      var once := MarkItemAsBought(ls, ps, caller, listId, itemId, now, e1);
      var twice := MarkItemAsBought(once.lists, once.pantries, caller, listId, itemId, later, e2);
      && twice.error.None?
      && twice.lists == once.lists
      && |twice.pantries[caller].items| == |Pantries.PantryOf(ps, caller).items| + 2
      && twice.pantries[caller].items[|Pantries.PantryOf(ps, caller).items|].name
         == twice.pantries[caller].items[|Pantries.PantryOf(ps, caller).items| + 1].name
  {
    var l := ls[listId];
    var k := FirstWithId(l.items, ListItemId, itemId).value;
    var once := MarkItemAsBought(ls, ps, caller, listId, itemId, now, e1);
    var l1 := MarkedBought(l, k);
    assert once.lists[listId] == l1;
    FirstIdAfterUpdate(l.items, k, itemId, l.items[k].(bought := true));
    assert l1.items == l.items[k := l.items[k].(bought := true)];
    assert FirstWithId(l1.items, ListItemId, itemId) == Some(k);
    assert MarkedBought(l1, k) == l1;
  }

  /** Replacing the item at a first-match index by one with the same id
      keeps it the first match. */
  lemma FirstIdAfterUpdate(items: seq<ListItem>, k: nat, itemId: Id, x: ListItem)
    requires FirstWithId(items, ListItemId, itemId) == Some(k) && x.id == itemId
    ensures FirstWithId(items[k := x], ListItemId, itemId) == Some(k)
  {
    var updated := items[k := x];
    forall j | 0 <= j < k ensures ListItemId(updated[j]) != itemId {
      assert updated[j] == items[j];
    }
    assert ListItemId(updated[k]) == itemId;
  }
}

=== FILE: strings.dfy ===
/**
 The handful of JavaScript string operations the core relies on, stated over
 `seq<char>`: the `\s` character class and `trim()`, ASCII case mapping
 (`toLowerCase()` and `toUpperCase()` are modelled on ASCII letters only),
 substring search, `replace` with a string pattern (first occurrence only)
 and the decimal rendering of a natural number.
 */
module Strings {
  import opened Base

  /** The characters matched by `\s` in a JavaScript regular expression,
      which are also the characters `String.prototype.trim` removes. */
  predicate IsSpace(c: char) {
    || c == ' ' || c == '\t' || c == '\n' || c == '\U{000B}' || c == '\U{000C}' || c == '\r'
    || c == '\U{00A0}' || c == '\U{1680}' || ('\U{2000}' <= c <= '\U{200A}')
    || c == '\U{2028}' || c == '\U{2029}' || c == '\U{202F}' || c == '\U{205F}'
    || c == '\U{3000}' || c == '\U{FEFF}'
  }

  predicate IsDigit(c: char) {
    '0' <= c <= '9'
  }

  predicate IsAsciiUpper(c: char) {
    'A' <= c <= 'Z'
  }

  predicate IsAsciiLower(c: char) {
    'a' <= c <= 'z'
  }

  /** The characters matched by `\w`. */
  predicate IsWordChar(c: char) {
    IsAsciiUpper(c) || IsAsciiLower(c) || IsDigit(c) || c == '_'
  }

  predicate AllDigits(s: string) {
    forall i :: 0 <= i < |s| ==> IsDigit(s[i])
  }

  predicate NoSpace(s: string) {
    forall i :: 0 <= i < |s| ==> !IsSpace(s[i])
  }

  function LowerChar(c: char): (r: char)
    ensures IsAsciiUpper(c) ==> IsAsciiLower(r)
    ensures !IsAsciiUpper(c) ==> r == c
    ensures IsSpace(r) <==> IsSpace(c)
    ensures IsWordChar(r) <==> IsWordChar(c)
  {
    if IsAsciiUpper(c) then (c as int + 32) as char else c
  }

  function UpperChar(c: char): (r: char)
    ensures IsAsciiLower(c) ==> IsAsciiUpper(r)
    ensures !IsAsciiLower(c) ==> r == c
    ensures IsWordChar(r) <==> IsWordChar(c)
  {
    if IsAsciiLower(c) then (c as int - 32) as char else c
  }

  /** `s.toLowerCase()` on the ASCII letters. */
  function Lower(s: string): (r: string)
    ensures |r| == |s|
    ensures forall i :: 0 <= i < |s| ==> r[i] == LowerChar(s[i])
  {
    seq(|s|, i requires 0 <= i < |s| => LowerChar(s[i]))
  }

  /** Lower-casing twice is lower-casing once. */
  lemma LowerIdempotent(s: string)
    ensures Lower(Lower(s)) == Lower(s)
  {
  }

  lemma LowerKeepsNoSpace(s: string)
    requires NoSpace(s)
    ensures NoSpace(Lower(s))
  {
  }

  /** `s.trimStart()`: drops the leading `\s` characters. */
  function TrimStart(s: string): (r: string)
    ensures |r| <= |s| && r == s[|s| - |r|..]
    ensures forall i :: 0 <= i < |s| - |r| ==> IsSpace(s[i])
    ensures |r| > 0 ==> !IsSpace(r[0])
    ensures forall c :: c in r ==> c in s
  {
    if |s| > 0 && IsSpace(s[0]) then TrimStart(s[1..]) else s
  }

  /** `s.trimEnd()`: drops the trailing `\s` characters. */
  function TrimEnd(s: string): (r: string)
    ensures |r| <= |s| && r == s[..|r|]
    ensures forall i :: |r| <= i < |s| ==> IsSpace(s[i])
    ensures |r| > 0 ==> !IsSpace(r[|r| - 1])
    ensures forall c :: c in r ==> c in s
  {
    if |s| > 0 && IsSpace(s[|s| - 1]) then TrimEnd(s[..|s| - 1]) else s
  }

  /** `s.trim()`. */
  function Trim(s: string): (r: string)
    ensures |r| <= |s|
    ensures |r| > 0 ==> !IsSpace(r[0]) && !IsSpace(r[|r| - 1])
    ensures |r| == 0 <==> forall i :: 0 <= i < |s| ==> IsSpace(s[i])
    ensures NoSpace(s) ==> r == s
    ensures forall c :: c in r ==> c in s
  {
    TrimEnd(TrimStart(s))
  }

  /** Nothing but white space: `s.trim().length === 0`. */
  predicate Blank(s: string) {
    forall i :: 0 <= i < |s| ==> IsSpace(s[i])
  }

  /** Blankness is what trimming to nothing means. */
  lemma BlankIffTrimmedEmpty(s: string)
    ensures Blank(s) <==> Trim(s) == ""
  {
  }

  /** Trimming cuts a blank prefix and a blank suffix and keeps the middle
      as it is. */
  lemma TrimCuts(s: string)
    ensures exists a, b :: 0 <= a <= b <= |s| && Trim(s) == s[a..b] && Blank(s[..a]) && Blank(s[b..])
  {
    var t := TrimStart(s);
    var u := TrimEnd(t);
    var a := |s| - |t|;
    var m := |u|;
    TrimStartCut(s);
    TrimEndCut(t);
    assert t == s[a..];
    assert u == t[..m];
    assert t[..m] == s[a..a + m];
    assert t[m..] == s[a + m..];
    assert Trim(s) == s[a..a + m] && Blank(s[..a]) && Blank(s[a + m..]);
  }

  /** What `trimStart` drops is blank. */
  lemma TrimStartCut(s: string)
    ensures Blank(s[..|s| - |TrimStart(s)|])
  {
    var a := |s| - |TrimStart(s)|;
    assert forall i :: 0 <= i < a ==> s[..a][i] == s[i];
  }

  /** What `trimEnd` drops is blank. */
  lemma TrimEndCut(s: string)
    ensures Blank(s[|TrimEnd(s)|..])
  {
    var m := |TrimEnd(s)|;
    assert forall i :: 0 <= i < |s| - m ==> s[m..][i] == s[m + i];
  }

  /** `s.startsWith(p)`. */
  predicate StartsWith(s: string, p: string) {
    |p| <= |s| && s[..|p|] == p
  }

  /** `s.includes(p)`: `p` occurs somewhere in `s`. */
  predicate Contains(s: string, p: string)
    decreases |s|
  {
    StartsWith(s, p) || (|s| > 0 && Contains(s[1..], p))
  }

  /** `s.indexOf(p)`, with -1 rendered as None. */
  function IndexOf(s: string, p: string): (r: Option<nat>)
    decreases |s|
    ensures r.Some? ==> r.value + |p| <= |s| && s[r.value..r.value + |p|] == p
    ensures r.Some? ==> forall k :: 0 <= k < r.value ==> !StartsWith(s[k..], p)
    ensures r.None? <==> !Contains(s, p)
  {
    if StartsWith(s, p) then Some(0)
    else if |s| == 0 then None
    else
      match IndexOf(s[1..], p)
      case None => None
      case Some(k) =>
        MatchInTail(s, p, k);
        Some(k + 1)
  }

  /** A first match at `k` in the tail of `s` is a first match at `k + 1` in
      `s`, when `s` itself does not start with the pattern. */
  lemma MatchInTail(s: string, p: string, k: nat)
    requires |s| > 0 && !StartsWith(s, p)
    requires k + |p| <= |s| - 1 && s[1..][k..k + |p|] == p
    requires forall j :: 0 <= j < k ==> !StartsWith(s[1..][j..], p)
    ensures s[k + 1..k + 1 + |p|] == p
    ensures forall j :: 0 <= j < k + 1 ==> !StartsWith(s[j..], p)
  {
    assert s[k + 1..k + 1 + |p|] == s[1..][k..k + |p|];
    forall j | 0 < j < k + 1 ensures !StartsWith(s[j..], p) {
      assert s[1..][j - 1..] == s[j..];
    }
  }

  /** `s.replace(p, q)` with a string pattern: only the first occurrence of
      `p` is replaced; without one `s` comes back unchanged. */
  function ReplaceFirst(s: string, p: string, q: string): (r: string)
    ensures !Contains(s, p) ==> r == s
    ensures Contains(s, p) ==> |r| == |s| - |p| + |q|
    ensures Contains(s, p) ==>
      var i := IndexOf(s, p).value;
      && r[..i] == s[..i]
      && r[i..i + |q|] == q
      && r[i + |q|..] == s[i + |p|..]
      && (forall k :: 0 <= k < i ==> !StartsWith(s[k..], p))
  {
    match IndexOf(s, p)
    case None => s
    case Some(i) => s[..i] + q + s[i + |p|..]
  }

  function DigitChar(d: nat): (c: char)
    requires d < 10
    ensures IsDigit(c)
  {
    ('0' as int + d) as char
  }

  function DigitValue(c: char): nat
    requires IsDigit(c)
  {
    c as int - '0' as int
  }

  /** The decimal rendering `String(n)` of a natural number. */
  function NatToString(n: nat): (r: string)
    ensures |r| > 0 && AllDigits(r)
    ensures |r| > 1 ==> r[0] != '0'
  {
    if n < 10 then [DigitChar(n)] else NatToString(n / 10) + [DigitChar(n % 10)]
  }

  /** The number a string of decimal digits denotes. */
  function DecimalValue(s: string): nat
    requires AllDigits(s)
  {
    if |s| == 0 then 0 else 10 * DecimalValue(s[..|s| - 1]) + DigitValue(s[|s| - 1])
  }

  /** Reading back the decimal rendering gives the number again. */
  lemma {:induction false} DecimalRoundTrip(n: nat)
    ensures DecimalValue(NatToString(n)) == n
  {
    if n >= 10 {
      var r := NatToString(n);
      assert r[..|r| - 1] == NatToString(n / 10);
      DecimalRoundTrip(n / 10);
    }
  }
}

=== FILE: upload.dfy ===
/**
 The image upload filter (src/middlewares/uploadImage.js): which files the
 multer middleware accepts, how large they may be and the name a stored
 file gets.

 The extension is read as Node's POSIX `path.extname` reads it: from the
 last `.` of the last path segment, ignoring trailing slashes, with a
 leading `.` (a dot-file) and the segment `..` giving no extension. Both
 tests run the unanchored pattern `jpeg|jpg|png|heic|heif`, so they ask
 only that one of the five words occurs somewhere: the mimetype as sent,
 the extension after lower-casing.
 */
module Upload {
  import opened Base
  import opened Strings

  /** The `fileSize` limit, in bytes: 5 MiB. */
  const MaxFileSize: nat := 5 * 1024 * 1024

  /** The error the filter hands to multer for a refused file. */
  const FilterMessage := "Only .png, .jpg, .jpeg, .heic and .heif format allowed!"

  /** `s` with every trailing `/` removed. */
  function StripSlashes(s: string): (r: string)
    ensures |r| <= |s| && r == s[..|r|]
    ensures r == "" || r[|r| - 1] != '/'
    ensures forall k :: |r| <= k < |s| ==> s[k] == '/'
  {
    if |s| > 0 && s[|s| - 1] == '/' then StripSlashes(s[..|s| - 1]) else s
  }

  /** `s.lastIndexOf(c)`, with -1 rendered as None. */
  function LastIndex(s: string, c: char): (r: Option<nat>)
    ensures r.Some? ==> r.value < |s| && s[r.value] == c
    ensures r.Some? ==> forall j :: r.value < j < |s| ==> s[j] != c
    ensures r.None? <==> forall j :: 0 <= j < |s| ==> s[j] != c
  {
    if |s| == 0 then None
    else if s[|s| - 1] == c then Some(|s| - 1)
    else LastIndex(s[..|s| - 1], c)
  }

  /** What follows the last `/` of `t`, or all of `t` when it has none. */
  function AfterLastSlash(t: string): (r: string)
    ensures forall k :: 0 <= k < |r| ==> r[k] != '/'
    ensures |r| <= |t| && r == t[|t| - |r|..]
  {
    match LastIndex(t, '/')
    case None => t
    case Some(i) => t[i + 1..]
  }

  /** The last path segment, once trailing slashes are gone. */
  function LastSegment(path: string): (r: string)
    ensures forall k :: 0 <= k < |r| ==> r[k] != '/'
    ensures |r| <= |StripSlashes(path)|
    ensures r == StripSlashes(path)[|StripSlashes(path)| - |r|..]
  {
    AfterLastSlash(StripSlashes(path))
  }

  /** The extension of one path segment: its tail from its last `.`, or ""
      when it has no dot, its only dot comes first, or it is `..`. */
  function SegmentExt(b: string): (r: string)
    ensures r != "" ==> r[0] == '.' && |r| < |b| && r == b[|b| - |r|..]
    ensures forall k :: 0 < k < |r| ==> r[k] != '.'
    ensures (forall k :: 0 <= k < |b| ==> b[k] != '/') ==> forall k :: 0 <= k < |r| ==> r[k] != '/'
    ensures (forall k :: 0 <= k < |b| ==> b[k] != '.') ==> r == ""
  {
    if b == ".." then "" else DotTail(b)
  }

  /** The tail of `b` from its last `.`, or "" when there is no dot or the
      only dot comes first. */
  function DotTail(b: string): (r: string)
    ensures r != "" ==> r[0] == '.' && |r| < |b| && r == b[|b| - |r|..]
    ensures forall k :: 0 < k < |r| ==> r[k] != '.'
  {
    match LastIndex(b, '.')
    case None => ""
    case Some(d) => if d == 0 then "" else b[d..]
  }

  /** Node's POSIX `path.extname`: the extension of the last segment. */
  function ExtName(path: string): (r: string)
    ensures r != "" ==> r[0] == '.'
    ensures forall k :: 0 <= k < |r| ==> r[k] != '/'
    ensures forall k :: 0 < k < |r| ==> r[k] != '.'
    ensures r != "" ==> |r| < |LastSegment(path)| && r == LastSegment(path)[|LastSegment(path)| - |r|..]
  {
    SegmentExt(LastSegment(path))
  }

  /** The pattern `/jpeg|jpg|png|heic|heif/`, unanchored: one of the five
      words occurs in `s`. */
  predicate ImageWord(s: string) {
    Contains(s, "jpeg") || Contains(s, "jpg") || Contains(s, "png") || Contains(s, "heic") || Contains(s, "heif")
  }

  /** `fileFilter`: the mimetype as sent and the lower-cased extension must
      both name an image type. */
  function FileFilter(mimetype: string, originalName: string): (r: Result<bool, string>)
    ensures r.Ok? <==> ImageWord(mimetype) && ImageWord(Lower(ExtName(originalName)))
    ensures r.Ok? ==> r.value
    ensures r.Err? ==> r.error == FilterMessage
  {
    if ImageWord(mimetype) && ImageWord(Lower(ExtName(originalName))) then Ok(true)
    else Err(FilterMessage)
  }

  /** The disk storage's `filename`: the upload time in milliseconds,
      written in decimal, followed by the original extension as sent. */
  function Filename(now: nat, originalName: string): (r: string)
    ensures |r| > |ExtName(originalName)|
    ensures r[|r| - |ExtName(originalName)|..] == ExtName(originalName)
    ensures AllDigits(r[..|r| - |ExtName(originalName)|])
    ensures DecimalValue(r[..|r| - |ExtName(originalName)|]) == now
  {
    var d := NatToString(now);
    var r := d + ExtName(originalName);
    assert r[..|d|] == d;
    DecimalRoundTrip(now);
    r
  }

  datatype UploadError = Refused(message: string) | TooLarge

  /** One file through the middleware: the filter first, then the size
      limit while the file streams to disk; an accepted file is stored
      under `Filename`. */
  function Upload(now: nat, mimetype: string, originalName: string, size: nat): (r: Result<string, UploadError>)
    ensures r.Ok? <==> FileFilter(mimetype, originalName).Ok? && size <= MaxFileSize
    ensures r.Ok? ==> r.value == Filename(now, originalName)
    ensures FileFilter(mimetype, originalName).Err? ==> r == Err(Refused(FilterMessage))
    ensures FileFilter(mimetype, originalName).Ok? && size > MaxFileSize ==> r == Err(TooLarge)
  {
    match FileFilter(mimetype, originalName)
    case Err(m) => Err(Refused(m))
    case Ok(_) => if size <= MaxFileSize then Ok(Filename(now, originalName)) else Err(TooLarge)
  }

  /** `p` sits at offset `i` of `s`. */
  predicate At(s: string, p: string, i: nat) {
    i + |p| <= |s| && s[i..i + |p|] == p
  }

  /** `s.includes(p)` holds exactly when `p` sits at some offset of `s`. */
  lemma {:induction false} ContainsIff(s: string, p: string)
    ensures Contains(s, p) <==> exists i: nat :: At(s, p, i)
    decreases |s|
  {
    if StartsWith(s, p) {
      assert At(s, p, 0);
    }
    if At(s, p, 0) {
      assert StartsWith(s, p);
    }
    if |s| > 0 {
      ContainsIff(s[1..], p);
      if Contains(s[1..], p) {
        var i: nat :| At(s[1..], p, i);
        assert s[i + 1..i + 1 + |p|] == s[1..][i..i + |p|];
        assert At(s, p, i + 1);
      }
      if exists i: nat :: At(s, p, i) {
        var i: nat :| At(s, p, i);
        if i > 0 {
          assert s[1..][i - 1..i - 1 + |p|] == s[i..i + |p|];
          assert At(s[1..], p, i - 1);
        }
      }
    }
  }

  /** A word whose first letter never occurs in `s` does not occur in it. */
  lemma AbsentInitial(s: string, p: string)
    requires |p| > 0 && forall k :: 0 <= k < |s| ==> s[k] != p[0]
    ensures !Contains(s, p)
  {
    ContainsIff(s, p);
  }

  /** A string without `j`, `p` or `h` names no image type. */
  lemma NoImageInitial(s: string)
    requires forall k :: 0 <= k < |s| ==> s[k] != 'j' && s[k] != 'p' && s[k] != 'h'
    ensures !ImageWord(s)
  {
    AbsentInitial(s, "jpeg");
    AbsentInitial(s, "jpg");
    AbsentInitial(s, "png");
    AbsentInitial(s, "heic");
    AbsentInitial(s, "heif");
  }

  /** A word occurs in any string that has it as an infix. */
  lemma ContainsInfix(pre: string, w: string, post: string)
    ensures Contains(pre + w + post, w)
  {
    var s := pre + w + post;
    assert s[|pre|..|pre| + |w|] == w;
    assert At(s, w, |pre|);
    ContainsIff(s, w);
  }

  /** The last `c` of `s` sits at `i`. */
  lemma LastIndexAt(s: string, c: char, i: nat)
    requires i < |s| && s[i] == c
    requires forall j :: i < j < |s| ==> s[j] != c
    ensures LastIndex(s, c) == Some(i)
  {
  }

  /** An upper-case letter never lowers to `/` or `.`. */
  lemma LowerKeepsMarks(x: char)
    ensures LowerChar(x) == '/' <==> x == '/'
    ensures LowerChar(x) == '.' <==> x == '.'
  {
  }

  lemma LowerSlice(s: string, i: nat, j: nat)
    requires i <= j <= |s|
    ensures Lower(s)[i..j] == Lower(s[i..j])
  {
  }

  /** Lower-casing and stripping trailing slashes commute. */
  lemma {:induction false} StripSlashesLower(s: string)
    ensures StripSlashes(Lower(s)) == Lower(StripSlashes(s))
    decreases |s|
  {
    if |s| > 0 {
      LowerKeepsMarks(s[|s| - 1]);
      if s[|s| - 1] == '/' {
        LowerSlice(s, 0, |s| - 1);
        StripSlashesLower(s[..|s| - 1]);
      }
    }
  }

  /** Lower-casing moves no `/` and no `.`. */
  lemma LastIndexLower(s: string, c: char)
    requires c == '/' || c == '.'
    ensures LastIndex(Lower(s), c) == LastIndex(s, c)
  {
    forall j | 0 <= j < |s| ensures Lower(s)[j] == c <==> s[j] == c {
      LowerKeepsMarks(s[j]);
    }
  }

  /** The last segment of a lower-cased path is the lower-cased last
      segment. */
  lemma LastSegmentLower(path: string)
    ensures LastSegment(Lower(path)) == Lower(LastSegment(path))
  {
    StripSlashesLower(path);
    AfterLastSlashLower(StripSlashes(path));
  }

  /** Lower-casing and cutting after the last `/` commute. */
  lemma AfterLastSlashLower(t: string)
    ensures AfterLastSlash(Lower(t)) == Lower(AfterLastSlash(t))
  {
    LastIndexLower(t, '/');
    match LastIndex(t, '/')
    case None =>
    case Some(i) => LowerSlice(t, i + 1, |t|);
  }

  /** A segment's extension is found at the same dot whatever its case. */
  lemma SegmentExtLower(b: string)
    ensures SegmentExt(Lower(b)) == Lower(SegmentExt(b))
  {
    DotDotLower(b);
    DotTailLower(b);
  }

  /** Only `..` lower-cases to `..`. */
  lemma DotDotLower(b: string)
    ensures Lower(b) == ".." <==> b == ".."
  {
    if |b| == 2 {
      LowerKeepsMarks(b[0]);
      LowerKeepsMarks(b[1]);
      assert Lower(b)[0] == LowerChar(b[0]) && Lower(b)[1] == LowerChar(b[1]);
      assert Lower(b) == [Lower(b)[0], Lower(b)[1]];
      assert b == [b[0], b[1]];
    }
  }

  /** Lower-casing and cutting from the last `.` commute. */
  lemma DotTailLower(b: string)
    ensures DotTail(Lower(b)) == Lower(DotTail(b))
  {
    LastIndexLower(b, '.');
    match LastIndex(b, '.')
    case None =>
    case Some(d) => LowerSlice(b, d, |b|);
  }

  /** Reading the extension and lower-casing commute: `extname` finds the
      same dot in a name whatever the case of its letters. */
  lemma ExtNameLower(path: string)
    ensures ExtName(Lower(path)) == Lower(ExtName(path))
  {
    LastSegmentLower(path);
    SegmentExtLower(LastSegment(path));
  }

  /** The filter's verdict does not depend on the case of the name: two
      names that lower-case alike are treated alike. */
  lemma FilterIgnoresNameCase(mimetype: string, n1: string, n2: string)
    requires Lower(n1) == Lower(n2)
    ensures FileFilter(mimetype, n1) == FileFilter(mimetype, n2)
  {
    ExtNameLower(n1);
    ExtNameLower(n2);
  }

  /** A path with no `/` is its own last segment. */
  lemma NoSlashSegment(s: string)
    requires forall k :: 0 <= k < |s| ==> s[k] != '/'
    ensures LastSegment(s) == s
  {
    if |s| > 0 {
      assert StripSlashes(s) == s;
    }
  }

  /** A dotted word without slashes appended to a slash-free stem is the
      extension of the whole. */
  lemma ExtNameAppend(stem: string, e: string)
    requires |stem| > 0 && stem + e != ".."
    requires forall k :: 0 <= k < |stem| ==> stem[k] != '/'
    requires |e| > 0 && e[0] == '.'
    requires forall k :: 0 <= k < |e| ==> e[k] != '/'
    requires forall k :: 0 < k < |e| ==> e[k] != '.'
    ensures ExtName(stem + e) == e
  {
    var f := stem + e;
    assert forall k :: 0 <= k < |f| ==> f[k] != '/';
    NoSlashSegment(f);
    LastIndexAt(f, '.', |stem|);
    assert f[|stem|..] == e;
  }

  /** A stored file keeps its extension: read back from the stored name,
      `extname` gives exactly the extension of the name sent. */
  lemma FilenameKeepsExtension(now: nat, originalName: string)
    ensures ExtName(Filename(now, originalName)) == ExtName(originalName)
  {
    var d := NatToString(now);
    var e := ExtName(originalName);
    assert Filename(now, originalName) == d + e;
    forall k | 0 <= k < |d| ensures d[k] != '/' && d[k] != '.' {
      assert IsDigit(d[k]);
    }
    if e == "" {
      assert d + e == d;
      NoSlashSegment(d);
      assert LastIndex(d, '.') == None;
    } else {
      assert (d + e)[0] == d[0] && IsDigit(d[0]);
      ExtNameAppend(d, e);
    }
  }

  /** Whatever the middleware stores passes the filter again under the same
      mimetype. */
  lemma StoredFileRefilters(now: nat, mimetype: string, originalName: string, size: nat)
    ensures Upload(now, mimetype, originalName, size).Ok? ==>
      FileFilter(mimetype, Upload(now, mimetype, originalName, size).value).Ok?
  {
    FilenameKeepsExtension(now, originalName);
  }

  /** Both words of the accepted upload name an image type. */
  lemma JpegWords()
    ensures ImageWord("image/jpeg") && ImageWord(".jpg")
  {
    ContainsInfix("image/", "jpeg", "");
    assert "image/" + "jpeg" + "" == "image/jpeg";
    ContainsInfix(".", "jpg", "");
    assert "." + "jpg" + "" == ".jpg";
  }

  /** `.JPG` lower-cased names an image type. */
  lemma JpgWordLowered()
    ensures ImageWord(Lower(".JPG"))
  {
    var e := ".JPG";
    assert Lower(e)[1] == 'j' && Lower(e)[2] == 'p' && Lower(e)[3] == 'g';
    assert Lower(e) == ".jpg";
    JpegWords();
  }

  /** `.gif` lower-cased names no image type. */
  lemma GifWordLowered()
    ensures !ImageWord(Lower(".gif"))
  {
    var e := ".gif";
    assert Lower(e) == e;
    NoImageInitial(e);
  }

  /** An upper-case extension is accepted: any `<stem>.JPG` sent as
      `image/jpeg`. */
  lemma UpperCaseExtensionAccepted(stem: string)
    requires |stem| > 0 && forall k :: 0 <= k < |stem| ==> stem[k] != '/'
    ensures FileFilter("image/jpeg", stem + ".JPG").Ok?
  {
    var e := ".JPG";
    ExtNameAppend(stem, e);
    JpgWordLowered();
    JpegWords();
  }

  /** A GIF is refused by its extension, whatever mimetype it claims:
      any `<stem>.gif`. */
  lemma GifRefused(mimetype: string, stem: string)
    requires |stem| > 0 && forall k :: 0 <= k < |stem| ==> stem[k] != '/'
    ensures FileFilter(mimetype, stem + ".gif") == Err(FilterMessage)
  {
    var e := ".gif";
    ExtNameAppend(stem, e);
    GifWordLowered();
  }

  /** A dot-file has no extension in `extname`'s reading, so `.png` alone is
      refused even as `image/png`. */
  lemma DotFileRefused()
    ensures ExtName(".png") == ""
    ensures FileFilter("image/png", ".png").Err?
  {
    var n := ".png";
    NoSlashSegment(n);
    LastIndexAt(n, '.', 0);
    assert Lower("") == "";
    NoImageInitial("");
  }

  /** The mimetype test is unanchored: any mimetype with `png` somewhere in
      it passes, `text/x-png` or `png-not-really` alike. */
  lemma MimetypeUnanchored(pre: string, post: string)
    ensures ImageWord(pre + "png" + post)
  {
    ContainsInfix(pre, "png", post);
  }

  /** The mimetype test is case-sensitive: `image/PNG` fails. */
  lemma MimetypeCaseSensitive()
    ensures !ImageWord("image/PNG")
  {
    var m := "image/PNG";
    NoImageInitial(m);
  }
}

=== FILE: user_model.dfy ===
/**
 The user document (src/models/user.js): the fields the core reads, the
 conditionally required credentials, the password hook, `comparePassword`
 and the misnamed `isThisEmailInUse`.

 bcrypt is modelled as an ideal one-way tag: `Hashed(p)` is the stored hash
 of the plain text `p`, and a comparison succeeds exactly when the candidate
 is `p`.
 */
module UserModel {
  import opened Base
  import opened Strings

  /** The `password` path: absent, a plain text just assigned, or a hash. */
  datatype Password = NoPassword | Plain(text: string) | Hashed(plain: string)

  /** One entry of the session token list. */
  datatype SessionToken = SessionToken(token: string, signedAt: Time)

  /** `username` is None when the field is undefined; the three social ids
      and the other strings use "" for "not set" (both are falsy). */
  datatype User = User(
    id: Id,
    username: Option<string>,
    email: string,
    password: Password,
    googleId: string,
    facebookId: string,
    appleId: string,
    household: Option<Id>,
    tokens: seq<SessionToken>)

  type Users = map<Id, User>

  /** A password value JavaScript treats as truthy. */
  predicate HasPassword(p: Password) {
    match p
    case NoPassword => false
    case Plain(t) => t != ""
    case Hashed(_) => true
  }

  /** `username` and `password` are required unless a social id is set. */
  predicate NeedsCredentials(u: User) {
    u.googleId == "" && u.facebookId == "" && u.appleId == ""
  }

  /** The `required` validators of the schema (a required string must be
      non-empty). */
  predicate PassesSchema(u: User) {
    && u.email != ""
    && (NeedsCredentials(u) ==> u.username.Some? && u.username.value != "" && HasPassword(u.password))
  }

  /** The pre-save hook: the password is hashed only when it was modified and
      is truthy; otherwise it is saved as it is. */
  function PreSaveHook(p: Password, modified: bool): (r: Password)
    ensures modified && p.Plain? && p.text != "" ==> r == Hashed(p.text)
    ensures !(modified && HasPassword(p)) ==> r == p
    ensures HasPassword(r) <==> HasPassword(p)
  {
    if modified && HasPassword(p) then
      match p
      case Plain(t) => Hashed(t)
      case _ => p
    else p
  }

  /** Why `comparePassword` or `isThisEmailInUse` threw. */
  datatype Thrown = PasswordMissing | InvalidEmail

  /** `comparePassword`: throws on a missing candidate; otherwise true exactly
      when the stored hash is the hash of the candidate (bcrypt failing on a
      missing stored hash is caught and yields a falsy result). */
  function ComparePassword(stored: Password, candidate: string): (r: Result<bool, Thrown>)
    ensures candidate == "" <==> r == Err(PasswordMissing)
    ensures r.Ok? ==> (r.value <==> stored == Hashed(candidate))
  {
    if candidate == "" then Err(PasswordMissing)
    else Ok(stored.Hashed? && stored.plain == candidate)
  }

  /** Some stored user has exactly this email. */
  predicate EmailTaken(users: Users, email: string) {
    exists id :: id in users && users[id].email == email
  }

  /** `isThisEmailInUse`: despite its name it answers "is this email FREE";
      it throws on an empty email, and a failed lookup answers false. */
  function IsThisEmailInUse(users: Users, email: string, lookupFails: bool): (r: Result<bool, Thrown>)
    ensures email == "" <==> r == Err(InvalidEmail)
    ensures email != "" && lookupFails ==> r == Ok(false)
    ensures email != "" && !lookupFails ==> r == Ok(!EmailTaken(users, email))
    ensures r == Ok(true) ==> !EmailTaken(users, email)
  {
    if email == "" then Err(InvalidEmail)
    else if lookupFails then Ok(false)
    else Ok(!EmailTaken(users, email))
  }

  /** The unique index on `email`. */
  predicate EmailsUnique(users: Users) {
    forall a, b :: a in users && b in users && users[a].email == users[b].email ==> a == b
  }
}

=== FILE: users.dfy ===
/**
 The account handlers of src/controllers/user.js that touch the household
 core: sign-up (which creates the new user's household unless an invitation
 is waiting), sign-in with its session-token pruning, sign-out, the profile
 update with its password check, and account deletion.

 A handler whose promise rejects outside any `try` leaves the request
 without a response; that outcome is `Unhandled`.
 */
module Accounts {
  import opened Base
  import opened Strings
  import opened HouseholdModel
  import opened InvitationModel
  import opened UserModel
  import opened Households

  // ---------------------------------------------------------------------------
  // createUser
  // ---------------------------------------------------------------------------

  datatype SignUpOutcome =
    | EmailInUse
    | SignedUp(user: Id)
    | Unhandled

  /**
   `createUser`. An empty address makes `isThisEmailInUse` throw; a taken
   address, or a failed lookup (which reads as "taken"), is refused; a user
   failing the schema's required fields makes the save throw. Otherwise the
   user is stored with the hashed password and, unless a valid invitation
   for the address is waiting, a household named after the user
   is created with the user as owner and sole member. A failing household
   save is caught: the user then simply has no household. The invitation
   query lower-cases the address, and Mongoose passes the filter value
   through the `lowercase` and `trim` setters of the invitation's `email`
   path, so the address matched is the normalized one (the handler's own
   lower-casing changes nothing more, by `NormalizeLowered`).
   */
  function CreateUser(s: Store, username: Option<string>, email: string, password: string, now: Time,
                      newUser: Id, newHousehold: Id, lookupFails: bool, householdSaveFails: bool): (r: (Store, SignUpOutcome))
    requires newUser !in s.users && newHousehold !in s.households
    ensures email == "" ==> r.1 == Unhandled
    ensures email != "" && (lookupFails || EmailTaken(s.users, email)) ==> r.1 == EmailInUse
    ensures !r.1.SignedUp? ==> r.0 == s
    ensures r.1.SignedUp? <==>
      && email != "" && !lookupFails && !EmailTaken(s.users, email)
      && username.Some? && username.value != "" && password != ""
    ensures r.1.SignedUp? ==>
      && r.1.user == newUser
      && r.0.users.Keys == s.users.Keys + {newUser}
      && (forall u :: u in s.users ==> r.0.users[u] == s.users[u])
      && r.0.users[newUser].email == email
      && r.0.users[newUser].username == username
      && r.0.users[newUser].password == Hashed(password)
      && r.0.users[newUser].tokens == []
      && r.0.invitations == s.invitations
    ensures r.1.SignedUp? && PendingFor(s.invitations, email, now) ==>
      r.0.users[newUser].household.None? && r.0.households == s.households
    ensures r.1.SignedUp? && !PendingFor(s.invitations, email, now) && householdSaveFails ==>
      r.0.users[newUser].household.None? && r.0.households == s.households
    ensures r.1.SignedUp? && !PendingFor(s.invitations, email, now) && !householdSaveFails ==>
      && r.0.users[newUser].household == Some(newHousehold)
      && r.0.households == s.households[newHousehold := NewHousehold(newHousehold, DefaultHouseholdName(username), newUser, now)]
    ensures Valid(s) ==> Valid(r.0)
    ensures EmailsUnique(s.users) ==> EmailsUnique(r.0.users)
  {
    match IsThisEmailInUse(s.users, email, lookupFails)
    case Err(_) => (s, Unhandled)
    case Ok(isNew) =>
      if !isNew then (s, EmailInUse)
      else
        var u := User(newUser, username, email, Plain(password), "", "", "", None, []);
        if !PassesSchema(u) then (s, Unhandled)
        else
          var invited := PendingFor(s.invitations, email, now);
          (SignedUpStore(s, u, now, newHousehold, invited || householdSaveFails), SignedUp(newUser))
  }

  /** The store after the new user `u` passed the schema: `u` saved with the
      password hashed and, unless `noHousehold` (an invitation is pending
      for the address, or the household save fails), a household founded
      by `u`. */
  function SignedUpStore(s: Store, u: User, now: Time, newHousehold: Id, noHousehold: bool): (t: Store)
    requires u.id !in s.users && newHousehold !in s.households && !EmailTaken(s.users, u.email)
    requires u.password.Plain? && u.password.text != "" && u.household.None? && u.tokens == []
    ensures t.users.Keys == s.users.Keys + {u.id}
    ensures forall v :: v in s.users ==> t.users[v] == s.users[v]
    ensures t.users[u.id] == u.(password := Hashed(u.password.text), household := t.users[u.id].household)
    ensures t.invitations == s.invitations
    ensures noHousehold ==> t.users[u.id].household.None? && t.households == s.households
    ensures !noHousehold ==>
      && t.users[u.id].household == Some(newHousehold)
      && t.households == s.households[newHousehold := NewHousehold(newHousehold, DefaultHouseholdName(u.username), u.id, now)]
    ensures Valid(s) ==> Valid(t)
    ensures EmailsUnique(s.users) ==> EmailsUnique(t.users)
  {
    var saved := u.(password := PreSaveHook(u.password, true));
    var h := NewHousehold(newHousehold, DefaultHouseholdName(u.username), u.id, now);
    Register(s, saved, !noHousehold, h)
  }

  /** The store after a successful sign-up: the new user filed under their
      id and, when they found a household, that household filed under its
      id with the user pointing at it. The store invariant and the email
      uniqueness survive. */
  function Register(s: Store, u: User, founds: bool, h: Household): (t: Store)
    requires u.id !in s.users && !EmailTaken(s.users, u.email)
    requires h.id !in s.households && SoleOwner(h)
    ensures t.users == s.users[u.id := if founds then u.(household := Some(h.id)) else u]
    ensures t.households == if founds then s.households[h.id := h] else s.households
    ensures t.invitations == s.invitations
    ensures Valid(s) ==> Valid(t)
    ensures EmailsUnique(s.users) ==> EmailsUnique(t.users)
  {
    if founds then
      s.(users := s.users[u.id := u.(household := Some(h.id))], households := s.households[h.id := h])
    else
      s.(users := s.users[u.id := u])
  }

  // ---------------------------------------------------------------------------
  // userSignIn
  // ---------------------------------------------------------------------------

  /** A session token younger than one day: `(now - signedAt) / 1000 < 86400`. */
  predicate Fresh(t: SessionToken, now: Time) {
    now - t.signedAt < DayMs
  }

  /** The sign-in pruning: the stored tokens younger than a day, in order. */
  function PruneTokens(ts: seq<SessionToken>, now: Time): (r: seq<SessionToken>)
    ensures |r| <= |ts|
    ensures forall t :: t in r <==> t in ts && Fresh(t, now)
  {
    if |ts| == 0 then []
    else if Fresh(ts[0], now) then [ts[0]] + PruneTokens(ts[1..], now)
    else PruneTokens(ts[1..], now)
  }

  /** Pruning at a later instant after pruning at an earlier one is the same
      as pruning at the later one directly: tokens only ever grow stale. */
  lemma {:induction false} PruneLater(ts: seq<SessionToken>, now: Time, later: Time)
    requires now <= later
    ensures PruneTokens(PruneTokens(ts, now), later) == PruneTokens(ts, later)
  {
    if |ts| > 0 {
      PruneLater(ts[1..], now, later);
      if Fresh(ts[0], now) {
        assert ([ts[0]] + PruneTokens(ts[1..], now))[1..] == PruneTokens(ts[1..], now);
      }
    }
  }

  /** Pruning judges each token alone... */
  lemma PruneTokensSingle(x: SessionToken, now: Time)
    ensures PruneTokens([x], now) == if Fresh(x, now) then [x] else []
  {
    assert [x][1..] == [];
  }

  /** ...and distributes over concatenation, so the kept tokens stay in
      their order. */
  lemma {:induction false} PruneTokensConcat(a: seq<SessionToken>, b: seq<SessionToken>, now: Time)
    ensures PruneTokens(a + b, now) == PruneTokens(a, now) + PruneTokens(b, now)
  {
    if |a| == 0 {
      assert a + b == b;
    } else {
      assert (a + b)[0] == a[0];
      assert (a + b)[1..] == a[1..] + b;
      PruneTokensConcat(a[1..], b, now);
    }
  }

  /** Pruning twice at the same instant changes nothing more. */
  lemma PruneIdempotent(ts: seq<SessionToken>, now: Time)
    ensures PruneTokens(PruneTokens(ts, now), now) == PruneTokens(ts, now)
  {
    PruneLater(ts, now, now);
  }

  /** What a correct answer to `User.findOne({ email })` is. */
  predicate AnswersEmailQuery(users: Users, email: string, found: Option<Id>) {
    && (found.Some? ==> found.value in users && users[found.value].email == email)
    && (found.None? ==> !EmailTaken(users, email))
  }

  datatype SignInOutcome =
    | UnknownEmail
    | WrongPassword
    | SignedIn(user: Id, token: string)
    | SignInUnhandled

  /**
   `userSignIn`: an unknown address and a wrong password are refused, an
   empty password makes `comparePassword` throw. On success the new token is
   appended after the user's tokens younger than a day; nothing else of the
   store changes.
   */
  function SignIn(s: Store, email: string, password: string, now: Time, token: string, found: Option<Id>): (r: (Store, SignInOutcome))
    requires AnswersEmailQuery(s.users, email, found)
    ensures found.None? <==> r.1 == UnknownEmail
    ensures found.Some? && password == "" ==> r.1 == SignInUnhandled
    ensures !r.1.SignedIn? ==> r.0 == s
    ensures r.1.SignedIn? <==> found.Some? && password != "" && s.users[found.value].password == Hashed(password)
    ensures r.1.SignedIn? ==>
      var id := found.value;
      && r.1 == SignedIn(id, token)
      && r.0.users == s.users[id := s.users[id].(tokens := PruneTokens(s.users[id].tokens, now) + [SessionToken(token, now)])]
      && r.0.households == s.households && r.0.invitations == s.invitations
    ensures Valid(s) ==> Valid(r.0)
  {
    match found
    case None => (s, UnknownEmail)
    case Some(id) =>
      var user := s.users[id];
      match ComparePassword(user.password, password)
      case Err(_) => (s, SignInUnhandled)
      case Ok(isMatch) =>
        if !isMatch then (s, WrongPassword)
        else
          var tokens := PruneTokens(user.tokens, now) + [SessionToken(token, now)];
          (s.(users := s.users[id := user.(tokens := tokens)]), SignedIn(id, token))
  }

  /** After a sign-in every stored token of the user is younger than a day
      and the new one is the last. */
  lemma SignInLeavesFreshTokens(s: Store, email: string, password: string, now: Time, token: string, found: Option<Id>)
    requires AnswersEmailQuery(s.users, email, found)
    requires SignIn(s, email, password, now, token, found).1.SignedIn?
    ensures var r := SignIn(s, email, password, now, token, found);
      var ts := r.0.users[found.value].tokens;
      && |ts| > 0 && ts[|ts| - 1] == SessionToken(token, now)
      && (forall t :: t in ts ==> Fresh(t, now))
  {
  }

  // ---------------------------------------------------------------------------
  // signOut
  // ---------------------------------------------------------------------------

  /** The index of the first `c` in `s`. */
  function IndexOfChar(s: string, c: char): (r: Option<nat>)
    ensures r.Some? ==> r.value < |s| && s[r.value] == c && c !in s[..r.value]
    ensures r.None? <==> c !in s
  {
    if |s| == 0 then None
    else if s[0] == c then Some(0)
    else
      match IndexOfChar(s[1..], c)
      case None => None
      case Some(k) =>
        assert s[..k + 1] == [s[0]] + s[1..][..k];
        Some(k + 1)
  }

  /** `header.split(" ")[1]`: the text between the first and second space,
      or up to the end; undefined when the header holds no space. */
  function SecondField(header: string): (r: Option<string>)
    ensures r.None? <==> ' ' !in header
    ensures r.Some? ==> ' ' !in r.value
    ensures r.Some? ==> exists i :: (0 <= i && i + 1 + |r.value| <= |header|
                                     && header[i] == ' ' && header[i + 1..i + 1 + |r.value|] == r.value)
  {
    match IndexOfChar(header, ' ')
    case None => None
    case Some(i) =>
      var rest := header[i + 1..];
      match IndexOfChar(rest, ' ')
      case None => Some(rest)
      case Some(j) =>
        assert header[i + 1..i + 1 + j] == rest[..j];
        Some(rest[..j])
  }

  /** The usual `Authorization: Bearer <token>` header yields its token back. */
  lemma {:induction false} SecondFieldOfBearer(scheme: string, token: string)
    requires ' ' !in scheme && ' ' !in token
    ensures SecondField(scheme + " " + token) == Some(token)
  {
    var h := scheme + " " + token;
    FirstCharAfterPrefix(scheme, ' ', token);
    assert h[|scheme| + 1..] == token;
  }

  /** The first `c` of `w + [c] + t` sits right after `w` when `w` has none. */
  lemma {:induction false} FirstCharAfterPrefix(w: string, c: char, t: string)
    requires c !in w
    ensures IndexOfChar(w + [c] + t, c) == Some(|w|)
  {
    if |w| > 0 {
      assert (w + [c] + t)[1..] == w[1..] + [c] + t;
      FirstCharAfterPrefix(w[1..], c, t);
    }
  }

  datatype SignOutOutcome = NoResponse | Unauthorized | SignedOut

  /**
   `signOut`: without an Authorization header the handler never answers;
   a header without a second field, or an empty one, is refused with 401;
   otherwise every token of the caller equal to the presented one is
   dropped and nothing else changes.
   */
  function SignOut(s: Store, caller: Id, header: Option<string>): (r: (Store, SignOutOutcome))
    requires caller in s.users
    ensures (header.None? || header == Some("")) <==> r.1 == NoResponse
    ensures r.1 != SignedOut ==> r.0 == s
    ensures r.1 == SignedOut <==> header.Some? && SecondField(header.value).Some? && SecondField(header.value).value != ""
    ensures r.1 == SignedOut ==> caller in r.0.users
    ensures r.1 == SignedOut ==>
      var token := SecondField(header.value).value;
      var ts := r.0.users[caller].tokens;
      && r.0 == s.(users := s.users[caller := s.users[caller].(tokens := ts)])
      && (forall t :: t in ts <==> t in s.users[caller].tokens && t.token != token)
      && ts == DropToken(s.users[caller].tokens, token)
    ensures Valid(s) ==> Valid(r.0)
  {
    match header
    case None => (s, NoResponse)
    case Some(h) =>
      if h == "" then (s, NoResponse)
      else match SecondField(h)
        case None => (s, Unauthorized)
        case Some(token) =>
          if token == "" then (s, Unauthorized)
          else
            var user := s.users[caller];
            var ts := DropToken(user.tokens, token);
            (s.(users := s.users[caller := user.(tokens := ts)]), SignedOut)
  }

  /** `tokens.filter(t => t.token !== token)`. */
  function DropToken(ts: seq<SessionToken>, token: string): (r: seq<SessionToken>)
    ensures |r| <= |ts|
    ensures forall t :: t in r <==> t in ts && t.token != token
  {
    if |ts| == 0 then []
    else if ts[0].token != token then [ts[0]] + DropToken(ts[1..], token)
    else DropToken(ts[1..], token)
  }

  /** The filter works token by token: a single token is kept exactly when
      it differs from the presented one... */
  lemma DropTokenSingle(x: SessionToken, token: string)
    ensures DropToken([x], token) == if x.token == token then [] else [x]
  {
    assert [x][1..] == [];
  }

  /** ...and the filter distributes over concatenation, so what stays keeps
      its order and its repeats. */
  lemma {:induction false} DropTokenConcat(a: seq<SessionToken>, b: seq<SessionToken>, token: string)
    ensures DropToken(a + b, token) == DropToken(a, token) + DropToken(b, token)
  {
    if |a| == 0 {
      assert a + b == b;
    } else {
      assert (a + b)[0] == a[0];
      assert (a + b)[1..] == a[1..] + b;
      DropTokenConcat(a[1..], b, token);
    }
  }

  /** A list without the presented token is left exactly as it was. */
  lemma {:induction false} DropTokenAbsent(ts: seq<SessionToken>, token: string)
    requires forall i :: 0 <= i < |ts| ==> ts[i].token != token
    ensures DropToken(ts, token) == ts
  {
    if |ts| > 0 {
      DropTokenAbsent(ts[1..], token);
      assert ts == [ts[0]] + ts[1..];
    }
  }

  /** Signing in and then out with the token just issued leaves only the
      pruned older sessions: the new session is gone. */
  lemma SignInThenOut(s: Store, email: string, password: string, now: Time, token: string,
                      found: Option<Id>, scheme: string)
    requires AnswersEmailQuery(s.users, email, found)
    requires SignIn(s, email, password, now, token, found).1.SignedIn?
    requires token != "" && ' ' !in token && ' ' !in scheme
    ensures var s1 := SignIn(s, email, password, now, token, found).0;
      var r := SignOut(s1, found.value, Some(scheme + " " + token));
      && r.1 == SignedOut
      && SessionToken(token, now) !in r.0.users[found.value].tokens
  {
    SecondFieldOfBearer(scheme, token);
  }

  // ---------------------------------------------------------------------------
  // updateUserProfile, deleteUserAccount
  // ---------------------------------------------------------------------------

  datatype ProfileOutcome = UserNotFound | CurrentPasswordWrong | ProfileUpdated | ServerError

  /**
   `updateUserProfile`: a non-empty username different from the stored one
   replaces it; when both passwords are given the current one must match
   (400), and the new one is then stored hashed. A save the schema refuses
   is a 500. Nothing but username and password ever changes.
   */
  function UpdateUserProfile(s: Store, caller: Id, username: string, currentPassword: string, newPassword: string): (r: (Store, ProfileOutcome))
    ensures caller !in s.users <==> r.1 == UserNotFound
    ensures r.1 != ProfileUpdated ==> r.0 == s
    ensures caller in s.users && currentPassword != "" && newPassword != "" && s.users[caller].password != Hashed(currentPassword)
      <==> r.1 == CurrentPasswordWrong
    ensures caller in s.users && !(currentPassword != "" && newPassword != "" && s.users[caller].password != Hashed(currentPassword)) ==>
      var old_ := s.users[caller];
      var edited := old_.(username := if username != "" then Some(username) else old_.username,
                          password := if currentPassword != "" && newPassword != "" then Plain(newPassword) else old_.password);
      && (r.1 == ProfileUpdated <==> PassesSchema(edited))
      && (r.1 == ServerError <==> !PassesSchema(edited))
    ensures r.1 == ProfileUpdated ==> caller in s.users && caller in r.0.users
    ensures r.1 == ProfileUpdated ==>
      var old_ := s.users[caller];
      var new_ := r.0.users[caller];
      && r.0 == s.(users := s.users[caller := new_])
      && new_ == old_.(username := new_.username, password := new_.password)
      && new_.username == (if username != "" then Some(username) else old_.username)
      && (currentPassword != "" && newPassword != "" ==> new_.password == Hashed(newPassword))
      && (currentPassword == "" || newPassword == "" ==> new_.password == old_.password)
    ensures Valid(s) ==> Valid(r.0)
  {
    if caller !in s.users then (s, UserNotFound)
    else
      var user := s.users[caller];
      var user1 := if username != "" && Some(username) != user.username then user.(username := Some(username)) else user;
      if currentPassword != "" && newPassword != "" && ComparePassword(user.password, currentPassword) != Ok(true) then
        (s, CurrentPasswordWrong)
      else
        var modified := currentPassword != "" && newPassword != "";
        var user2 := if modified then user1.(password := Plain(newPassword)) else user1;
        if !PassesSchema(user2) then (s, ServerError)
        else
          var saved := user2.(password := PreSaveHook(user2.password, modified));
          (s.(users := s.users[caller := saved]), ProfileUpdated)
  }

  /** After a password change the new password, and only it, signs in. */
  lemma PasswordChangeRoundTrip(s: Store, caller: Id, username: string, currentPassword: string, newPassword: string, candidate: string)
    requires currentPassword != "" && newPassword != "" && candidate != ""
    requires UpdateUserProfile(s, caller, username, currentPassword, newPassword).1 == ProfileUpdated
    ensures var u := UpdateUserProfile(s, caller, username, currentPassword, newPassword).0.users[caller];
      ComparePassword(u.password, candidate) == Ok(candidate == newPassword)
  {
  }

  /** Sent by `u` or addressed to `email`. */
  predicate Dropped(inv: Invitation, u: Id, email: string) {
    inv.invitedBy == u || inv.email == email
  }

  /** Drops the invitations sent by `u` and those addressed to `email`. */
  function DropInvitationsOf(invs: Invitations, u: Id, email: string): (r: Invitations)
    ensures forall t :: t in r <==> t in invs && invs[t].invitedBy != u && invs[t].email != email
    ensures forall t :: t in r ==> r[t] == invs[t]
  {
    map t | t in invs && invs[t].invitedBy != u && invs[t].email != email :: invs[t]
  }

  datatype DeleteOutcome = AccountNotFound | AccountDeleted

  /**
   `deleteUserAccount`: the invitations the user sent and those addressed to
   the user's address are deleted, then the user. As at sign-up, the
   address filter goes through the invitation path's setters and so
   matches the normalized address. The household
   branch compares member entries with the user id and so never removes
   anything: households are left as they are.
   */
  function DeleteUserAccount(s: Store, caller: Id): (r: (Store, DeleteOutcome))
    ensures caller !in s.users <==> r.1 == AccountNotFound
    ensures r.1 == AccountNotFound ==> r.0 == s
    ensures r.1 == AccountDeleted ==>
      && r.0.users == s.users - {caller}
      && r.0.households == s.households
      && r.0.invitations == DropInvitationsOf(s.invitations, caller, NormalizeEmail(s.users[caller].email))
    ensures Valid(s) ==> Valid(r.0)
  {
    if caller !in s.users then (s, AccountNotFound)
    else
      var user := s.users[caller];
      (Store(s.users - {caller}, s.households, DropInvitationsOf(s.invitations, caller, NormalizeEmail(user.email))), AccountDeleted)
  }

  /** After deleting an account no invitation sent by the user or addressed
      to the account's address survives, and every other invitation does. */
  lemma DeleteAccountDropsInvitations(s: Store, caller: Id)
    requires caller in s.users
    ensures var invs := DeleteUserAccount(s, caller).0.invitations;
      && (forall t :: t in invs ==> invs[t].invitedBy != caller && invs[t].email != NormalizeEmail(s.users[caller].email))
      && (forall t :: t in s.invitations && !Dropped(s.invitations[t], caller, NormalizeEmail(s.users[caller].email)) ==> t in invs)
  {
  }
}
